=== FILE: README.md ===
# A verified model of a small BitTorrent-style file sharer

The system has three parts.

- **The tracker** keeps a registry of torrents: a map from content id (`infoHash`) to a torrent with one file and its swarm of peers. It answers two kinds of request. A publish registers a new torrent. An announce carries one of four events: STARTED, COMPLETED, REGULAR or STOPPED.
- **A peer agent** runs beside every client. It keeps a join record per torrent: upload and download totals plus a bitfield of held pieces. It stores pieces as 16 KiB blocks, serves a piece as a stream of blocks, and reassembles stored pieces on request.
- **The client** does the rest. It cuts a file into 512 KiB pieces, hashes them and publishes them. When downloading, it handshakes with the other peers and picks the first holder of each piece. It requests at most 120 missing pieces per round, rebuilds each piece from its blocks, and accepts a piece only when its digest matches. It then announces its progress and, once every piece is valid, asks its agent to reassemble the file.

Each part is modelled as pure state transitions over immutable data:

- maps for the registry, the join records and the agent's storage;
- sequences for bitfields, peer lists and bytes.

SHA-256 is a function parameter (`Common.Hasher`), so no property depends on the digest itself.

| module | file | what it holds |
|---|---|---|
| `Common` | `common.dfy` | bytes, `Option`, the constants (512 KiB piece, 16 KiB block, 210 MiB upload cap, 120-piece round cap, the 2000 port offset), ceiling division, concatenation, counting, JavaScript array stores |
| `Chunking` | `chunking.dfy` | cutting bytes into fixed-size parts; the offset of each part; uniqueness of the partition |
| `Content` | `content.dfy` | `Piece`, `TorrentPeer`, `TorrentFile` and `Torrent`, with their constructors and methods |
| `Tracker` | `tracker.dfy` | publish, the announce branches, and role and progress invariants over histories |
| `PeerAgent` | `peer_agent.dfy` | the agent's message handlers over an abstract store; the block split/reassemble round trip |
| `Assembly` | `assembly.dfy` | the client rebuilding a piece from `piece_info`/`block_data`, and the final file from reassembled pieces |
| `Orchestrator` | `orchestrator.dfy` | publishing a file, joining a download, source selection, the request cap, one download round, and agreement between client and agent |

## Behaviour as written

- **A 700 KiB file has a 192512-byte second piece** (716800 − 524288). That is what `Math.min(512 * 1024, size - index * 512 * 1024)` gives (`Content.SevenHundredKibibyteFile`).
- **PIECE_UPLOAD marks the bitfield entry and replies success before the asynchronous writes finish** (backend/src/server.ts:237-283). A failed write therefore still marks the piece, and the failures arrive later. A failed piece-file write draws one UPLOAD_FAIL and writes no block. Otherwise each block is written with its own callback: every failed block write draws its own UPLOAD_FAIL and leaves a hole in the block directory, which reassembly then skips (`PeerAgent.BlockFailureShortensPiece`). The file-system outcomes are the parameter `PeerAgent.Io`.
- **The publishing client closes its agent socket on the first UPLOAD_FAIL** (frontend/src/App.tsx:135-139). PIECE_UPLOADs already on their way still arrive and later ones never do. How many were already on their way is the parameter `lag` of `Orchestrator.DeliverUpload`.
- **Each piece of COMBINE_PIECES fails on its own** (backend/src/server.ts:320-358). A listing error replies COMBINE_FAIL and nothing else. Each unreadable block replies COMBINE_FAIL and is left out of the concatenation, because the `return` in the `forEach` callback only skips that block. A failed write replies COMBINE_FAIL and sends no data. A failed read-back replies COMBINE_FAIL although the piece file was written.
- **COMPLETED's `break` leaves only the inner loop.** The first matching member of *every* torrent becomes a seeder.
- **REGULAR credits the serving peer before it looks for the requester.** If the requester is not a member, the reply is REGULAR_FAIL but the serving peer's credit stays.
- **REGULAR reads `torrentMap[infoHash]` and `seedingPeerInfo` without a guard.** A call without them throws out of the handler. The model therefore requires both (`Tracker.AnnounceRegular`, `Tracker.Announce`).
- **The client waits for every handshake with `Promise.all`.** A peer that answers HANDSHAKE_FAIL never resolves its promise, so the round stalls. The peer is not skipped (`Orchestrator.Round`: `Stalled`).
- **A socket keeps only the handler of its last request** (frontend/src/App.tsx:352). Each request assigns `onmessage` on the peer's socket, so on a socket asked for several pieces the earlier requests never see a message: nothing cancels their 50 s timers (App.tsx:441-444), and they always end. The last request's timer is cancelled by the first message on the socket (App.tsx:353-355), and that request then ends only when some piece on the socket passes the hash gate (App.tsx:436), whichever piece it is. So one verified piece ends every request on its socket (`Orchestrator.VerifiedPieceServesSocket`, `Orchestrator.OneBadCopyRetries`). A socket that received something but none of whose pieces verifies, say every copy fails the hash or the peer answered each request with an `error`, leaves its last request pending: `Promise.all` never fires and no retry follows (`Orchestrator.UnverifiedSocketStalls`). When every such socket delivered a verified piece, the round settles and retries iff the file is still short (`Orchestrator.ServedSocketsSettle`).
- **On the final COMBINE_BLOCKS_SUCCESS, the per-download record is deleted only when a file is produced.** A missing index returns early and a piece running past the buffer throws; both leave the record in place.
- **The client and its agent are assumed to agree on pieces.** The bitfield the client takes from its join record is the one its agent marks. `Orchestrator.AgentFollowsRound` proves the two stay equal across a round.
- **Handshake bitfields are pushed in arrival order, sockets in list order** (frontend/src/App.tsx:270 and 286). Piece `p` is then asked of the peer at the list position of the first bitfield that marks it, which is a different peer when answers arrive out of list order. The arrival order is a parameter of the round. When it is the list order every asked peer holds its piece (`Orchestrator.InOrderAnswersAskHolders`); when two seeders of halves answer in reverse order, each is asked for the other's half (`Orchestrator.HalvesSwapped`).

## Model

| member | source | states |
|---|---|---|
| Common.CeilDiv | frontend/src/App.tsx:68 | the piece count is zero only for an empty file, covers the size, and is the least such count |
| Common.CountTrue | frontend/src/App.tsx:322-328 | the count of held pieces never exceeds the bitfield length; it equals the length iff every entry is set, and is zero iff none is |
| Common.StoreAt | frontend/src/App.tsx:377 | a JavaScript array store sets the index, grows the array when the index is past its end (filling with the default), and keeps every other entry |
| Chunking.Split | backend/src/server.ts:207-210 | the parts number ceil(len/size), are non-empty and at most `size` long, all but the last are exactly `size`, and concatenated in order they give the data back |
| Chunking.SplitPart | backend/src/server.ts:207-210 | part `k` is exactly bytes `[size·k, min(size·(k+1), len))` |
| Chunking.SplitUnique | backend/src/server.ts:247-250 | any sequence of non-empty parts that concatenates to the data, with all parts but the last full, is the split: the block layout is unique |
| Content.NewPiece | frontend/src/models/Piece.ts:1-8 | a new piece carries the given index, hash and size and is not downloaded |
| Content.MarkAsDownloaded | frontend/src/models/Piece.ts:10-12 | the flag is set and index, hash and size are kept |
| Content.MarkAsDownloadedIdempotent | frontend/src/models/Piece.ts:10-12 | marking twice is the same as marking once |
| Content.DownloadedIsMonotone | frontend/src/models/Piece.ts:1-13 | along any history of piece steps the downloaded flag never returns to false and index, hash and size never change |
| Content.NewPeer | frontend/src/models/TorrentPeer.ts:10-23 | exactly one role flag holds, `isLeeching` is the negation of `isSeeder`, `downloaded` starts at 0 and `uploaded` is the argument |
| Content.NewPeerDefaultsToLeecher | frontend/src/models/TorrentPeer.ts:15 | omitting the role makes a leecher |
| Content.Promote | backend/src/tracker.ts:187-188 | a promoted member is a seeder and not a leecher, with identity and counters unchanged |
| Content.DerivePieces | backend/src/models/Torrent.ts:19-21 | one piece per hash; piece `i` has index `i`, the `i`-th hash and size `min(524288, size − 524288·i)`, and is not downloaded |
| Content.TotalSizeOfDerived | backend/src/models/Torrent.ts:19-21 | the total size of the derived pieces is the running sum of the per-index sizes |
| Content.PieceCoverage | backend/src/models/Torrent.ts:20 | with one hash per 512 KiB of the file, every piece is non-empty and the sizes add up to the file size |
| Content.ExtraHashHasNoBytes | backend/src/models/Torrent.ts:20 | a hash past the extent of the file yields a piece of size zero or less |
| Content.OneMebibyteFile | backend/src/models/Torrent.ts:20 | a 1 MiB file gives two pieces of 524288 bytes |
| Content.SevenHundredKibibyteFile | backend/src/models/Torrent.ts:20 | a 700 KiB file needs two pieces, of 524288 and 192512 bytes |
| Content.NewTorrent | backend/src/models/Torrent.ts:9-25 | the torrent keeps its id and peers; its files follow the input order with derived pieces, and absent hashes give no pieces |
| Content.AddPeer | backend/src/models/Torrent.ts:35-37 | exactly one peer is appended, the earlier peers keep their order, and id and files are unchanged |
| Content.WithoutPeer | backend/src/models/Torrent.ts:39-41 | survivors are exactly the peers with a different id; nothing changes when no peer has the id |
| Content.WithoutPeerKeepsOrder | backend/src/models/Torrent.ts:39-41 | filtering distributes over concatenation, so the survivors keep their relative order |
| Content.RemovePeer | backend/src/models/Torrent.ts:39-41 | all and only peers with the id are removed; id and files are kept |
| Content.RemovePeerIdempotent | backend/src/models/Torrent.ts:39-41 | removing twice equals removing once |
| Content.RemoveUndoesAdd | backend/src/models/Torrent.ts:35-41 | removing a peer just added, whose id was new, restores the torrent |
| Tracker.Publish | backend/src/tracker.ts:29-93 | fails iff a field is falsy, the hashes are not an array, or the id is taken, each with its own reason, with no change and no broadcast; success adds exactly the new id, keeps every other torrent, and registers one file with derived pieces and the publisher as sole seeder with zero counters |
| Tracker.SecondPublishConflicts | backend/src/tracker.ts:48-54 | publishing an id a second time is a conflict and leaves the registry as the first publish left it |
| Tracker.PublishKeepsRoles | backend/src/tracker.ts:57-60 | publishing keeps every member with exactly one role flag |
| Tracker.FindPeer | backend/src/tracker.ts:231-240 | the result is the first member matching id, address and port, and none is found only when no member matches |
| Tracker.FindPeerIgnoresCounters | backend/src/tracker.ts:223-240 | crediting counters never changes which member a search finds |
| Tracker.AnnounceStarted | backend/src/tracker.ts:147-177 | an unknown torrent fails with no change; a known id succeeds without change or broadcast; otherwise exactly one leecher is appended with the given `uploaded`, and every other torrent is kept |
| Tracker.StartedTwiceAddsOnce | backend/src/tracker.ts:153-177 | a second STARTED by the same peer succeeds and changes nothing |
| Tracker.AnnounceCompleted | backend/src/tracker.ts:179-212 | fails, with no change, iff no torrent has a member matching the requester; otherwise in every torrent the first such member is promoted and no other member changes |
| Tracker.CreditUploaded | backend/src/tracker.ts:223-228 | only the first member matching the seeding info gains the amount in `uploaded` |
| Tracker.CreditDownloaded | backend/src/tracker.ts:231-241 | only the first member matching the requester gains the amount in `downloaded`, and it becomes a seeder iff the new total equals the file size |
| Tracker.AnnounceRegular | backend/src/tracker.ts:214-262 | succeeds iff the requester is a member; the serving peer is credited either way; the requester gains `downloaded` and turns seeder exactly at the file size; nothing else changes |
| Tracker.RegularStep | backend/src/tracker.ts:231-241 | one report keeps the requester at the same index and adds the amount to its total |
| Tracker.ReportAll | backend/src/tracker.ts:214-241 | a series of reports keeps the registry's ids and the torrent's peer count |
| Tracker.ProgressIsCumulative | backend/src/tracker.ts:231-237 | after any series of reports a member's `downloaded` is its start plus the sum, and it is a seeder iff it was one or some running total hit the file size exactly |
| Tracker.AnnounceStopped | backend/src/tracker.ts:264-288 | an unknown torrent fails with no change; otherwise every member with the id is removed from that torrent only, and success is replied even when none was present |
| Tracker.Announce | backend/src/tracker.ts:142-293 | a missing or unknown event replies ANNOUNCE_FAIL with no change, and only such an event does; the registry's ids never change |
| Tracker.AnnounceKeepsRoles | backend/src/tracker.ts:184-241 | every announce keeps every member with exactly one role flag |
| PeerAgent.OnFileUpload | backend/src/server.ts:55-81 | fails iff the client port is not the agent port minus 2000; otherwise every client is told the chunk size and the sender gets success; the agent is unchanged |
| PeerAgent.OnPeerConnect | backend/src/server.ts:82-93 | the agent remembers the client and keeps its records and store |
| PeerAgent.OnAddNewJoined | backend/src/server.ts:94-114 | the record for the id is replaced by zero totals and `bitfieldLength` entries all equal to `isSeeder`; other records are kept |
| PeerAgent.OnUpdateJoined | backend/src/server.ts:115-136 | adds the amounts and keeps the bitfield; replies on the sender's connection for a download and on the client's for an upload; an unknown id changes nothing and replies nothing |
| PeerAgent.OnHandshake | backend/src/server.ts:290-297 | replies with the stored bitfield iff a record exists, and otherwise fails; the agent is unchanged |
| PeerAgent.BlockMessages | backend/src/server.ts:207-210 | block message `k` carries block `k`, numbered from the first index |
| PeerAgent.ServeReplies | backend/src/server.ts:205-210 | one `piece_info` with the length and seeder, then ceil(len/16384) numbered blocks, all full except the last, whose concatenation is the piece |
| PeerAgent.ServedBlockContents | backend/src/server.ts:207-210 | block `k` is bytes `[16384k, min(16384(k+1), len))` |
| PeerAgent.OnPieceDownload | backend/src/server.ts:165-212 | without a client id an error; without the file's directory, or when reading any stored piece of the file throws in the synchronous pass, nothing; a missing piece or a failing read of it an error; otherwise exactly the served stream of the stored piece |
| PeerAgent.WriteBlocks | backend/src/server.ts:247-268 | block `k` is written as entry `k` unless its own write fails, in which case the old entry, if any, stays; leftover entries past the new blocks survive |
| PeerAgent.StorePiece | backend/src/server.ts:221-270 | the directories always exist afterwards; a failed piece write stores neither the piece nor any block; otherwise the piece is stored and every block whose write succeeds; other pieces are untouched |
| PeerAgent.LateFailures | backend/src/server.ts:237-267 | the late replies are all UPLOAD_FAIL: one for a failed piece write, otherwise one per failed block write |
| PeerAgent.UploadFailIffWriteFails | backend/src/server.ts:237-267 | an upload is answered with UPLOAD_FAIL iff its piece write or the write of one of its blocks fails |
| PeerAgent.BlockFailureShortensPiece | backend/src/server.ts:258-263 | when one block's write fails on a fresh directory, the piece file is whole but the block is missing and the directory reassembles to fewer bytes than the piece |
| PeerAgent.MarkPiece | backend/src/server.ts:273 | the entry is set and no other entry changes; a negative index changes nothing; an index past the end grows the array with unset entries |
| PeerAgent.OnPieceUpload | backend/src/server.ts:213-289 | without a client id UPLOAD_FAIL and no change; otherwise the piece is stored under the client's id and, for a joined torrent, its entry is marked whatever the write outcomes and success is replied at once, followed by the late UPLOAD_FAILs; an unjoined torrent throws before the success reply and gets only the late UPLOAD_FAILs |
| PeerAgent.UploadIgnoresContent | backend/src/server.ts:244-273 | the join records after an upload do not depend on the piece's bytes: the computed digest is discarded |
| PeerAgent.SortedIndices | backend/src/server.ts:327-329 | the block indices in strictly ascending numeric order, each exactly once |
| PeerAgent.SortedIndicesOfRange | backend/src/server.ts:327-329 | indices `0 .. n−1` sort to themselves |
| PeerAgent.ReassembleRange | backend/src/server.ts:327-345 | a directory holding exactly blocks `0 .. n−1` reassembles to their concatenation |
| PeerAgent.UploadThenReassemble | backend/src/server.ts:247-345 | splitting a piece into blocks and reassembling the block directory gives the piece back |
| PeerAgent.CombineOne | backend/src/server.ts:320-368 | for one piece: a listing error replies COMBINE_FAIL alone and writes nothing; each unreadable block adds a COMBINE_FAIL; a write error writes nothing and replies COMBINE_FAIL; a read-back error writes the piece but replies COMBINE_FAIL; only a fault-free piece sends its readable blocks' reassembly, and any failures come first |
| PeerAgent.CombinedOutput | backend/src/server.ts:314-352 | a piece file is written exactly for each index below the count whose block directory exists and whose listing and write succeed, and it holds the reassembly of the readable blocks |
| PeerAgent.CombineReplies | backend/src/server.ts:316-375 | every reply is COMBINE_FAIL or the reassembly of an in-range piece with a block directory; every fault-free piece is sent; COMBINE_FAIL appears iff some piece in range is faulty; pieces without a directory are skipped silently |
| PeerAgent.CombineRepliesInIndexOrder | backend/src/server.ts:316-375 | success replies come in ascending piece index; the callbacks in the code promise no order, so this order is the model's choice |
| PeerAgent.OnCombinePieces | backend/src/server.ts:298-376 | replies only COMBINE_FAIL iff the file's chunk directory is missing; otherwise, over the indices below the record's bitfield length, every fault-free piece with a block directory is sent, a piece file is written exactly where listing and write succeed, COMBINE_FAIL is replied iff some piece is faulty, records and stored pieces are untouched, and other combined files are kept |
| PeerAgent.Handle | backend/src/server.ts:55-379 | a message lacking a field its branch tests changes nothing and replies nothing; every other message goes to the handler of its kind with its fields |
| PeerAgent.HandlersSeeOwnIo | backend/src/server.ts:55-379 | each handler depends only on the file-system calls it makes: PIECE_UPLOAD and COMBINE_PIECES on writes and reassembly, PIECE_DOWNLOAD on its reads, every other message on none; handshakes, downloads, FILE_UPLOAD and unhandled messages never change the agent |
| PeerAgent.UploadSeesWrites | backend/src/server.ts:237-283 | a PIECE_UPLOAD's outcome is the same for any two file-system outcomes that agree on writes and reassembly |
| PeerAgent.CombineSeesWrites | backend/src/server.ts:298-376 | a COMBINE_PIECES's outcome is the same for any two file-system outcomes that agree on writes and reassembly |
| PeerAgent.CombineRepliesSeeWrites | backend/src/server.ts:316-375 | the reassembly replies for a range of pieces are the same for any two file-system outcomes that agree on writes and reassembly |
| PeerAgent.ReadableSeesWrites | backend/src/server.ts:333-342 | which blocks reassembly can read depends only on the reassembly outcomes |
| PeerAgent.AcceptStoresBlocks | backend/src/server.ts:221-273 | when every write succeeds, the piece's block directory holds its 16 KiB blocks over the old entries and the record keeps its length |
| PeerAgent.CombineSendsReassembly | backend/src/server.ts:316-365 | with no combine fault for a piece in range that has a block directory, COMBINE_PIECES sends the reassembly of that directory |
| PeerAgent.AcceptThenCombine | backend/src/server.ts:213-376 | after an upload of a non-empty piece whose writes all succeed, a COMBINE_PIECES without faults for that piece sends that very piece back |
| PeerAgent.AcceptThenServe | backend/src/server.ts:165-289 | after an upload whose piece write succeeds, a PIECE_DOWNLOAD whose reads succeed streams exactly that piece, whatever happened to its blocks; a failing read of any stored piece of the file sends nothing, and a failing read of the piece alone an error |
| Assembly.OnPieceInfo | frontend/src/App.tsx:360-365 | a zeroed buffer of the piece size and ceil(size/16384) unset flags |
| Assembly.WriteAt | frontend/src/App.tsx:376 | the block lands at the offset and every other byte is kept |
| Assembly.OnBlock | frontend/src/App.tsx:367-382 | ignored before `piece_info` or for an empty piece; a block past the buffer throws; otherwise the block is written at 16384·index, its flag is set, other bytes and flags are kept, and the piece completes iff every flag is set |
| Assembly.Receive | frontend/src/App.tsx:352-382 | one message to the piece handler; only the bound of one emitted piece, the rest is stated by `Assembly.ReceiveShape` |
| Assembly.ReceiveAll | frontend/src/App.tsx:352-382 | a stream of messages in order; only the bound of one piece per message, the rest is stated by `Assembly.ReceiveAllShape` and `Assembly.ReceivePrefix` |
| Assembly.ReceiveShape | frontend/src/App.tsx:360-382 | after one message the piece has a record iff it had one or this is its `piece_info`; a piece is emitted only for a block of it, with the buffer's length |
| Assembly.ReceiveAllShape | frontend/src/App.tsx:360-382 | over a stream the piece has a record iff it had one or its `piece_info` arrived; a piece is emitted only after one of its blocks; the record and every emitted piece have the starting length or an announced size |
| Assembly.ReceivePrefix | frontend/src/App.tsx:360-382 | the info and the first `k` blocks of a served stream give the partial piece, and the piece is emitted only after the last block |
| Assembly.ServedPieceIsRebuilt | frontend/src/App.tsx:360-382 | receiving the whole stream an agent serves for a non-empty piece yields exactly that piece, once |
| Assembly.AssembleFrom | frontend/src/App.tsx:624-634 | an assembled file has the file size; an abort names the first absent index, and every earlier index was present |
| Assembly.AssembleInOrder | frontend/src/App.tsx:624-634 | with every index present and sizes adding up, the file is the pieces concatenated in index order |
| Assembly.MissingIndexAborts | frontend/src/App.tsx:626-633 | an absent index below the count means no file is produced |
| Assembly.OnCombined | frontend/src/App.tsx:610-649 | assembly happens iff this message brings the count to the piece count; the record is dropped iff a file is produced; the file has the file size |
| Assembly.LastPieceDeliversFile | frontend/src/App.tsx:619-636 | when the last expected piece arrives and all indices are present with the right total size, the file is their concatenation in index order and the record is dropped |
| Assembly.ChunksGiveBackFile | frontend/src/App.tsx:622-634 | the publisher's 512 KiB chunks, received as pieces, reassemble into the original file |
| Orchestrator.PlanUpload | frontend/src/App.tsx:55-160 | nothing happens iff the page lacks its address or port or the file is over 210 MiB; otherwise ceil(size/512 KiB) chunks that concatenate to the file, each hashed; the agent gets FILE_UPLOAD on port − 2000, a seeder record and every chunk in order; the tracker gets the metadata with the file name as id |
| Orchestrator.ChunkIsSlice | frontend/src/App.tsx:67-73 | chunk `i` is the slice `[524288i, min(524288(i+1), size))` of the file |
| Orchestrator.ChunkSizes | backend/src/models/Torrent.ts:20 | the tracker's derived piece sizes equal the lengths of the client's chunks |
| Orchestrator.PublishedPiecesAreTheChunks | frontend/src/App.tsx:147-160 | after a successful publish the registered pieces match the chunks one by one, in hash and size, and add up to the file size |
| Orchestrator.PublishAcceptedIff | backend/src/tracker.ts:32-54 | for a page that may publish (address, port, size within the cap), the tracker accepts iff the client has an id, the file is non-empty and named, and the name is not yet registered |
| Orchestrator.OwnAgentAcceptsFileUpload | frontend/src/App.tsx:83-91 | the client's FILE_UPLOAD passes its own agent's port check |
| Orchestrator.UploadMessages | frontend/src/App.tsx:97-124 | one PIECE_UPLOAD per chunk, in order, each carrying its index and bytes |
| Orchestrator.UploadsStoreChunks | frontend/src/App.tsx:95-124 | the agent stores every chunk under the client's id and leaves other pieces as they were |
| Orchestrator.PublisherBecomesSeeder | frontend/src/App.tsx:82-139 | without write failures every publishing message reaches the agent, its record marks every piece and every chunk is stored |
| Orchestrator.DeliverUpload | frontend/src/App.tsx:97-139 | only the bound `r.1 <= |msgs|`; see `Orchestrator.DeliveredPrefix`, `Orchestrator.ShortOnlyAfterFailure` and `Orchestrator.FailureCutsShort` |
| Orchestrator.HandleAll | backend/src/server.ts:51-60 | the agent handling messages one after another; only that its port is kept, what it does is stated by `Orchestrator.DeliveredPrefix`, `Orchestrator.PublisherBecomesSeeder` and `Orchestrator.AgentFollowsRound` |
| Orchestrator.DeliveredPrefix | frontend/src/App.tsx:97-139 | the agent ends as if it had handled the delivered messages in order |
| Orchestrator.ShortOnlyAfterFailure | frontend/src/App.tsx:135-139 | delivery stops short only after a message draws UPLOAD_FAIL, and then exactly `lag` messages after the first such message |
| Orchestrator.FailureCutsShort | frontend/src/App.tsx:135-139 | a failure more than `lag` messages before the end cuts delivery short |
| Orchestrator.UploadsDeliverAll | frontend/src/App.tsx:97-124 | without write failures every PIECE_UPLOAD reaches a seeding agent |
| Orchestrator.PublishDeliversAll | frontend/src/App.tsx:82-139 | without write failures the whole publication reaches the agent |
| Orchestrator.PieceWriteFailIsReported | backend/src/server.ts:237-242 | a failed piece write draws UPLOAD_FAIL |
| Orchestrator.FailedWriteStopsUpload | frontend/src/App.tsx:135-139 | when chunk 0's write fails, the agent gets FILE_UPLOAD, the seeder record, chunk 0 and the `lag` chunks after it, and never the rest |
| Orchestrator.JoinBitfield | frontend/src/App.tsx:233-248 | an existing record's bitfield is reused unchanged; otherwise all-false with one entry per piece, and the agent is told to create the record |
| Orchestrator.JoinAgreesWithAgent | frontend/src/App.tsx:242-248 | the record the agent creates holds exactly the client's fresh bitfield, with zero totals |
| Orchestrator.Candidates | frontend/src/App.tsx:267-270 | the contacted peers are exactly the torrent's peers on another port |
| Orchestrator.FirstHolder | frontend/src/App.tsx:311-320 | the first peer whose bitfield marks the piece; none only when no peer marks it |
| Orchestrator.SelectSources | frontend/src/App.tsx:307-320 | each piece maps to its first holder in list order, or to none iff no peer holds it |
| Orchestrator.RequestsAreWanted | frontend/src/App.tsx:332-343 | requests are exactly the lacking, sourced pieces within the 120-lacking window, strictly ascending |
| Orchestrator.PlanRequests | frontend/src/App.tsx:332-343 | the loop with its `break` and `continue` issues exactly the wanted requests |
| Orchestrator.NothingPastCap | frontend/src/App.tsx:333-335 | once 120 lacking pieces lie behind, nothing further is requested, sourced or not |
| Orchestrator.RequestsCapped | frontend/src/App.tsx:332-339 | a round requests at most 120 pieces |
| Orchestrator.AskEffects | frontend/src/App.tsx:340-343 | one PIECE_DOWNLOAD per requested piece, to the peer chosen for it |
| Orchestrator.AskedWereRequested | frontend/src/App.tsx:340-343 | only a requested piece has a serving peer |
| Orchestrator.PeerBitfields | frontend/src/App.tsx:283-287 | bitfield `i` is the answer of the peer whose answer arrived `i`-th |
| Orchestrator.AskedPeerIsSlotPeer | frontend/src/App.tsx:270-343 | a piece is asked of the contacted peer at the position of the first bitfield marking it, and that bitfield is the answer that arrived at that position |
| Orchestrator.InOrderAnswersAskHolders | frontend/src/App.tsx:270-343 | when the answers arrive in list order, every asked peer holds the piece it is asked for |
| Orchestrator.Accept | frontend/src/App.tsx:388-435 | an accepted piece bumps the counter, is stored with the own agent and reported to the tracker crediting its seeder; COMPLETED is sent iff the counter reaches the piece count |
| Orchestrator.OnComplete | frontend/src/App.tsx:383-437 | a requested piece passing the hash gate is accepted and counted; anything else changes nothing |
| Orchestrator.AcceptedAreVerified | frontend/src/App.tsx:383-389 | the counter is the held count plus the accepted pieces, and each accepted piece was requested and arrived with a matching digest |
| Orchestrator.AllAccepted | frontend/src/App.tsx:383-389 | when every completion was requested and verifies, all are accepted in arrival order |
| Orchestrator.CompletedWhenCountReached | frontend/src/App.tsx:420-435 | COMPLETED is announced in a round exactly when the counter crosses the piece count in it |
| Orchestrator.MarkAll | backend/src/server.ts:272-273 | entry `p` is set afterwards iff it was set or `p` was accepted, and the length is kept when every accepted index is in range |
| Orchestrator.Round | frontend/src/App.tsx:257-456 | no peers ends the round, and so does a missing handshake; otherwise at most 120 lacking pieces are requested, only requested pieces that arrived verified are accepted, the new bitfield is the old one plus the accepted pieces, COMPLETED is sent iff the counter crosses the piece count, the round settles iff every asked socket that received something had some piece accepted, and a retry follows iff it settles and falls short |
| Orchestrator.RunRound | frontend/src/App.tsx:306-456 | after the handshakes: the requests are at most 120 lacking pieces, the accepted ones were requested and arrived verified, the bitfield and counter grow by exactly the accepted pieces, COMPLETED iff the counter crosses the piece count, settled per socket and a retry iff settled and short |
| Orchestrator.EveryRequestAcceptedSettles | frontend/src/App.tsx:352-444 | a round in which every requested piece was accepted has settled |
| Orchestrator.UnverifiedSocketStalls | frontend/src/App.tsx:352-455 | a socket that was asked for pieces and received something, none of whose pieces arrives verified, keeps the round from settling, and no retry follows |
| Orchestrator.VerifiedIsAccepted | frontend/src/App.tsx:383-437 | a requested piece that arrives verified is accepted whatever arrives before or after it |
| Orchestrator.VerifiedPieceServesSocket | frontend/src/App.tsx:352-444 | one verified piece on a socket serves that socket, whatever became of its other pieces |
| Orchestrator.ServedSocketsSettle | frontend/src/App.tsx:352-455 | when every asked socket that received something delivered a verified piece, the round settles, and it retries iff the counter falls short of the piece count |
| Orchestrator.ServedIsSettled | frontend/src/App.tsx:352-444 | the round has settled when every asked socket that received something was served |
| Orchestrator.OneBadCopyRetries | frontend/src/App.tsx:352-455 | one seeder asked for both pieces of a two-piece file, piece 0 failing the hash and piece 1 passing: one piece is accepted, the round settles and a retry follows |
| Orchestrator.Settled | frontend/src/App.tsx:352-444 | the definition behind `Round`'s settled flag: every asked socket that received something had some piece accepted (stated by the lemmas above) |
| Orchestrator.Verified | frontend/src/App.tsx:386-388 | the hash gate: the torrent lists a non-empty digest for the piece and the bytes hash to it (used by `Orchestrator.OnComplete`) |
| Orchestrator.OnCompleteAll | frontend/src/App.tsx:383-437 | the handler run on each completed piece in arrival order; what it produces is stated by `Orchestrator.AcceptedAreVerified`, `Orchestrator.AllAccepted` and `Orchestrator.VerifiedIsAccepted` |
| Orchestrator.CoveredAreAccepted | frontend/src/App.tsx:383-389 | every lacking piece that is held by a peer and arrives verified is accepted, and the counter reaches the bitfield length |
| Orchestrator.CoveredRoundCompletes | frontend/src/App.tsx:306-456 | when the peers hold every lacking piece, at most 120 are lacking, and each arrives verified, the round sets every entry, reaches the piece count, announces COMPLETED unless already complete, settles, and does not retry |
| Orchestrator.AcceptOwnMessages | frontend/src/App.tsx:391-431 | an accepted piece sends its own agent PIECE_UPLOAD and UPDATE_JOINED_TORRENTS, plus COMBINE_PIECES when the counter reaches the piece count |
| Orchestrator.AgentMarksPiece | backend/src/server.ts:272-273 | the own agent's PIECE_UPLOAD marks exactly that piece in the torrent's record |
| Orchestrator.AgentFollowsAccept | frontend/src/App.tsx:391-431 | handling one accepted piece's messages, the agent marks that piece and keeps everything else of the record's bitfield |
| Orchestrator.AgentFollowsRound | frontend/src/App.tsx:391-431 | after a round the agent's bitfield is the client's bitfield plus the accepted pieces, whatever the write outcomes |
| Orchestrator.HalvesSources | frontend/src/App.tsx:307-320 | with seeders holding halves of a 4-piece file answering in list order, both are contacted and each is the source of its own half |
| Orchestrator.HalvesSwapped | frontend/src/App.tsx:270-343 | when the same two seeders answer in reverse order, piece 0 is asked of the seeder lacking it and piece 2 of the other, which lacks it too |

## Left out

- **Transport and encoding:** WebSocket and HTTP transport, JSON encoding and the broadcast fan-out. A broadcast is modelled only as a boolean flag on the tracker's outcome, and the agent's FILE_CHUNKED fan-out as one reply addressed to all clients.
- **Filesystem calls:** these are replaced by an abstract store of per-file directories, pieces, block directories and combined files. Asynchronous callback ordering is not modelled. A failing file-system call is given by `PeerAgent.Io`; a download reads a piece twice, once in its synchronous pass over the chunk directory and once to send it, and each read has its own outcome. The store holds only files, so the pass never meets a sub-directory and never skips one (backend/src/server.ts:188-194).
- **SHA-256 and hex encoding:** the digest is the parameter `Hasher`.
- **Timing:** timers, the 10 s receive delay, the 5 s combine delay, the 50 s piece timeouts, and `Promise.all` scheduling are not modelled. A round is given the handshake answers' arrival order, the set of sockets that received some message, and the completed pieces in arrival order. An upload is given the number `lag` of PIECE_UPLOADs already sent when the first UPLOAD_FAIL is read.
- **Replaced handlers:** a socket's message handler is the one of the last piece requested on it. It keys its state by the message's piece index, so it handles every piece asked of the socket; the model therefore takes each socket's completions as handled and settles requests per socket. The earlier requests' 50 s timers also close the socket; which pieces arrive before that is timing, given by the completions.
- Orchestrator.Accept: every socket an accepted piece writes to is taken to be open: the client's own agent socket, the serving peer's socket and the tracker socket. The `readyState === OPEN` guards are not modelled, at frontend/src/App.tsx:391 (PIECE_UPLOAD and the REGULAR announce), App.tsx:412 (the own UPDATE_JOINED), App.tsx:416 (the serving peer's UPDATE_JOINED), App.tsx:424 (COMBINE_PIECES) and App.tsx:432 (COMPLETED). When one of these sockets is closed, the source drops the message that `Orchestrator.StoreEffects` or `Orchestrator.FinishEffects` lists.
- **Environment glue:** port probing, the EADDRINUSE retry, `getLocalIP`, the Blob download link and the React state plumbing.
- **Account storage:** register, login and GET_FILES are trivial account storage. backend/src/note.ts, a superseded prototype of the agent, is not part of this model.
- **Backend model files:** the backend's own `TorrentPeer` and `Piece` files are not part of this model. The frontend classes, which the tracker's uses agree with, stand for both.
- **JavaScript `NaN` and `undefined`:** these values of numeric fields are not modelled. A missing number is 0 and a missing string is "", which is how the truthiness tests treat them.
- **Object-literal maps:** the tracker's `torrentMap` (backend/src/tracker.ts:20) and the agent's `joinedTorrents` (backend/src/server.ts:15) are plain `{}` objects, so a key such as "constructor" or "toString" reads as present through the prototype. Such names are outside the key domain of the Dafny maps: publishing a file with such a name conflicts in the code but not in `Tracker.Publish`, and HANDSHAKE for it answers success with no bitfield in the code.
- Orchestrator.PlanUpload: the guard at frontend/src/App.tsx:56 also needs a chosen file and an open tracker socket; both are taken as present, and only the address and port tests are modelled.
- Tracker.AnnounceRegular: requires the torrent to be registered and the seeding info to be present, because the code throws out of the handler without them.
- Tracker.Announce: inherits the same requirement for the REGULAR event only.
- Assembly.Receive: states only that at most one piece is emitted per message. What a message does is stated by `Assembly.ReceiveShape`, and the rebuilt piece by `Assembly.ReceivePrefix` and `Assembly.ServedPieceIsRebuilt`.
- Assembly.ReceiveAll: states only that at most one piece is emitted per message. What a stream does is stated by `Assembly.ReceiveAllShape`.
- Orchestrator.DeliverUpload: states only that no more messages are delivered than were sent. What delivery does is stated by `Orchestrator.DeliveredPrefix`, `Orchestrator.ShortOnlyAfterFailure` and `Orchestrator.FailureCutsShort`.
- Orchestrator.HandleAll: states only that the agent's port is kept. What the agent does is stated by the lemmas about it (`Orchestrator.PublisherBecomesSeeder`, `Orchestrator.AgentFollowsRound`).
- Orchestrator.Round: a round is one pass. The retry is reported as a flag and not unrolled into further rounds.
- Orchestrator.HalvesSources: the whole-round example is stated as the general `Orchestrator.CoveredRoundCompletes` rather than computed on concrete bytes.
- Orchestrator.SelectSources: entries of a peer's bitfield past the client's bitfield length are ignored, as the code's later loop never reads them.

=== FILE: assembly.dfy ===
/** The downloading client's reassembly: a piece is rebuilt from the
    `piece_info` and `block_data` messages a serving agent streams, and the
    whole file from the reassembled pieces its own agent sends back. */
module Assembly {
  import opened Common
  import opened Chunking
  import PeerAgent

  // ---------------------------------------------------------------------
  // One piece from its blocks

  /** What the client holds for one piece after its `piece_info`: the
      announced size, a zero-filled buffer of that size and one received
      flag per block (the flag array can grow, as a JavaScript array does). */
  datatype Piece = Piece(size: nat, buffer: seq<Byte>, flags: seq<bool>)

  /** Number of 16 KiB blocks of a piece: `Math.ceil(size / 16384)`. */
  function BlockCount(size: nat): nat
  {
    CeilDiv(size, BlockSize)
  }

  /** `piece_info`: allocate the buffer and the flags. */
  function OnPieceInfo(size: nat): (p: Piece)
    ensures p.size == size && |p.buffer| == size && |p.flags| == BlockCount(size)
    ensures forall i :: 0 <= i < size ==> p.buffer[i] == 0
    ensures forall k :: 0 <= k < |p.flags| ==> !p.flags[k]
  {
    Piece(size, Repeat(0, size), Repeat(false, BlockCount(size)))
  }

  /** `TypedArray.set(block, off)` on a buffer the block fits in. */
  function WriteAt(buf: seq<Byte>, off: nat, block: seq<Byte>): (r: seq<Byte>)
    requires off + |block| <= |buf|
    ensures |r| == |buf|
    ensures r[..off] == buf[..off]
    ensures r[off .. off + |block|] == block
    ensures r[off + |block| ..] == buf[off + |block| ..]
  {
    var r := buf[..off] + block + buf[off + |block| ..];
    assert r[..off] == buf[..off];
    assert r[off .. off + |block|] == block;
    r
  }

  /** What one `block_data` message does to the piece's record. */
  datatype BlockOutcome =
    | Ignored                            // no `piece_info` yet, or a zero size
    | RangeError                         // the block runs past the buffer: the handler throws
    | Stored(piece: Piece, complete: bool)

  /** `block_data`: write the block at `16384 * blockIndex`, set its flag,
      and report completion when the number of set flags reaches the block
      count. */
  function OnBlock(p: Option<Piece>, blockIndex: nat, block: seq<Byte>): (r: BlockOutcome)
    ensures r.Ignored? <==> p.None? || p.value.size == 0
    ensures r.RangeError? <==> p.Some? && p.value.size != 0 && BlockSize * blockIndex + |block| > |p.value.buffer|
    ensures r.Stored? ==>
      && r.piece.size == p.value.size
      && |r.piece.buffer| == |p.value.buffer|
      && r.piece.buffer[BlockSize * blockIndex .. BlockSize * blockIndex + |block|] == block
      && r.piece.buffer[..BlockSize * blockIndex] == p.value.buffer[..BlockSize * blockIndex]
      && r.piece.buffer[BlockSize * blockIndex + |block| ..] == p.value.buffer[BlockSize * blockIndex + |block| ..]
      && |p.value.flags| <= |r.piece.flags| && blockIndex < |r.piece.flags| && r.piece.flags[blockIndex]
      && (forall k :: 0 <= k < |p.value.flags| && k != blockIndex ==> r.piece.flags[k] == p.value.flags[k])
    ensures r.Stored? && |r.piece.flags| == BlockCount(r.piece.size) ==>
      (r.complete <==> forall k :: 0 <= k < |r.piece.flags| ==> r.piece.flags[k])
  {
    if p.None? || p.value.size == 0 then Ignored
    else
      var q := p.value;
      var off := BlockSize * blockIndex;
      if off + |block| > |q.buffer| then RangeError
      else
        var flags := StoreAt(q.flags, blockIndex, true, false);
        Stored(Piece(q.size, WriteAt(q.buffer, off, block), flags), CountTrue(flags) == BlockCount(q.size))
  }

  /** `m` is the `piece_info` of piece `i`. */
  predicate InfoFor(m: PeerAgent.Reply, i: int)
  {
    m.PieceInfo? && m.pieceIndex == i
  }

  /** `m` is a block of piece `i`. */
  predicate BlockFor(m: PeerAgent.Reply, i: int)
  {
    m.BlockData? && m.pieceIndex == i
  }

  /** One message of a serving agent's stream, seen by the handler of piece
      `pieceIndex`; messages about other pieces and other kinds leave this
      piece's record alone. A completed piece is emitted for hashing. */
  function Receive(p: Option<Piece>, m: PeerAgent.Reply, pieceIndex: int): (r: (Option<Piece>, seq<seq<Byte>>))
    ensures |r.1| <= 1
  {
    match m
    case PieceInfo(size, idx, _) =>
      if idx == pieceIndex then (Some(OnPieceInfo(size)), []) else (p, [])
    case BlockData(k, block, idx) =>
      if idx != pieceIndex then (p, [])
      else
        (match OnBlock(p, k, block)
         case Ignored => (p, [])
         case RangeError => (p, [])
         case Stored(q, complete) => (Some(q), if complete then [q.buffer] else []))
    case _ => (p, [])
  }

  /** One message: the record exists afterwards iff it did or the message
      is the piece's `piece_info`; a piece is emitted only on one of its
      blocks, with the record's length; the record keeps its length unless
      the message announces a new size. */
  lemma ReceiveShape(p: Option<Piece>, m: PeerAgent.Reply, pieceIndex: int)
    ensures var r := Receive(p, m, pieceIndex);
      && (r.0.None? <==> p.None? && !InfoFor(m, pieceIndex))
      && (|r.1| > 0 ==> BlockFor(m, pieceIndex) && p.Some? && |r.1[0]| == |p.value.buffer|)
      && (r.0.Some? ==>
            (p.Some? && |r.0.value.buffer| == |p.value.buffer|) || (InfoFor(m, pieceIndex) && |r.0.value.buffer| == m.pieceSize))
  {
  }

  /** The messages of a stream in arrival order. */
  function ReceiveAll(p: Option<Piece>, ms: seq<PeerAgent.Reply>, pieceIndex: int): (r: (Option<Piece>, seq<seq<Byte>>))
    ensures |r.1| <= |ms|
  {
    if |ms| == 0 then (p, [])
    else
      var prior := ReceiveAll(p, ms[..|ms| - 1], pieceIndex);
      var last := Receive(prior.0, ms[|ms| - 1], pieceIndex);
      (last.0, prior.1 + last.1)
  }

  /** Over a whole stream: the piece has a record iff it had one or its
      `piece_info` arrived; a piece is emitted only after some block of it
      arrived; and the record, like every emitted piece, has the length of
      the starting buffer or of an announced size. */
  lemma {:induction false} ReceiveAllShape(p: Option<Piece>, ms: seq<PeerAgent.Reply>, pieceIndex: int)
    ensures var r := ReceiveAll(p, ms, pieceIndex);
      && (r.0.None? <==> p.None? && forall k :: 0 <= k < |ms| ==> !InfoFor(ms[k], pieceIndex))
      && (|r.1| > 0 ==> exists k :: 0 <= k < |ms| && BlockFor(ms[k], pieceIndex))
      && (r.0.Some? ==> SizedBy(p, ms, pieceIndex, |r.0.value.buffer|))
      && (forall b :: b in r.1 ==> SizedBy(p, ms, pieceIndex, |b|))
  {
    if |ms| > 0 {
      var init := ms[..|ms| - 1];
      ReceiveAllShape(p, init, pieceIndex);
      var prior := ReceiveAll(p, init, pieceIndex);
      var m := ms[|ms| - 1];
      var last := Receive(prior.0, m, pieceIndex);
      ReceiveShape(prior.0, m, pieceIndex);
      assert forall k :: 0 <= k < |init| ==> init[k] == ms[k];
      forall n: nat | SizedBy(p, init, pieceIndex, n) ensures SizedBy(p, ms, pieceIndex, n) {
        if !(p.Some? && n == |p.value.buffer|) {
          var k :| 0 <= k < |init| && InfoFor(init[k], pieceIndex) && n == init[k].pieceSize;
          assert ms[k] == init[k];
        }
      }
      if last.0.Some? && InfoFor(m, pieceIndex) && |last.0.value.buffer| == m.pieceSize {
        assert ms[|ms| - 1] == m;
      }
      if |last.1| > 0 {
        assert BlockFor(ms[|ms| - 1], pieceIndex);
      }
    }
  }

  /** A length `n` is the starting buffer's or a size announced for the
      piece in `ms`. */
  predicate SizedBy(p: Option<Piece>, ms: seq<PeerAgent.Reply>, pieceIndex: int, n: nat)
  {
    (p.Some? && n == |p.value.buffer|)
    || exists k :: 0 <= k < |ms| && InfoFor(ms[k], pieceIndex) && n == ms[k].pieceSize
  }

  /** End of the bytes of the first `k` blocks of a piece of `size` bytes. */
  function Filled(size: nat, k: nat): nat
  {
    Min(BlockSize * k, size)
  }

  /** The record after the `piece_info` and the first `k` blocks of a served
      piece: those bytes in place, zeros after, the first `k` flags set. */
  function Partial(data: seq<Byte>, k: nat): Piece
    requires k <= BlockCount(|data|)
  {
    var n := BlockCount(|data|);
    Piece(|data|, data[..Filled(|data|, k)] + Repeat(0, |data| - Filled(|data|, k)), Repeat(true, k) + Repeat(false, n - k))
  }

  /** Receiving the stream an agent serves for a non-empty piece rebuilds
      that piece: the first `k` blocks give `Partial(data, k)`, and the
      piece is emitted exactly once, when its last block arrives. */
  lemma {:induction false} ReceivePrefix(data: seq<Byte>, pieceIndex: int, seeding: PeerAgent.ClientPeer, k: nat)
    requires |data| > 0 && k <= BlockCount(|data|)
    ensures var stream := PeerAgent.ServeReplies(data, pieceIndex, seeding);
      ReceiveAll(None, stream[..k + 1], pieceIndex) ==
        (Some(Partial(data, k)), if k == BlockCount(|data|) then [data] else [])
  {
    var stream := PeerAgent.ServeReplies(data, pieceIndex, seeding);
    var n := BlockCount(|data|);
    if k == 0 {
      assert stream[..1] == [stream[0]];
      assert ReceiveAll(None, stream[..1], pieceIndex) == Receive(None, stream[0], pieceIndex) by {
        assert stream[..1][..0] == [];
      }
      assert Partial(data, 0) == OnPieceInfo(|data|) by {
        assert Filled(|data|, 0) == 0;
        assert data[..0] + Repeat(0, |data|) == Repeat(0, |data|);
        assert Repeat(true, 0) + Repeat(false, n) == Repeat(false, n);
      }
      assert stream[0] == PeerAgent.PieceInfo(|data|, pieceIndex, seeding);
      assert Receive(None, stream[0], pieceIndex) == (Some(OnPieceInfo(|data|)), []);
      assert n != 0;
      assert ReceiveAll(None, stream[..k + 1], pieceIndex) == (Some(Partial(data, k)), if k == n then [data] else []);
    } else {
      ReceivePrefix(data, pieceIndex, seeding, k - 1);
      PeerAgent.ServedBlockContents(data, pieceIndex, seeding, k - 1);
      assert BlockSize * ((k - 1) + 1) == BlockSize * k;
      PrefixStep(data, stream, pieceIndex, k);
    }
  }

  /** One block past a partial prefix of a stream. */
  lemma PrefixStep(data: seq<Byte>, ms: seq<PeerAgent.Reply>, pieceIndex: int, k: nat)
    requires 0 < k < |ms| && k <= BlockCount(|data|)
    requires BlockSize * (k - 1) < |data|
    requires ReceiveAll(None, ms[..k], pieceIndex) == (Some(Partial(data, k - 1)), [])
    requires ms[k] == PeerAgent.BlockData(k - 1, data[BlockSize * (k - 1) .. Min(BlockSize * k, |data|)], pieceIndex)
    ensures ReceiveAll(None, ms[..k + 1], pieceIndex) ==
      (Some(Partial(data, k)), if k == BlockCount(|data|) then [data] else [])
  {
    var prior := ReceiveAll(None, ms[..k], pieceIndex);
    var last := Receive(prior.0, ms[k], pieceIndex);
    ReceiveAllStep(None, ms, pieceIndex, k);
    BlockStep(data, pieceIndex, k, ms[k]);
    assert prior.1 + last.1 == last.1;
  }

  /** Receiving one more message of a stream. */
  lemma ReceiveAllStep(p: Option<Piece>, ms: seq<PeerAgent.Reply>, pieceIndex: int, i: nat)
    requires i < |ms|
    ensures var prior := ReceiveAll(p, ms[..i], pieceIndex);
      var last := Receive(prior.0, ms[i], pieceIndex);
      ReceiveAll(p, ms[..i + 1], pieceIndex) == (last.0, prior.1 + last.1)
  {
    assert ms[..i + 1][..i] == ms[..i];
  }

  /** The step of `ReceivePrefix`: block `k - 1` turns `Partial(data, k - 1)`
      into `Partial(data, k)`, completing the piece iff it is the last. */
  lemma BlockStep(data: seq<Byte>, pieceIndex: int, k: nat, m: PeerAgent.Reply)
    requires 0 < k <= BlockCount(|data|)
    requires BlockSize * (k - 1) < |data|
    requires m == PeerAgent.BlockData(k - 1, data[BlockSize * (k - 1) .. Min(BlockSize * k, |data|)], pieceIndex)
    ensures Receive(Some(Partial(data, k - 1)), m, pieceIndex) ==
      (Some(Partial(data, k)), if k == BlockCount(|data|) then [data] else [])
  {
    var n := BlockCount(|data|);
    var before := Partial(data, k - 1);
    var after := Partial(data, k);
    var block := m.blockData;
    var off := BlockSize * (k - 1);
    BufferStep(data, k);
    FlagsStep(data, k);
    assert off + |block| <= |before.buffer|;
    var flags := StoreAt(before.flags, k - 1, true, false);
    assert OnBlock(Some(before), k - 1, block) ==
      Stored(Piece(|data|, WriteAt(before.buffer, off, block), flags), CountTrue(flags) == n);
    if k == n {
      assert Filled(|data|, k) == |data|;
      assert after.buffer == data;
    }
  }

  /** Writing block `k - 1` of a piece into its partial buffer gives the
      next partial buffer. */
  lemma BufferStep(data: seq<Byte>, k: nat)
    requires 0 < k <= BlockCount(|data|)
    requires BlockSize * (k - 1) < |data|
    ensures var off := BlockSize * (k - 1);
      var block := data[off .. Min(BlockSize * k, |data|)];
      && off + |block| <= |Partial(data, k - 1).buffer|
      && WriteAt(Partial(data, k - 1).buffer, off, block) == Partial(data, k).buffer
  {
    var off := BlockSize * (k - 1);
    var end := Filled(|data|, k);
    var block := data[off .. end];
    assert Filled(|data|, k - 1) == off;
    var buf := WriteAt(Partial(data, k - 1).buffer, off, block);
    assert buf == buf[..off] + buf[off .. end] + buf[end..];
    assert buf[end..] == Repeat(0, |data| - end);
    assert data[..end] == data[..off] + data[off .. end];
  }

  /** Setting flag `k - 1` of the partial flags gives the next partial
      flags, which are all set exactly when `k` is the block count. */
  lemma FlagsStep(data: seq<Byte>, k: nat)
    requires 0 < k <= BlockCount(|data|)
    ensures var flags := StoreAt(Partial(data, k - 1).flags, k - 1, true, false);
      && flags == Partial(data, k).flags
      && (CountTrue(flags) == BlockCount(|data|) <==> k == BlockCount(|data|))
  {
    var n := BlockCount(|data|);
    var flags := StoreAt(Partial(data, k - 1).flags, k - 1, true, false);
    var after := Partial(data, k).flags;
    assert |flags| == n == |after|;
    assert forall j :: 0 <= j < n ==> flags[j] == after[j];
    if k < n { assert !after[k]; }
  }

  /** The whole served stream of a non-empty piece yields the piece once. */
  lemma ServedPieceIsRebuilt(data: seq<Byte>, pieceIndex: int, seeding: PeerAgent.ClientPeer)
    requires |data| > 0
    ensures ReceiveAll(None, PeerAgent.ServeReplies(data, pieceIndex, seeding), pieceIndex).1 == [data]
  {
    var stream := PeerAgent.ServeReplies(data, pieceIndex, seeding);
    ReceivePrefix(data, pieceIndex, seeding, BlockCount(|data|));
    assert stream[..BlockCount(|data|) + 1] == stream;
  }

  // ---------------------------------------------------------------------
  // The file from its pieces (COMBINE_BLOCKS_SUCCESS)

  /** The client's per-download record: reassembled pieces by index, the
      number of messages received, the expected count and the file size. */
  datatype FileState = FileState(received: map<int, seq<Byte>>, count: nat, totalPieces: nat, fileSize: nat)

  /** The outcome of the final assembly. */
  datatype FileOutcome =
    | Waiting                 // fewer messages than pieces so far
    | MissingPiece(index: nat) // the first absent index: aborted, nothing written
    | Overrun                 // a piece runs past the file size: the write throws
    | Assembled(file: seq<Byte>)

  /** The file buffer for pieces `from .. total - 1`, written from `offset`:
      pieces are copied in index order, the first absent index aborts, and
      the untouched tail of the buffer stays zero. */
  function AssembleFrom(received: map<int, seq<Byte>>, total: nat, fileSize: nat, from: nat, offset: nat): (r: FileOutcome)
    requires from <= total && offset <= fileSize
    ensures r.Assembled? ==> |r.file| == fileSize - offset
    ensures r.MissingPiece? ==>
      && from <= r.index < total && r.index !in received
      && forall i :: from <= i < r.index ==> i in received
    ensures !r.Waiting?
    decreases total - from
  {
    if from == total then Assembled(Repeat(0, fileSize - offset))
    else if from !in received then MissingPiece(from)
    else
      var piece := received[from];
      if offset + |piece| > fileSize then Overrun
      else
        match AssembleFrom(received, total, fileSize, from + 1, offset + |piece|)
        case Assembled(rest) => Assembled(piece + rest)
        case other => other
  }

  /** COMBINE_BLOCKS_SUCCESS: store the piece, count the message, and once
      the count reaches the piece count assemble the file. The record is
      dropped only after a file is produced: a missing index returns early
      and a piece running past the buffer throws, both leaving it in place. */
  function OnCombined(st: FileState, pieceIndex: int, data: seq<Byte>): (r: (Option<FileState>, FileOutcome))
    ensures r.1.Waiting? <==> st.count + 1 != st.totalPieces
    ensures r.0.None? <==> r.1.Assembled?
    ensures r.0.Some? ==> r.0 == Some(st.(received := st.received[pieceIndex := data], count := st.count + 1))
    ensures r.1.Assembled? ==> |r.1.file| == st.fileSize
  {
    var st' := st.(received := st.received[pieceIndex := data], count := st.count + 1);
    if st'.count == st'.totalPieces then
      var outcome := AssembleFrom(st'.received, st'.totalPieces, st'.fileSize, 0, 0);
      (if outcome.Assembled? then None else Some(st'), outcome)
    else (Some(st'), Waiting)
  }

  /** The received pieces `0 .. n - 1` in index order. */
  function InOrder(rec: map<int, seq<Byte>>, n: nat): (parts: seq<seq<Byte>>)
    requires forall i :: 0 <= i < n ==> i in rec
    ensures |parts| == n && forall j :: 0 <= j < n ==> parts[j] == rec[j]
  {
    seq(n, j requires 0 <= j < n => rec[j])
  }

  /** The last expected message delivers the file: when every index below
      the piece count is then present and the pieces add up to the file
      size, the file is their concatenation in index order. */
  lemma LastPieceDeliversFile(st: FileState, pieceIndex: int, data: seq<Byte>)
    requires st.count + 1 == st.totalPieces
    requires forall i :: 0 <= i < st.totalPieces ==> i == pieceIndex || i in st.received
    requires |Concat(InOrder(st.received[pieceIndex := data], st.totalPieces))| == st.fileSize
    ensures OnCombined(st, pieceIndex, data) ==
      (None, Assembled(Concat(InOrder(st.received[pieceIndex := data], st.totalPieces))))
  {
    var rec := st.received[pieceIndex := data];
    var n := st.totalPieces;
    var shifted := seq(n - 0, j requires 0 <= j < n - 0 => rec[0 + j]);
    assert shifted == InOrder(rec, n);
    AssembleInOrder(rec, n, st.fileSize, 0, 0);
  }

  /** When every index is present and the pieces add up to the file size,
      the file is the pieces concatenated in index order. */
  lemma {:induction false} AssembleInOrder(received: map<int, seq<Byte>>, total: nat, fileSize: nat, from: nat, offset: nat)
    requires from <= total
    requires forall i :: from <= i < total ==> i in received
    requires offset + |Concat(seq(total - from, j requires 0 <= j < total - from => received[from + j]))| == fileSize
    ensures AssembleFrom(received, total, fileSize, from, offset) ==
      Assembled(Concat(seq(total - from, j requires 0 <= j < total - from => received[from + j])))
    decreases total - from
  {
    var parts := seq(total - from, j requires 0 <= j < total - from => received[from + j]);
    if from < total {
      var rest := seq(total - from - 1, j requires 0 <= j < total - from - 1 => received[from + 1 + j]);
      assert parts[1..] == rest;
      assert Concat(parts) == received[from] + Concat(rest);
      AssembleInOrder(received, total, fileSize, from + 1, offset + |received[from]|);
    } else {
      assert Concat(parts) == [];
    }
  }

  /** An absent piece index aborts the assembly: no file is produced. */
  lemma {:induction false} MissingIndexAborts(received: map<int, seq<Byte>>, total: nat, fileSize: nat, from: nat, offset: nat, i: nat)
    requires from <= i < total && i !in received && offset <= fileSize
    ensures !AssembleFrom(received, total, fileSize, from, offset).Assembled?
    decreases total - from
  {
    if from != i && from in received && offset + |received[from]| <= fileSize {
      MissingIndexAborts(received, total, fileSize, from + 1, offset + |received[from]|, i);
    }
  }

  /** Round trip with the publishing side: the 512 KiB chunks of a file,
      received as reassembled pieces, give back the file. */
  lemma ChunksGiveBackFile(file: seq<Byte>)
    ensures var chunks := Split(file, PieceSize);
      AssembleFrom(map i | 0 <= i < |chunks| :: chunks[i], |chunks|, |file|, 0, 0) == Assembled(file)
  {
    var chunks := Split(file, PieceSize);
    var received := map i | 0 <= i < |chunks| :: chunks[i];
    var parts := seq(|chunks|, j requires 0 <= j < |chunks| => received[0 + j]);
    assert parts == chunks;
    AssembleInOrder(received, |chunks|, |file|, 0, 0);
  }
}

=== FILE: chunking.dfy ===
/** Cutting a byte string into consecutive fixed-size parts, the last one
    possibly shorter. The publishing client cuts a file into 512 KiB pieces
    this way and the peer agent cuts a piece into 16 KiB blocks this way. */
module Chunking {
  import opened Common

  /** The parts of `data` of `size` bytes each, the last possibly shorter:
      the loop `for (i = 0; i < len; i += size) data.slice(i, i + size)`. */
  function Split(data: seq<Byte>, size: nat): (parts: seq<seq<Byte>>)
    requires size > 0
    ensures |parts| == CeilDiv(|data|, size)
    ensures Concat(parts) == data
    ensures forall k :: 0 <= k < |parts| ==> 0 < |parts[k]| <= size
    ensures forall k :: 0 <= k < |parts| - 1 ==> |parts[k]| == size
    decreases |data|
  {
    if |data| == 0 then []
    else if |data| <= size then [data]
    else
      var rest := Split(data[size..], size);
      assert ([data[..size]] + rest)[1..] == rest;
      [data[..size]] + rest
  }

  /** Byte offset of part `k`: `k` whole parts of `size` bytes, summed. */
  function Offset(size: nat, k: nat): nat
  {
    if k == 0 then 0 else size + Offset(size, k - 1)
  }

  lemma {:induction false} OffsetIsProduct(size: nat, k: nat)
    ensures Offset(size, k) == size * k
  {
    if k > 0 {
      OffsetIsProduct(size, k - 1);
      assert size * k == size + size * (k - 1);
    }
  }

  /** Part `k` starts at byte `size * k` and ends at the next multiple of
      `size` or at the end of the data, whichever comes first. */
  lemma {:induction false} SplitPart(data: seq<Byte>, size: nat, k: nat)
    requires size > 0
    requires k < |Split(data, size)|
    ensures Offset(size, k) < |data|
    ensures Split(data, size)[k] == data[Offset(size, k) .. Min(Offset(size, k + 1), |data|)]
    decreases |data|
  {
    if |data| <= size {
      assert Split(data, size) == [data];
      assert Offset(size, 1) == size;
    } else if k == 0 {
      assert Split(data, size)[0] == data[..size];
      assert Offset(size, 1) == size;
    } else {
      var tail := data[size..];
      assert Split(data, size) == [data[..size]] + Split(tail, size);
      SplitPart(tail, size, k - 1);
      ShiftPart(data, size, k, Split(tail, size)[k - 1]);
    }
  }

  /** `SplitPart` with the offsets written as products. */
  lemma PartIsSlice(data: seq<Byte>, size: nat, k: nat)
    requires size > 0
    requires k < CeilDiv(|data|, size)
    ensures size * k < |data|
    ensures Split(data, size)[k] == data[size * k .. Min(size * (k + 1), |data|)]
  {
    SplitPart(data, size, k);
    OffsetIsProduct(size, k);
    OffsetIsProduct(size, k + 1);
  }

  /** The step of `SplitPart`: a part of the data after the first `size`
      bytes, located there, is located `size` bytes further on in `data`. */
  lemma ShiftPart(data: seq<Byte>, size: nat, k: nat, part: seq<Byte>)
    requires 0 < size < |data| && 0 < k
    requires Offset(size, k - 1) < |data| - size
    requires part == data[size..][Offset(size, k - 1) .. Min(Offset(size, k), |data| - size)]
    ensures Offset(size, k) < |data|
    ensures part == data[Offset(size, k) .. Min(Offset(size, k + 1), |data|)]
  {
    var lo, hi := Offset(size, k - 1), Offset(size, k);
    assert Offset(size, k + 1) == size + hi;
    assert size + Min(hi, |data| - size) == Min(size + hi, |data|);
    SliceOfSuffix(data, size, lo, Min(hi, |data| - size));
  }

  lemma SliceOfSuffix(data: seq<Byte>, d: nat, lo: nat, hi: nat)
    requires d <= |data| && lo <= hi <= |data| - d
    ensures data[d..][lo..hi] == data[d + lo .. d + hi]
  {
    forall i | 0 <= i < hi - lo ensures data[d..][lo..hi][i] == data[d + lo .. d + hi][i] {
    }
  }

  /** Splitting a concatenation of full parts first cuts off those parts. */
  lemma {:induction false} SplitPrefix(data: seq<Byte>, size: nat)
    requires size > 0
    requires |data| > size
    ensures Split(data, size) == [data[..size]] + Split(data[size..], size)
  {
  }

  /** The parts are exactly what cutting at multiples of `size` produces:
      any sequence of parts with the same shape and the same concatenation
      is the split. */
  lemma {:induction false} SplitUnique(data: seq<Byte>, size: nat, parts: seq<seq<Byte>>)
    requires size > 0
    requires Concat(parts) == data
    requires forall k :: 0 <= k < |parts| ==> 0 < |parts[k]|
    requires forall k :: 0 <= k < |parts| ==> |parts[k]| <= size
    requires forall k :: 0 <= k < |parts| - 1 ==> |parts[k]| == size
    ensures parts == Split(data, size)
    decreases |parts|
  {
    if |parts| == 0 {
    } else if |parts| == 1 {
      assert Concat(parts) == parts[0] + Concat(parts[1..]);
      assert data == parts[0];
    } else {
      var rest := parts[1..];
      assert Concat(parts) == parts[0] + Concat(rest);
      assert |parts[0]| == size;
      assert |Concat(rest)| > 0 by {
        assert |rest[0]| > 0;
        assert Concat(rest) == rest[0] + Concat(rest[1..]);
      }
      assert data[..size] == parts[0];
      assert data[size..] == Concat(rest);
      forall k | 0 <= k < |rest| ensures 0 < |rest[k]| <= size { assert rest[k] == parts[k + 1]; }
      forall k | 0 <= k < |rest| - 1 ensures |rest[k]| == size { assert rest[k] == parts[k + 1]; }
      SplitUnique(data[size..], size, rest);
      assert |data| > size;
      assert Split(data, size) == [data[..size]] + Split(data[size..], size);
      assert parts == [parts[0]] + rest;
    }
  }
}

=== FILE: common.dfy ===
/** Shared vocabulary of the torrent model: bytes, optional values, the
    protocol constants and a few sequence helpers used by every component. */
module Common {

  /** One octet of file content. */
  newtype Byte = b: int | 0 <= b < 256

  datatype Option<+T> = None | Some(value: T)

  /** The content digest (SHA-256 rendered as lower-case hex). The model
      never looks inside it: every operation that hashes takes the digest
      function as a parameter. */
  type Hasher = seq<Byte> -> string

  /** Size of a piece, the unit of hash verification (512 KiB). */
  const PieceSize: nat := 524288

  /** Size of a block, the unit of transfer inside a piece (16 KiB). */
  const BlockSize: nat := 16384

  /** Largest file the publishing client accepts (210 MiB). */
  const MaxUploadSize: nat := 220200960

  /** Most missing pieces the downloader considers in one round. */
  const RoundCap: nat := 120

  /** The peer agent listens this far above the client's own port. */
  const AgentPortOffset: int := 2000

  function Min(a: int, b: int): int
  {
    if a <= b then a else b
  }

  /** Ceiling of n / s for non-negative n, as `Math.ceil(n / s)` computes it. */
  function CeilDiv(n: nat, s: nat): (r: nat)
    requires s > 0
    ensures r == 0 <==> n == 0
    ensures n <= s * r
    ensures r > 0 ==> s * (r - 1) < n
    decreases n
  {
    if n == 0 then 0 else if n <= s then 1 else 1 + CeilDiv(n - s, s)
  }

  /** Concatenation of a sequence of byte strings, in order. */
  function Concat(parts: seq<seq<Byte>>): seq<Byte>
  {
    if |parts| == 0 then [] else parts[0] + Concat(parts[1..])
  }

  lemma {:induction false} ConcatAppend(a: seq<seq<Byte>>, b: seq<seq<Byte>>)
    ensures Concat(a + b) == Concat(a) + Concat(b)
    decreases |a|
  {
    if |a| == 0 {
      assert a + b == b;
    } else {
      assert (a + b)[1..] == a[1..] + b;
      ConcatAppend(a[1..], b);
    }
  }

  /** Number of entries that are `true`. */
  function CountTrue(bs: seq<bool>): (n: nat)
    ensures n <= |bs|
    ensures n == |bs| <==> forall i :: 0 <= i < |bs| ==> bs[i]
    ensures n == 0 <==> forall i :: 0 <= i < |bs| ==> !bs[i]
  {
    if |bs| == 0 then 0
    else
      var rest := CountTrue(bs[1..]);
      assert forall i :: 1 <= i < |bs| ==> bs[i] == bs[1..][i - 1];
      (if bs[0] then 1 else 0) + rest
  }

  /** A sequence of `n` copies of `v`. */
  function Repeat<T>(v: T, n: nat): (r: seq<T>)
    ensures |r| == n
    ensures forall i :: 0 <= i < n ==> r[i] == v
  {
    seq(n, _ => v)
  }

  /** JavaScript array store `a[i] = v`: an index past the end grows the array,
      and the holes it leaves read back as falsy, modelled here as `fill`. */
  function StoreAt<T>(a: seq<T>, i: nat, v: T, fill: T): (r: seq<T>)
    ensures |r| == if i < |a| then |a| else i + 1
    ensures r[i] == v
    ensures forall j :: 0 <= j < |a| && j != i ==> r[j] == a[j]
    ensures forall j :: |a| <= j < |r| && j != i ==> r[j] == fill
  {
    if i < |a| then a[i := v] else a + Repeat(fill, i - |a|) + [v]
  }
}

=== FILE: content.dfy ===
/** The content model: pieces, files, peers and torrents, as the tracker's
    `Torrent` class and the client's `Piece` and `TorrentPeer` classes build
    them. All values are immutable; a "mutation" returns the new value. */
module Content {
  import opened Common

  // ---------------------------------------------------------------------
  // Piece

  /** A piece of a file: its position, the digest it must hash to, its byte
      size and whether the owning agent holds a verified copy. */
  datatype Piece = Piece(index: int, hash: string, size: int, isDownloaded: bool)

  /** A freshly constructed piece is never downloaded yet. */
  function NewPiece(index: int, hash: string, size: int): (p: Piece)
    ensures p.index == index && p.hash == hash && p.size == size
    ensures !p.isDownloaded
  {
    Piece(index, hash, size, false)
  }

  /** `markAsDownloaded`: sets the flag and nothing else. */
  function MarkAsDownloaded(p: Piece): (q: Piece)
    ensures q.isDownloaded
    ensures q.index == p.index && q.hash == p.hash && q.size == p.size
  {
    p.(isDownloaded := true)
  }

  lemma MarkAsDownloadedIdempotent(p: Piece)
    ensures MarkAsDownloaded(MarkAsDownloaded(p)) == MarkAsDownloaded(p)
  {
  }

  /** The only change a piece ever undergoes: staying as it is, or being
      marked as downloaded. No operation clears the flag. */
  predicate PieceStep(p: Piece, q: Piece)
  {
    q == p || q == MarkAsDownloaded(p)
  }

  /** Along any history of piece steps the downloaded flag never goes back
      to false, and the index, hash and size never change. */
  lemma {:induction false} DownloadedIsMonotone(history: seq<Piece>, i: nat, j: nat)
    requires forall t :: 0 <= t < |history| - 1 ==> PieceStep(history[t], history[t + 1])
    requires i <= j < |history|
    ensures history[i].isDownloaded ==> history[j].isDownloaded
    ensures history[j].index == history[i].index
    ensures history[j].hash == history[i].hash
    ensures history[j].size == history[i].size
    decreases j - i
  {
    if i < j {
      DownloadedIsMonotone(history, i, j - 1);
      assert PieceStep(history[j - 1], history[j]);
    }
  }

  // ---------------------------------------------------------------------
  // TorrentPeer

  /** A member of a swarm. The two role flags are kept separately, as in the
      source; `RoleConsistent` says they agree. */
  datatype TorrentPeer = TorrentPeer(
    peerId: string,
    peerIp: string,
    peerPort: int,
    isSeeder: bool,
    isLeeching: bool,
    uploaded: int,
    downloaded: int)

  /** Exactly one of the two role flags holds. */
  predicate RoleConsistent(p: TorrentPeer)
  {
    p.isLeeching == !p.isSeeder
  }

  /** The `TorrentPeer` constructor: the role defaults to leecher, the
      leeching flag is the negation of the seeder flag, `downloaded` starts
      at zero and `uploaded` is taken from the caller. */
  function NewPeer(peerId: string, peerIp: string, peerPort: int, uploaded: int,
                   isSeeder: bool := false): (p: TorrentPeer)
    ensures RoleConsistent(p)
    ensures p.isSeeder == isSeeder
    ensures GetPeerId(p) == peerId && p.peerIp == peerIp && p.peerPort == peerPort
    ensures p.uploaded == uploaded && p.downloaded == 0
  {
    TorrentPeer(peerId, peerIp, peerPort, isSeeder, !isSeeder, uploaded, 0)
  }

  function GetPeerId(p: TorrentPeer): string
  {
    p.peerId
  }

  /** Omitting the role argument makes a leecher. */
  lemma NewPeerDefaultsToLeecher(peerId: string, peerIp: string, peerPort: int, uploaded: int)
    ensures !NewPeer(peerId, peerIp, peerPort, uploaded).isSeeder
    ensures NewPeer(peerId, peerIp, peerPort, uploaded).isLeeching
  {
  }

  /** The tracker's role change: both flags are written together, so a
      consistent peer stays consistent; counters and address are kept. */
  function Promote(p: TorrentPeer): (q: TorrentPeer)
    ensures q.isSeeder && !q.isLeeching && RoleConsistent(q)
    ensures q.peerId == p.peerId && q.peerIp == p.peerIp && q.peerPort == p.peerPort
    ensures q.uploaded == p.uploaded && q.downloaded == p.downloaded
  {
    p.(isLeeching := false, isSeeder := true)
  }

  /** The identity the tracker matches peers by: id, address and port. */
  predicate SamePeer(p: TorrentPeer, peerId: string, peerIp: string, peerPort: int)
  {
    GetPeerId(p) == peerId && p.peerIp == peerIp && p.peerPort == peerPort
  }

  // ---------------------------------------------------------------------
  // Pieces of a file

  /** Size the constructor gives piece `i` of a file of `fileSize` bytes:
      `Math.min(512 * 1024, fileSize - i * 512 * 1024)`. */
  function PieceSizeAt(fileSize: int, i: int): int
  {
    Min(PieceSize, fileSize - i * PieceSize)
  }

  /** `(pieceHashes || []).map((hash, index) => new Piece(...))`. */
  function DerivePieces(fileSize: int, hashes: seq<string>): (ps: seq<Piece>)
    ensures |ps| == |hashes|
    ensures forall i :: 0 <= i < |ps| ==>
      ps[i].index == i && ps[i].hash == hashes[i] && !ps[i].isDownloaded
    ensures forall i :: 0 <= i < |ps| ==>
      ps[i].size == if PieceSize <= fileSize - i * PieceSize then PieceSize else fileSize - i * PieceSize
  {
    seq(|hashes|, i requires 0 <= i < |hashes| => NewPiece(i, hashes[i], PieceSizeAt(fileSize, i)))
  }

  /** Sum of the sizes of a sequence of pieces. */
  function TotalSize(ps: seq<Piece>): int
  {
    if |ps| == 0 then 0 else TotalSize(ps[..|ps| - 1]) + ps[|ps| - 1].size
  }

  /** Sum of the first `n` derived piece sizes. */
  function SizeSum(fileSize: int, n: nat): int
  {
    if n == 0 then 0 else SizeSum(fileSize, n - 1) + PieceSizeAt(fileSize, n - 1)
  }

  lemma {:induction false} TotalSizeOfDerived(fileSize: int, hashes: seq<string>)
    ensures TotalSize(DerivePieces(fileSize, hashes)) == SizeSum(fileSize, |hashes|)
    decreases |hashes|
  {
    if |hashes| > 0 {
      var n := |hashes|;
      var ps := DerivePieces(fileSize, hashes);
      assert ps[..n - 1] == DerivePieces(fileSize, hashes[..n - 1]);
      TotalSizeOfDerived(fileSize, hashes[..n - 1]);
    }
  }

  /** Every piece before the last of a file is a full piece. */
  lemma {:induction false} FullPiecesSum(fileSize: nat, n: nat)
    requires n < CeilDiv(fileSize, PieceSize)
    ensures SizeSum(fileSize, n) == n * PieceSize
  {
    if n > 0 {
      FullPiecesSum(fileSize, n - 1);
      assert PieceSizeAt(fileSize, n - 1) == PieceSize;
    }
  }

  /** Piece coverage: with one hash per 512 KiB of the file (the count the
      publishing client computes), every piece has a positive size and the
      sizes add up to the file size. */
  lemma PieceCoverage(fileSize: nat, hashes: seq<string>)
    requires |hashes| == CeilDiv(fileSize, PieceSize)
    ensures forall i :: 0 <= i < |hashes| ==> DerivePieces(fileSize, hashes)[i].size > 0
    ensures TotalSize(DerivePieces(fileSize, hashes)) == fileSize
  {
    var n := |hashes|;
    TotalSizeOfDerived(fileSize, hashes);
    if n > 0 {
      FullPiecesSum(fileSize, n - 1);
      assert PieceSizeAt(fileSize, n - 1) == fileSize - (n - 1) * PieceSize;
    }
  }

  /** A hash beyond the extent of the file yields a piece of size zero or
      less, so piece coverage needs the exact hash count. */
  lemma ExtraHashHasNoBytes(fileSize: nat, hashes: seq<string>, i: nat)
    requires CeilDiv(fileSize, PieceSize) <= i < |hashes|
    ensures DerivePieces(fileSize, hashes)[i].size <= 0
  {
    assert fileSize <= PieceSize * CeilDiv(fileSize, PieceSize);
  }

  /** A 1 MiB file has two full pieces. */
  lemma OneMebibyteFile(h0: string, h1: string)
    ensures |DerivePieces(1048576, [h0, h1])| == 2
    ensures DerivePieces(1048576, [h0, h1])[0].size == 524288
    ensures DerivePieces(1048576, [h0, h1])[1].size == 524288
  {
  }

  /** A 700 KiB file has one full piece and a 192512-byte tail. */
  lemma SevenHundredKibibyteFile(h0: string, h1: string)
    ensures CeilDiv(716800, PieceSize) == 2
    ensures DerivePieces(716800, [h0, h1])[0].size == 524288
    ensures DerivePieces(716800, [h0, h1])[1].size == 192512
  {
  }

  // ---------------------------------------------------------------------
  // TorrentFile and Torrent

  datatype TorrentFile = TorrentFile(fileName: string, fileSize: int, pieces: seq<Piece>)

  /** What the constructor receives per file; `pieceHashes` may be absent. */
  datatype FileSpec = FileSpec(name: string, size: int, pieceHashes: Option<seq<string>>)

  datatype Torrent = Torrent(infoHash: string, files: seq<TorrentFile>, torrentPeers: seq<TorrentPeer>)

  function HashesOf(spec: FileSpec): seq<string>
  {
    match spec.pieceHashes
    case Some(hs) => hs
    case None => []
  }

  /** The `Torrent` constructor: one file per spec, in order, each with the
      pieces derived from its hashes (none when the hashes are absent). */
  function NewTorrent(infoHash: string, specs: seq<FileSpec>, peers: seq<TorrentPeer>): (t: Torrent)
    ensures GetInfoHash(t) == infoHash
    ensures |GetFiles(t)| == |specs|
    ensures forall j :: 0 <= j < |specs| ==>
      && GetFiles(t)[j].fileName == specs[j].name
      && GetFiles(t)[j].fileSize == specs[j].size
      && GetFiles(t)[j].pieces == DerivePieces(specs[j].size, HashesOf(specs[j]))
    ensures forall j :: 0 <= j < |specs| && specs[j].pieceHashes.None? ==> GetFiles(t)[j].pieces == []
    ensures t.torrentPeers == peers
  {
    Torrent(infoHash,
            seq(|specs|, j requires 0 <= j < |specs| =>
              TorrentFile(specs[j].name, specs[j].size, DerivePieces(specs[j].size, HashesOf(specs[j])))),
            peers)
  }

  function GetInfoHash(t: Torrent): string
  {
    t.infoHash
  }

  function GetFiles(t: Torrent): seq<TorrentFile>
  {
    t.files
  }

  /** `addPeer`: appends one peer at the end, keeping the others in order. */
  function AddPeer(t: Torrent, p: TorrentPeer): (r: Torrent)
    ensures |r.torrentPeers| == |t.torrentPeers| + 1
    ensures r.torrentPeers[..|t.torrentPeers|] == t.torrentPeers
    ensures r.torrentPeers[|t.torrentPeers|] == p
    ensures r.infoHash == t.infoHash && r.files == t.files
  {
    t.(torrentPeers := t.torrentPeers + [p])
  }

  /** The peers whose id differs from `peerId`, in their original order. */
  function WithoutPeer(peers: seq<TorrentPeer>, peerId: string): (r: seq<TorrentPeer>)
    ensures forall i :: 0 <= i < |r| ==> GetPeerId(r[i]) != peerId
    ensures forall p :: p in r <==> p in peers && GetPeerId(p) != peerId
    ensures |r| <= |peers|
    ensures (forall i :: 0 <= i < |peers| ==> GetPeerId(peers[i]) != peerId) ==> r == peers
  {
    if |peers| == 0 then []
    else
      var rest := WithoutPeer(peers[1..], peerId);
      assert peers == [peers[0]] + peers[1..];
      if GetPeerId(peers[0]) == peerId then rest else [peers[0]] + rest
  }

  /** Removal keeps the survivors' relative order: it acts on each part of
      a split list independently. */
  lemma {:induction false} WithoutPeerKeepsOrder(a: seq<TorrentPeer>, b: seq<TorrentPeer>, peerId: string)
    ensures WithoutPeer(a + b, peerId) == WithoutPeer(a, peerId) + WithoutPeer(b, peerId)
    decreases |a|
  {
    if |a| == 0 {
      assert a + b == b;
    } else {
      assert (a + b)[1..] == a[1..] + b;
      WithoutPeerKeepsOrder(a[1..], b, peerId);
    }
  }

  /** `removePeer`: drops every peer with the given id and nothing else. */
  function RemovePeer(t: Torrent, peerId: string): (r: Torrent)
    ensures forall i :: 0 <= i < |r.torrentPeers| ==> GetPeerId(r.torrentPeers[i]) != peerId
    ensures forall p :: p in r.torrentPeers <==> p in t.torrentPeers && GetPeerId(p) != peerId
    ensures r.infoHash == t.infoHash && r.files == t.files
  {
    t.(torrentPeers := WithoutPeer(t.torrentPeers, peerId))
  }

  lemma RemovePeerIdempotent(t: Torrent, peerId: string)
    ensures RemovePeer(RemovePeer(t, peerId), peerId) == RemovePeer(t, peerId)
  {
  }

  /** Removing a peer that was just added restores the peer list when no
      other peer had that id. */
  lemma RemoveUndoesAdd(t: Torrent, p: TorrentPeer)
    requires forall i :: 0 <= i < |t.torrentPeers| ==> GetPeerId(t.torrentPeers[i]) != GetPeerId(p)
    ensures RemovePeer(AddPeer(t, p), GetPeerId(p)) == t
  {
    WithoutPeerKeepsOrder(t.torrentPeers, [p], GetPeerId(p));
  }
}

=== FILE: orchestrator.dfy ===
/** The client's decision logic: how a file is cut, hashed and handed to
    the tracker and to the client's own agent when it is published, and
    what one download round does: pick a source per piece, cap the round,
    verify completed pieces against their hashes, count them and decide
    between completion and another round. */
module Orchestrator {
  import opened Common
  import opened Chunking
  import opened Content
  import Tracker
  import PeerAgent

  /** The client's identity as it presents itself: its id, its address and
      `peerPort`, the port of its own agent (the page's port plus 2000). */
  datatype Identity = Identity(peerId: string, peerIp: string, peerPort: int)

  // ---------------------------------------------------------------------
  // Publishing (handleFileUpload)

  /** What publishing a file produces: its 512 KiB chunks and their
      digests, the messages for the client's own agent, in order, and the
      publish body for the tracker. */
  datatype UploadPlan = UploadPlan(
    chunks: seq<seq<Byte>>,
    pieceHashes: seq<string>,
    toAgent: seq<PeerAgent.Message>,
    publish: Tracker.PublishRequest)

  /** The page may publish: it knows its own address and port (both are
      tested for truthiness before anything else happens) and the file is
      at most 210 MiB. */
  predicate Uploadable(me: Identity, file: seq<Byte>)
  {
    me.peerIp != "" && me.peerPort != 0 && |file| <= MaxUploadSize
  }

  /** Publishing a file. Without an address or a port nothing happens, and
      a file over 210 MiB is refused before anything is sent. Otherwise the file is cut into 512 KiB chunks, each chunk is
      hashed, the agent gets FILE_UPLOAD, a seeder join record for all the
      chunks and every chunk as a PIECE_UPLOAD, and the tracker gets the
      metadata. The content id is the file name. */
  function PlanUpload(me: Identity, fileName: string, file: seq<Byte>, hash: Hasher): (r: Option<UploadPlan>)
    ensures r.None? <==> me.peerIp == "" || me.peerPort == 0 || |file| > MaxUploadSize
    ensures r.Some? ==>
      var u := r.value;
      && |u.chunks| == CeilDiv(|file|, PieceSize)
      && Concat(u.chunks) == file
      && |u.pieceHashes| == |u.chunks|
      && (forall i :: 0 <= i < |u.chunks| ==> u.pieceHashes[i] == hash(u.chunks[i]))
      && u.publish == Tracker.PublishRequest(me.peerId, me.peerIp, me.peerPort, fileName, |file|,
                                              Tracker.HashArray(u.pieceHashes), fileName)
      && |u.toAgent| == 2 + |u.chunks|
      && u.toAgent[0] == PeerAgent.FileUpload(me.peerId, fileName, me.peerPort - AgentPortOffset, true)
      && u.toAgent[1] == PeerAgent.AddNewJoinedTorrents(fileName, |u.chunks|, true)
      && (forall i :: 0 <= i < |u.chunks| ==>
            u.toAgent[2 + i] == PeerAgent.PieceUpload(me.peerId, fileName, fileName, Some(i), Some(u.chunks[i])))
  {
    if me.peerIp == "" || me.peerPort == 0 then None
    else if |file| > MaxUploadSize then None
    else
      var chunks := Split(file, PieceSize);
      var hashes := seq(|chunks|, i requires 0 <= i < |chunks| => hash(chunks[i]));
      var uploads := seq(|chunks|, i requires 0 <= i < |chunks| =>
        PeerAgent.PieceUpload(me.peerId, fileName, fileName, Some(i), Some(chunks[i])));
      var toAgent := [PeerAgent.FileUpload(me.peerId, fileName, me.peerPort - AgentPortOffset, true),
                      PeerAgent.AddNewJoinedTorrents(fileName, |chunks|, true)] + uploads;
      Some(UploadPlan(chunks, hashes, toAgent,
        Tracker.PublishRequest(me.peerId, me.peerIp, me.peerPort, fileName, |file|, Tracker.HashArray(hashes), fileName)))
  }

  /** Chunk `i` of a file is the slice `[524288 i, min(524288 (i + 1), size))`. */
  lemma ChunkIsSlice(file: seq<Byte>, i: nat)
    requires i < CeilDiv(|file|, PieceSize)
    ensures PieceSize * i < |file|
    ensures Split(file, PieceSize)[i] == file[PieceSize * i .. Min(PieceSize * (i + 1), |file|)]
  {
    SplitPart(file, PieceSize, i);
    OffsetIsProduct(PieceSize, i);
    OffsetIsProduct(PieceSize, i + 1);
    var lo, hi := Offset(PieceSize, i), Offset(PieceSize, i + 1);
    assert lo == PieceSize * i && hi == PieceSize * (i + 1);
    assert Split(file, PieceSize)[i] == file[lo .. Min(hi, |file|)];
  }

  /** The tracker and the client agree on the pieces: when the publish body
      is accepted, the registered torrent has one piece per chunk, carrying
      the chunk's digest and exactly the chunk's length. */
  lemma PublishedPiecesAreTheChunks(reg: Tracker.Registry, me: Identity, fileName: string, file: seq<Byte>, hash: Hasher)
    requires Uploadable(me, file)
    requires Tracker.Publish(reg, PlanUpload(me, fileName, file, hash).value.publish).reply.PublishSuccess?
    ensures var u := PlanUpload(me, fileName, file, hash).value;
      var pieces := GetFiles(Tracker.Publish(reg, u.publish).registry[fileName])[0].pieces;
      && |pieces| == |u.chunks|
      && (forall i :: 0 <= i < |pieces| ==> pieces[i].hash == u.pieceHashes[i] && pieces[i].size == |u.chunks[i]|)
      && TotalSize(pieces) == |file|
  {
    var u := PlanUpload(me, fileName, file, hash).value;
    assert u.chunks == Split(file, PieceSize);
    assert GetFiles(Tracker.Publish(reg, u.publish).registry[fileName])[0].pieces == DerivePieces(|file|, u.pieceHashes);
    ChunkSizes(file, u.pieceHashes);
    PieceCoverage(|file|, u.pieceHashes);
  }

  /** The piece sizes the tracker derives from the file size are the
      lengths of the chunks the client cut. */
  lemma ChunkSizes(file: seq<Byte>, hashes: seq<string>)
    requires |hashes| == CeilDiv(|file|, PieceSize)
    ensures forall i :: 0 <= i < |hashes| ==> DerivePieces(|file|, hashes)[i].size == |Split(file, PieceSize)[i]|
  {
    forall i | 0 <= i < |hashes| ensures DerivePieces(|file|, hashes)[i].size == |Split(file, PieceSize)[i]| {
      ChunkIsSlice(file, i);
    }
  }

  /** The tracker accepts the publish body of a page that may publish iff
      the client has an id, the file has a name and is not empty, and no
      torrent with the file's name is registered yet. (The tracker's own
      address and port checks always pass: the page tested both before
      planning.) */
  lemma PublishAcceptedIff(reg: Tracker.Registry, me: Identity, fileName: string, file: seq<Byte>, hash: Hasher)
    requires Uploadable(me, file)
    ensures Tracker.Publish(reg, PlanUpload(me, fileName, file, hash).value.publish).reply.PublishSuccess? <==>
      me.peerId != "" && fileName != "" && |file| > 0 && fileName !in reg
  {
  }

  /** The FILE_UPLOAD the client sends passes its own agent's port check. */
  lemma OwnAgentAcceptsFileUpload(a: PeerAgent.Agent, me: Identity, fileName: string, file: seq<Byte>, hash: Hasher)
    requires Uploadable(me, file) && a.serverPort == me.peerPort
    requires me.peerId != "" && fileName != "" && me.peerPort != AgentPortOffset
    ensures var m := PlanUpload(me, fileName, file, hash).value.toAgent[0];
      PeerAgent.Handle(a, m, PeerAgent.NoFaults).sent ==
        [PeerAgent.Sent(PeerAgent.AllClients, PeerAgent.FileChunked(fileName, PieceSize)),
         PeerAgent.Sent(PeerAgent.Sender, PeerAgent.FileUploadSuccess(fileName, PieceSize))]
  {
  }

  /** The client's own agent handling messages in order, each write to disk
      succeeding or each failing as `io` says. */
  function HandleAll(a: PeerAgent.Agent, msgs: seq<PeerAgent.Message>, io: PeerAgent.Io): (r: PeerAgent.Agent)
    ensures r.serverPort == a.serverPort
    decreases |msgs|
  {
    if |msgs| == 0 then a else HandleAll(PeerAgent.Handle(a, msgs[0], io).agent, msgs[1..], io)
  }

  lemma {:induction false} HandleAllAppend(a: PeerAgent.Agent, xs: seq<PeerAgent.Message>, ys: seq<PeerAgent.Message>, io: PeerAgent.Io)
    ensures HandleAll(a, xs + ys, io) == HandleAll(HandleAll(a, xs, io), ys, io)
    decreases |xs|
  {
    if |xs| > 0 {
      assert (xs + ys)[0] == xs[0];
      assert (xs + ys)[1..] == xs[1..] + ys;
      HandleAllAppend(PeerAgent.Handle(a, xs[0], io).agent, xs[1..], ys, io);
    } else {
      assert xs + ys == ys;
    }
  }

  lemma HandleAllCons(a: PeerAgent.Agent, m: PeerAgent.Message, rest: seq<PeerAgent.Message>, io: PeerAgent.Io)
    ensures HandleAll(a, [m] + rest, io) == HandleAll(PeerAgent.Handle(a, m, io).agent, rest, io)
  {
    assert ([m] + rest)[1..] == rest;
  }

  /** The PIECE_UPLOAD messages for chunks `from` onwards. */
  function UploadMessages(peerId: string, fileName: string, chunks: seq<seq<Byte>>, from: nat): (r: seq<PeerAgent.Message>)
    requires from <= |chunks|
    ensures |r| == |chunks| - from
    ensures forall k :: 0 <= k < |r| ==>
      r[k] == PeerAgent.PieceUpload(peerId, fileName, fileName, Some(from + k), Some(chunks[from + k]))
    decreases |chunks| - from
  {
    if from == |chunks| then []
    else [PeerAgent.PieceUpload(peerId, fileName, fileName, Some(from), Some(chunks[from]))]
         + UploadMessages(peerId, fileName, chunks, from + 1)
  }

  /** A seeder's record for `fileName` with one set entry per chunk. */
  predicate SeedsAll(a: PeerAgent.Agent, fileName: string, n: nat)
  {
    fileName in a.joined && |a.joined[fileName].bitfield| == n
    && forall i :: 0 <= i < n ==> a.joined[fileName].bitfield[i]
  }

  /** Storing chunks `from` onwards keeps the client and the seeder record
      as they are. */
  lemma {:induction false} UploadsKeepSeeder(a: PeerAgent.Agent, peerId: string, fileName: string, chunks: seq<seq<Byte>>, from: nat)
    requires from <= |chunks|
    requires PeerAgent.HasClientId(a) && a.client.value.peerId == peerId && fileName != ""
    requires SeedsAll(a, fileName, |chunks|)
    ensures var b := HandleAll(a, UploadMessages(peerId, fileName, chunks, from), PeerAgent.NoFaults);
      b.client == a.client && SeedsAll(b, fileName, |chunks|)
    decreases |chunks| - from
  {
    if from < |chunks| {
      var m := PeerAgent.PieceUpload(peerId, fileName, fileName, Some(from), Some(chunks[from]));
      var rest := UploadMessages(peerId, fileName, chunks, from + 1);
      HandleAllCons(a, m, rest, PeerAgent.NoFaults);
      var a1 := PeerAgent.Handle(a, m, PeerAgent.NoFaults).agent;
      UploadOne(a, peerId, fileName, from, chunks[from], |chunks|);
      UploadsKeepSeeder(a1, peerId, fileName, chunks, from + 1);
    }
  }

  /** Storing chunks `from` onwards stores every one of them under the
      client's id and leaves the other pieces as they were. */
  lemma {:induction false} UploadsStoreChunks(a: PeerAgent.Agent, peerId: string, fileName: string, chunks: seq<seq<Byte>>, from: nat)
    requires from <= |chunks|
    requires PeerAgent.HasClientId(a) && a.client.value.peerId == peerId && fileName != ""
    requires SeedsAll(a, fileName, |chunks|)
    ensures var b := HandleAll(a, UploadMessages(peerId, fileName, chunks, from), PeerAgent.NoFaults);
      && (forall i :: from <= i < |chunks| ==>
            PeerAgent.PieceKey(peerId, fileName, i) in b.store.pieces
            && b.store.pieces[PeerAgent.PieceKey(peerId, fileName, i)] == chunks[i])
      && (forall key :: key in a.store.pieces && (key.peerId != peerId || key.fileName != fileName || key.pieceIndex < from) ==>
            key in b.store.pieces && b.store.pieces[key] == a.store.pieces[key])
    decreases |chunks| - from
  {
    if from < |chunks| {
      var m := PeerAgent.PieceUpload(peerId, fileName, fileName, Some(from), Some(chunks[from]));
      var rest := UploadMessages(peerId, fileName, chunks, from + 1);
      HandleAllCons(a, m, rest, PeerAgent.NoFaults);
      var a1 := PeerAgent.Handle(a, m, PeerAgent.NoFaults).agent;
      UploadOne(a, peerId, fileName, from, chunks[from], |chunks|);
      UploadsStoreChunks(a1, peerId, fileName, chunks, from + 1);
      KeepsEarlierPieces(a.store.pieces, a1.store.pieces, HandleAll(a1, rest, PeerAgent.NoFaults).store.pieces, peerId, fileName, chunks, from);
    }
  }

  /** Map bookkeeping for one step of `UploadsStoreChunks`: `mid` is `before`
      with chunk `from` stored, `after` keeps what `mid` had below `from + 1`
      and holds chunks `from + 1` onwards. */
  lemma KeepsEarlierPieces(before: map<PeerAgent.PieceKey, seq<Byte>>, mid: map<PeerAgent.PieceKey, seq<Byte>>,
                           after: map<PeerAgent.PieceKey, seq<Byte>>, peerId: string, fileName: string,
                           chunks: seq<seq<Byte>>, from: nat)
    requires from < |chunks|
    requires mid == before[PeerAgent.PieceKey(peerId, fileName, from) := chunks[from]]
    requires forall i :: from + 1 <= i < |chunks| ==>
      PeerAgent.PieceKey(peerId, fileName, i) in after && after[PeerAgent.PieceKey(peerId, fileName, i)] == chunks[i]
    requires forall key :: key in mid && (key.peerId != peerId || key.fileName != fileName || key.pieceIndex < from + 1) ==>
      key in after && after[key] == mid[key]
    ensures forall i :: from <= i < |chunks| ==>
      PeerAgent.PieceKey(peerId, fileName, i) in after && after[PeerAgent.PieceKey(peerId, fileName, i)] == chunks[i]
    ensures forall key :: key in before && (key.peerId != peerId || key.fileName != fileName || key.pieceIndex < from) ==>
      key in after && after[key] == before[key]
  {
    assert PeerAgent.PieceKey(peerId, fileName, from) in mid;
  }

  /** One PIECE_UPLOAD of a seeder's own chunk. */
  lemma UploadOne(a: PeerAgent.Agent, peerId: string, fileName: string, i: nat, chunk: seq<Byte>, n: nat)
    requires PeerAgent.HasClientId(a) && a.client.value.peerId == peerId && fileName != ""
    requires SeedsAll(a, fileName, n) && i < n
    ensures var b := PeerAgent.Handle(a, PeerAgent.PieceUpload(peerId, fileName, fileName, Some(i), Some(chunk)), PeerAgent.NoFaults).agent;
      && b.client == a.client
      && SeedsAll(b, fileName, n)
      && b.store.pieces == a.store.pieces[PeerAgent.PieceKey(peerId, fileName, i) := chunk]
  {
    var b := PeerAgent.Handle(a, PeerAgent.PieceUpload(peerId, fileName, fileName, Some(i), Some(chunk)), PeerAgent.NoFaults).agent;
    assert b.joined[fileName].bitfield == a.joined[fileName].bitfield[i := true];
    assert b.joined[fileName].bitfield == a.joined[fileName].bitfield;
  }

  /** After its own agent has handled the publishing messages, the client
      is a seeder of the file: a record with every piece marked, and every
      chunk stored under the client's id. */
  lemma PublisherBecomesSeeder(a: PeerAgent.Agent, me: Identity, fileName: string, file: seq<Byte>, hash: Hasher, lag: nat)
    requires Uploadable(me, file) && a.serverPort == me.peerPort
    requires PeerAgent.HasClientId(a) && a.client.value.peerId == me.peerId && fileName != ""
    ensures var u := PlanUpload(me, fileName, file, hash).value;
      var b := HandleAll(a, u.toAgent, PeerAgent.NoFaults);
      && DeliverUpload(a, u.toAgent, PeerAgent.NoFaults, lag) == (b, |u.toAgent|)
      && SeedsAll(b, fileName, |u.chunks|)
      && (forall i :: 0 <= i < |u.chunks| ==>
            PeerAgent.PieceKey(me.peerId, fileName, i) in b.store.pieces
            && b.store.pieces[PeerAgent.PieceKey(me.peerId, fileName, i)] == u.chunks[i])
  {
    var u := PlanUpload(me, fileName, file, hash).value;
    var n := |u.chunks|;
    var uploads := UploadMessages(me.peerId, fileName, u.chunks, 0);
    assert u.toAgent == u.toAgent[..2] + uploads;
    HandleAllAppend(a, u.toAgent[..2], uploads, PeerAgent.NoFaults);
    var a0 := PeerAgent.Handle(a, u.toAgent[0], PeerAgent.NoFaults).agent;
    assert a0 == a;
    var a1 := PeerAgent.Handle(a0, u.toAgent[1], PeerAgent.NoFaults).agent;
    assert u.toAgent[..2][1..] == [u.toAgent[1]];
    assert HandleAll(a0, [u.toAgent[1]], PeerAgent.NoFaults) == a1;
    assert HandleAll(a, u.toAgent[..2], PeerAgent.NoFaults) == a1;
    assert SeedsAll(a1, fileName, n);
    UploadsKeepSeeder(a1, me.peerId, fileName, u.chunks, 0);
    UploadsStoreChunks(a1, me.peerId, fileName, u.chunks, 0);
    PublishDeliversAll(a, me, fileName, file, hash, lag);
  }

  /** Without write failures the whole publication reaches the agent. */
  lemma PublishDeliversAll(a: PeerAgent.Agent, me: Identity, fileName: string, file: seq<Byte>, hash: Hasher, lag: nat)
    requires Uploadable(me, file) && a.serverPort == me.peerPort
    requires PeerAgent.HasClientId(a) && a.client.value.peerId == me.peerId && fileName != ""
    ensures var u := PlanUpload(me, fileName, file, hash).value;
      DeliverUpload(a, u.toAgent, PeerAgent.NoFaults, lag) == (HandleAll(a, u.toAgent, PeerAgent.NoFaults), |u.toAgent|)
  {
    var u := PlanUpload(me, fileName, file, hash).value;
    PlanMessages(me, fileName, file, hash);
    DeliverPublished(a, u.toAgent, fileName, u.chunks, lag);
  }

  /** FILE_UPLOAD, the seeder record and the PIECE_UPLOADs all reach an
      agent that suffers no write failure. */
  lemma DeliverPublished(a: PeerAgent.Agent, msgs: seq<PeerAgent.Message>, fileName: string, chunks: seq<seq<Byte>>, lag: nat)
    requires PeerAgent.HasClientId(a) && fileName != ""
    requires |msgs| >= 2
    requires msgs[0] == PeerAgent.FileUpload(a.client.value.peerId, fileName, a.serverPort - AgentPortOffset, true)
    requires msgs[1] == PeerAgent.AddNewJoinedTorrents(fileName, |chunks|, true)
    requires msgs[2..] == UploadMessages(a.client.value.peerId, fileName, chunks, 0)
    ensures DeliverUpload(a, msgs, PeerAgent.NoFaults, lag) == (HandleAll(a, msgs, PeerAgent.NoFaults), |msgs|)
  {
    HeaderSteps(a, fileName, |chunks|);
    UploadsDeliverAll(PeerAgent.Handle(a, msgs[1], PeerAgent.NoFaults).agent, a.client.value.peerId, fileName, chunks, 0, lag);
    DeliverTwoThen(a, msgs, PeerAgent.NoFaults, lag);
  }

  /** After FILE_UPLOAD and the seeder record the agent's messages are the
      PIECE_UPLOADs. */
  lemma PlanMessages(me: Identity, fileName: string, file: seq<Byte>, hash: Hasher)
    requires Uploadable(me, file)
    ensures var u := PlanUpload(me, fileName, file, hash).value;
      u.toAgent[2..] == UploadMessages(me.peerId, fileName, u.chunks, 0)
  {
    var u := PlanUpload(me, fileName, file, hash).value;
    DropTwo(u.toAgent, UploadMessages(me.peerId, fileName, u.chunks, 0));
  }

  lemma DropTwo<T>(t: seq<T>, rest: seq<T>)
    requires |t| == 2 + |rest|
    requires forall k :: 0 <= k < |rest| ==> t[2 + k] == rest[k]
    ensures t[2..] == rest
  {
    forall k | 0 <= k < |rest| ensures t[2..][k] == rest[k] {
      assert t[2..][k] == t[2 + k];
    }
  }

  /** FILE_UPLOAD leaves the agent as it was and the seeder record makes it
      seed all `n` pieces; neither draws UPLOAD_FAIL. */
  lemma HeaderSteps(a: PeerAgent.Agent, fileName: string, n: nat)
    requires PeerAgent.HasClientId(a) && fileName != ""
    ensures var m0 := PeerAgent.FileUpload(a.client.value.peerId, fileName, a.serverPort - AgentPortOffset, true);
      var s0 := PeerAgent.Handle(a, m0, PeerAgent.NoFaults);
      s0.agent == a && !UploadFailed(s0.sent)
    ensures var s1 := PeerAgent.Handle(a, PeerAgent.AddNewJoinedTorrents(fileName, n, true), PeerAgent.NoFaults);
      && !UploadFailed(s1.sent) && s1.agent.client == a.client && SeedsAll(s1.agent, fileName, n)
  {
  }

  /** Two messages that do not fail, the first leaving the agent as it
      was, followed by messages that are all delivered, are all delivered. */
  lemma DeliverTwoThen(a: PeerAgent.Agent, msgs: seq<PeerAgent.Message>, io: PeerAgent.Io, lag: nat)
    requires |msgs| >= 2
    requires PeerAgent.Handle(a, msgs[0], io).agent == a && !UploadFailed(PeerAgent.Handle(a, msgs[0], io).sent)
    requires !UploadFailed(PeerAgent.Handle(a, msgs[1], io).sent)
    requires var a1 := PeerAgent.Handle(a, msgs[1], io).agent;
      DeliverUpload(a1, msgs[2..], io, lag) == (HandleAll(a1, msgs[2..], io), |msgs| - 2)
    ensures DeliverUpload(a, msgs, io, lag) == (HandleAll(a, msgs, io), |msgs|)
  {
    assert msgs[1..][0] == msgs[1] && msgs[1..][1..] == msgs[2..];
  }

  // ---------------------------------------------------------------------
  // The upload socket closing on failure

  /** Some reply to the client is UPLOAD_FAIL. */
  predicate UploadFailed(sent: seq<PeerAgent.Sent>)
  {
    PeerAgent.Sent(PeerAgent.Sender, PeerAgent.UploadFail) in sent
  }

  /** The client's upload socket. The agent handles the messages in order;
      the client closes the socket on the first UPLOAD_FAIL it reads, after
      which only the `lag` messages it had already sent by then arrive.
      The result is the agent and the number of messages it handled. */
  function DeliverUpload(a: PeerAgent.Agent, msgs: seq<PeerAgent.Message>, io: PeerAgent.Io, lag: nat): (r: (PeerAgent.Agent, nat))
    ensures r.1 <= |msgs|
    decreases |msgs|
  {
    if |msgs| == 0 then (a, 0)
    else
      var s := PeerAgent.Handle(a, msgs[0], io);
      var rest := msgs[1..];
      if UploadFailed(s.sent) then
        var n := Min(lag, |rest|);
        (HandleAll(s.agent, rest[..n], io), 1 + n)
      else
        var r := DeliverUpload(s.agent, rest, io, lag);
        (r.0, r.1 + 1)
  }

  lemma DeliverUploadCons(a: PeerAgent.Agent, m: PeerAgent.Message, rest: seq<PeerAgent.Message>, io: PeerAgent.Io, lag: nat)
    ensures var s := PeerAgent.Handle(a, m, io);
      DeliverUpload(a, [m] + rest, io, lag) ==
        if UploadFailed(s.sent) then (HandleAll(s.agent, rest[..Min(lag, |rest|)], io), 1 + Min(lag, |rest|))
        else (DeliverUpload(s.agent, rest, io, lag).0, DeliverUpload(s.agent, rest, io, lag).1 + 1)
  {
    assert ([m] + rest)[0] == m && ([m] + rest)[1..] == rest;
  }

  /** Handling message `k` after the ones before it replies UPLOAD_FAIL. */
  predicate FailsAt(a: PeerAgent.Agent, msgs: seq<PeerAgent.Message>, io: PeerAgent.Io, k: nat)
  {
    k < |msgs| && UploadFailed(PeerAgent.Handle(HandleAll(a, msgs[..k], io), msgs[k], io).sent)
  }

  /** Failures of the messages after the first are failures of the tail
      handled from the state the first one leaves. */
  lemma FailsAtShift(a: PeerAgent.Agent, msgs: seq<PeerAgent.Message>, io: PeerAgent.Io, k: nat)
    requires |msgs| > 0
    ensures FailsAt(a, msgs, io, 0) <==> UploadFailed(PeerAgent.Handle(a, msgs[0], io).sent)
    ensures FailsAt(a, msgs, io, k + 1) <==> FailsAt(PeerAgent.Handle(a, msgs[0], io).agent, msgs[1..], io, k)
  {
    assert msgs[..0] == [];
    if k + 1 < |msgs| {
      assert msgs[..k + 1] == [msgs[0]] + msgs[1..][..k];
      HandleAllCons(a, msgs[0], msgs[1..][..k], io);
    }
  }

  /** The agent ends as if it had handled the delivered messages in
      order. */
  lemma {:induction false} DeliveredPrefix(a: PeerAgent.Agent, msgs: seq<PeerAgent.Message>, io: PeerAgent.Io, lag: nat)
    ensures var r := DeliverUpload(a, msgs, io, lag);
      r.0 == HandleAll(a, msgs[..r.1], io)
    decreases |msgs|
  {
    if |msgs| == 0 {
      assert msgs[..0] == msgs;
    } else {
      var s := PeerAgent.Handle(a, msgs[0], io);
      if UploadFailed(s.sent) {
        PrefixAfterFirst(a, msgs, io, Min(lag, |msgs| - 1));
      } else {
        DeliveredPrefix(s.agent, msgs[1..], io, lag);
        PrefixAfterFirst(a, msgs, io, DeliverUpload(s.agent, msgs[1..], io, lag).1);
      }
    }
  }

  lemma PrefixAfterFirst(a: PeerAgent.Agent, msgs: seq<PeerAgent.Message>, io: PeerAgent.Io, n: nat)
    requires n < |msgs|
    ensures HandleAll(a, msgs[..n + 1], io) == HandleAll(PeerAgent.Handle(a, msgs[0], io).agent, msgs[1..][..n], io)
  {
    assert msgs[..n + 1] == [msgs[0]] + msgs[1..][..n];
    HandleAllCons(a, msgs[0], msgs[1..][..n], io);
  }

  /** Delivery falls short only after a failure: it then ends `lag`
      messages after the first failing message. */
  lemma {:induction false} ShortOnlyAfterFailure(a: PeerAgent.Agent, msgs: seq<PeerAgent.Message>, io: PeerAgent.Io, lag: nat)
    ensures var r := DeliverUpload(a, msgs, io, lag);
      r.1 < |msgs| ==> exists k: nat :: FailsAt(a, msgs, io, k) && r.1 == k + 1 + lag
                                        && forall j: nat :: j < k ==> !FailsAt(a, msgs, io, j)
    decreases |msgs|
  {
    if |msgs| > 0 {
      var s := PeerAgent.Handle(a, msgs[0], io);
      var rest := msgs[1..];
      var r := DeliverUpload(a, msgs, io, lag);
      FailsAtShift(a, msgs, io, 0);
      if UploadFailed(s.sent) {
        assert FailsAt(a, msgs, io, 0);
      } else {
        ShortOnlyAfterFailure(s.agent, rest, io, lag);
        var q := DeliverUpload(s.agent, rest, io, lag);
        if q.1 < |rest| {
          var k: nat :| FailsAt(s.agent, rest, io, k) && q.1 == k + 1 + lag
                        && forall j: nat :: j < k ==> !FailsAt(s.agent, rest, io, j);
          FailsAtShift(a, msgs, io, k);
          forall j: nat | j < k + 1 ensures !FailsAt(a, msgs, io, j) {
            if j > 0 { FailsAtShift(a, msgs, io, j - 1); }
          }
          assert FailsAt(a, msgs, io, k + 1) && r.1 == (k + 1) + 1 + lag;
        }
      }
    }
  }

  /** A failure with more than `lag` messages after it cuts the delivery
      short. */
  lemma {:induction false} FailureCutsShort(a: PeerAgent.Agent, msgs: seq<PeerAgent.Message>, io: PeerAgent.Io, lag: nat, k: nat)
    requires FailsAt(a, msgs, io, k) && k + 1 + lag < |msgs|
    ensures DeliverUpload(a, msgs, io, lag).1 < |msgs|
    decreases |msgs|
  {
    var s := PeerAgent.Handle(a, msgs[0], io);
    var rest := msgs[1..];
    FailsAtShift(a, msgs, io, 0);
    if !UploadFailed(s.sent) {
      assert k != 0;
      FailsAtShift(a, msgs, io, k - 1);
      FailureCutsShort(s.agent, rest, io, lag, k - 1);
    }
  }

  /** With every write succeeding, the client's own agent never answers a
      seeder's PIECE_UPLOADs with UPLOAD_FAIL, so all of them arrive. */
  lemma {:induction false} UploadsDeliverAll(a: PeerAgent.Agent, peerId: string, fileName: string, chunks: seq<seq<Byte>>, from: nat, lag: nat)
    requires from <= |chunks|
    requires PeerAgent.HasClientId(a) && a.client.value.peerId == peerId && fileName != ""
    requires SeedsAll(a, fileName, |chunks|)
    ensures var msgs := UploadMessages(peerId, fileName, chunks, from);
      DeliverUpload(a, msgs, PeerAgent.NoFaults, lag) == (HandleAll(a, msgs, PeerAgent.NoFaults), |msgs|)
    decreases |chunks| - from
  {
    var msgs := UploadMessages(peerId, fileName, chunks, from);
    if from < |chunks| {
      var m := PeerAgent.PieceUpload(peerId, fileName, fileName, Some(from), Some(chunks[from]));
      var rest := UploadMessages(peerId, fileName, chunks, from + 1);
      assert msgs == [m] + rest;
      var s := PeerAgent.Handle(a, m, PeerAgent.NoFaults);
      assert PeerAgent.FailedBlocks(PeerAgent.NoFaults, from, CeilDiv(|chunks[from]|, BlockSize)) == {};
      assert s.sent == [PeerAgent.Sent(PeerAgent.Sender, PeerAgent.PieceUploadSuccess(fileName, |chunks[from]|, BlockSize))];
      DeliverUploadCons(a, m, rest, PeerAgent.NoFaults, lag);
      HandleAllCons(a, m, rest, PeerAgent.NoFaults);
      UploadOne(a, peerId, fileName, from, chunks[from], |chunks|);
      UploadsDeliverAll(s.agent, peerId, fileName, chunks, from + 1, lag);
    }
  }

  /** FILE_UPLOAD and the seeder record, sent to the client's own agent,
      draw no UPLOAD_FAIL; the first changes nothing and the second keeps
      the client. */
  lemma PublishHeaderDoesNotFail(a: PeerAgent.Agent, me: Identity, fileName: string, file: seq<Byte>, hash: Hasher,
                                 io: PeerAgent.Io)
    requires Uploadable(me, file) && a.serverPort == me.peerPort
    ensures var u := PlanUpload(me, fileName, file, hash).value;
      var s0 := PeerAgent.Handle(a, u.toAgent[0], io);
      var s1 := PeerAgent.Handle(a, u.toAgent[1], io);
      && s0.agent == a && !UploadFailed(s0.sent)
      && s1.agent.client == a.client && !UploadFailed(s1.sent)
  {
  }

  /** A well-formed PIECE_UPLOAD whose piece write fails draws UPLOAD_FAIL
      from an agent that knows its client's id. */
  lemma PieceWriteFailIsReported(a: PeerAgent.Agent, m: PeerAgent.Message, io: PeerAgent.Io)
    requires PeerAgent.HasClientId(a) && m.PieceUpload? && PeerAgent.WellFormed(m)
    requires m.pieceIndex.value in io.pieceWriteFails
    ensures UploadFailed(PeerAgent.Handle(a, m, io).sent)
  {
    var s := PeerAgent.Handle(a, m, io);
    var late := PeerAgent.LateFailures(io, m.pieceIndex.value, m.pieceData.value);
    assert late == [PeerAgent.Sent(PeerAgent.Sender, PeerAgent.UploadFail)];
    assert s.sent[|s.sent| - 1] == late[0];
  }

  /** When the write of the first chunk fails, the client stops after it:
      the agent sees FILE_UPLOAD, the seeder record, the first chunk and the
      `lag` chunks already on their way, and never the rest. */
  lemma FailedWriteStopsUpload(a: PeerAgent.Agent, me: Identity, fileName: string, file: seq<Byte>, hash: Hasher,
                               io: PeerAgent.Io, lag: nat)
    requires Uploadable(me, file) && a.serverPort == me.peerPort
    requires PeerAgent.HasClientId(a) && a.client.value.peerId == me.peerId && fileName != ""
    requires 0 in io.pieceWriteFails
    requires |PlanUpload(me, fileName, file, hash).value.chunks| > 1 + lag
    ensures var u := PlanUpload(me, fileName, file, hash).value;
      DeliverUpload(a, u.toAgent, io, lag).1 == 3 + lag < |u.toAgent|
  {
    var u := PlanUpload(me, fileName, file, hash).value;
    var msgs := u.toAgent;
    var m0, m1, m2 := msgs[0], msgs[1], msgs[2];
    var tail := msgs[3..];
    assert msgs == [m0] + ([m1] + ([m2] + tail));
    PublishHeaderDoesNotFail(a, me, fileName, file, hash, io);
    var a1 := PeerAgent.Handle(a, m1, io).agent;
    PieceWriteFailIsReported(a1, m2, io);
    DeliverUploadCons(a, m0, [m1] + ([m2] + tail), io, lag);
    DeliverUploadCons(a, m1, [m2] + tail, io, lag);
    DeliverUploadCons(a1, m2, tail, io, lag);
  }

  // ---------------------------------------------------------------------
  // Joining a download

  /** The bitfield a download starts from: the client's existing join
      record is reused unchanged; otherwise an all-false bitfield with one
      entry per piece, and the agent is told to create the record. */
  function JoinBitfield(joined: map<string, PeerAgent.JoinRecord>, infoHash: string, pieceCount: nat): (r: (seq<bool>, Option<PeerAgent.Message>))
    ensures infoHash in joined ==> r == (joined[infoHash].bitfield, None)
    ensures infoHash !in joined ==>
      && |r.0| == pieceCount
      && (forall i :: 0 <= i < pieceCount ==> !r.0[i])
      && r.1 == Some(PeerAgent.AddNewJoinedTorrents(infoHash, pieceCount, false))
  {
    if infoHash in joined then (joined[infoHash].bitfield, None)
    else (Repeat(false, pieceCount), Some(PeerAgent.AddNewJoinedTorrents(infoHash, pieceCount, false)))
  }

  /** The record the agent creates from that message is the bitfield the
      client starts the download with. */
  lemma JoinAgreesWithAgent(a: PeerAgent.Agent, joined: map<string, PeerAgent.JoinRecord>, infoHash: string, pieceCount: nat)
    requires infoHash !in joined
    ensures var (bitfield, add) := JoinBitfield(joined, infoHash, pieceCount);
      PeerAgent.Handle(a, add.value, PeerAgent.NoFaults).agent.joined[infoHash] == PeerAgent.JoinRecord(0, 0, bitfield)
  {
  }

  /** The peers the client contacts: every peer of the torrent except those
      on the client's own port, in list order. */
  function Candidates(peers: seq<TorrentPeer>, myPort: int): (r: seq<TorrentPeer>)
    ensures |r| <= |peers|
    ensures forall p :: p in r <==> p in peers && p.peerPort != myPort
  {
    if |peers| == 0 then []
    else
      var rest := Candidates(peers[1..], myPort);
      assert forall p :: p in peers <==> p == peers[0] || p in peers[1..];
      if peers[0].peerPort != myPort then [peers[0]] + rest else rest
  }

  // ---------------------------------------------------------------------
  // Source selection

  /** Peer bitfield `bf` marks piece `p` (an entry past its end is absent). */
  predicate Holds(bf: seq<bool>, p: nat)
  {
    p < |bf| && bf[p]
  }

  /** The first peer, at or after `from`, whose bitfield marks piece `p`. */
  function FirstHolder(bfs: seq<seq<bool>>, p: nat, from: nat): (r: Option<nat>)
    requires from <= |bfs|
    ensures r.Some? ==>
      && from <= r.value < |bfs| && Holds(bfs[r.value], p)
      && forall j :: from <= j < r.value ==> !Holds(bfs[j], p)
    ensures r.None? <==> forall j :: from <= j < |bfs| ==> !Holds(bfs[j], p)
    decreases |bfs| - from
  {
    if from == |bfs| then None
    else if Holds(bfs[from], p) then Some(from)
    else FirstHolder(bfs, p, from + 1)
  }

  /** `seedingPeerWs`: for each piece of the client's bitfield, the first
      contacted peer (in list order) whose bitfield marks it, or none. */
  function SelectSources(n: nat, bfs: seq<seq<bool>>): (r: seq<Option<nat>>)
    ensures |r| == n
    ensures forall p :: 0 <= p < n && r[p].Some? ==>
      && r[p].value < |bfs| && Holds(bfs[r[p].value], p)
      && forall j :: 0 <= j < r[p].value ==> !Holds(bfs[j], p)
    ensures forall p :: 0 <= p < n ==> (r[p].None? <==> forall j :: 0 <= j < |bfs| ==> !Holds(bfs[j], p))
  {
    seq(n, p requires 0 <= p < n => FirstHolder(bfs, p, 0))
  }

  // ---------------------------------------------------------------------
  // The round cap

  /** Pieces the client lacks among the first `p` of its bitfield. */
  function MissingBefore(bitfield: seq<bool>, p: nat): (r: nat)
    requires p <= |bitfield|
    ensures r <= p
  {
    if p == 0 then 0 else MissingBefore(bitfield, p - 1) + (if bitfield[p - 1] then 0 else 1)
  }

  /** Piece `p` is requested this round: the client lacks it, some peer has
      it, and fewer than 120 lacking pieces (with or without a source) come
      before it. */
  predicate Wanted(bitfield: seq<bool>, sources: seq<Option<nat>>, p: nat)
    requires p < |bitfield| == |sources|
  {
    !bitfield[p] && sources[p].Some? && MissingBefore(bitfield, p) < RoundCap
  }

  /** The wanted pieces from `from` on, in ascending order. */
  function RequestsFrom(bitfield: seq<bool>, sources: seq<Option<nat>>, from: nat): seq<nat>
    requires from <= |bitfield| == |sources|
    decreases |bitfield| - from
  {
    if from == |bitfield| then []
    else
      var rest := RequestsFrom(bitfield, sources, from + 1);
      if Wanted(bitfield, sources, from) then [from] + rest else rest
  }

  /** The requests from `from` on are exactly the wanted pieces there, in
      strictly ascending order. */
  lemma {:induction false} RequestsAreWanted(bitfield: seq<bool>, sources: seq<Option<nat>>, from: nat)
    requires from <= |bitfield| == |sources|
    ensures var r := RequestsFrom(bitfield, sources, from);
      && (forall q :: q in r <==> from <= q < |bitfield| && Wanted(bitfield, sources, q))
      && (forall a, b :: 0 <= a < b < |r| ==> r[a] < r[b])
      && (forall k :: 0 <= k < |r| ==> from <= r[k] < |bitfield|)
    decreases |bitfield| - from
  {
    if from < |bitfield| {
      RequestsAreWanted(bitfield, sources, from + 1);
    }
  }

  function Requests(bitfield: seq<bool>, sources: seq<Option<nat>>): seq<nat>
    requires |bitfield| == |sources|
  {
    RequestsFrom(bitfield, sources, 0)
  }

  /** The request loop as the client runs it: walk the bitfield, stop once
      120 lacking pieces have been counted, skip held pieces, count each
      lacking piece, and request it when it has a source. */
  method PlanRequests(bitfield: seq<bool>, sources: seq<Option<nat>>) returns (requests: seq<nat>)
    requires |bitfield| == |sources|
    ensures requests == Requests(bitfield, sources)
  {
    requests := [];
    var i := 0;
    var j := 0;
    while j < |bitfield|
      invariant 0 <= j <= |bitfield|
      invariant i == MissingBefore(bitfield, j)
      invariant Requests(bitfield, sources) == requests + RequestsFrom(bitfield, sources, j)
    {
      if i >= RoundCap {
        NothingPastCap(bitfield, sources, j);
        assert requests + RequestsFrom(bitfield, sources, j) == requests;
        break;
      }
      RequestsStep(bitfield, sources, requests, j);
      if !bitfield[j] {
        i := i + 1;
      }
      if !bitfield[j] && sources[j].Some? {
        requests := requests + [j];
      }
      j := j + 1;
    }
  }

  /** One step of the request loop while under the cap. */
  lemma RequestsStep(bitfield: seq<bool>, sources: seq<Option<nat>>, requests: seq<nat>, j: nat)
    requires j < |bitfield| == |sources| && MissingBefore(bitfield, j) < RoundCap
    ensures requests + RequestsFrom(bitfield, sources, j) ==
      (if !bitfield[j] && sources[j].Some? then requests + [j] else requests) + RequestsFrom(bitfield, sources, j + 1)
  {
    if Wanted(bitfield, sources, j) {
      assert requests + ([j] + RequestsFrom(bitfield, sources, j + 1)) == requests + [j] + RequestsFrom(bitfield, sources, j + 1);
    }
  }

  /** Once 120 lacking pieces lie behind, nothing further is wanted. */
  lemma {:induction false} NothingPastCap(bitfield: seq<bool>, sources: seq<Option<nat>>, from: nat)
    requires from <= |bitfield| == |sources|
    requires MissingBefore(bitfield, from) >= RoundCap
    ensures RequestsFrom(bitfield, sources, from) == []
    decreases |bitfield| - from
  {
    if from < |bitfield| {
      NothingPastCap(bitfield, sources, from + 1);
    }
  }

  /** A round requests at most 120 pieces. */
  lemma RequestsCapped(bitfield: seq<bool>, sources: seq<Option<nat>>)
    requires |bitfield| == |sources|
    ensures |Requests(bitfield, sources)| <= RoundCap
  {
    var r := Requests(bitfield, sources);
    RequestsAreWanted(bitfield, sources, 0);
    if |r| > 0 {
      forall k | 0 <= k < |r| ensures MissingBefore(bitfield, r[k]) >= k {
        RequestedAreSpread(bitfield, sources, r, k);
      }
      assert r[|r| - 1] in r;
    }
  }

  /** The `k`-th requested piece has at least `k` lacking pieces before it. */
  lemma {:induction false} RequestedAreSpread(bitfield: seq<bool>, sources: seq<Option<nat>>, r: seq<nat>, k: nat)
    requires |bitfield| == |sources| && r == Requests(bitfield, sources) && k < |r|
    requires forall j :: 0 <= j < |r| ==> r[j] < |bitfield|
    ensures MissingBefore(bitfield, r[k]) >= k
  {
    if k > 0 {
      RequestsAreWanted(bitfield, sources, 0);
      RequestedAreSpread(bitfield, sources, r, k - 1);
      assert r[k - 1] in r && r[k] in r;
      MissingGrows(bitfield, r[k - 1], r[k]);
    }
  }

  /** A lacking piece before `q` adds one to the count before `q`. */
  lemma {:induction false} MissingGrows(bitfield: seq<bool>, p: nat, q: nat)
    requires p < q <= |bitfield| && !bitfield[p]
    ensures MissingBefore(bitfield, q) >= MissingBefore(bitfield, p) + 1
    decreases q - p
  {
    if q > p + 1 {
      MissingGrows(bitfield, p, q - 1);
    }
  }

  // ---------------------------------------------------------------------
  // One download round

  /** The download being run: who the client is, the torrent's id, its
      first file's name and size, the digests of its pieces and the peer
      list the tracker returned. */
  datatype Download = Download(
    me: Identity,
    infoHash: string,
    fileName: string,
    fileSize: int,
    hashes: seq<string>,
    peers: seq<TorrentPeer>)

  /** A message the round sends, with its destination. */
  datatype Effect =
    | ToOwnAgent(msg: PeerAgent.Message)
    | ToPeerAgent(peer: TorrentPeer, msg: PeerAgent.Message)
    | ToTracker(req: Tracker.AnnounceRequest)

  /** A piece whose blocks all arrived, with the bytes reassembled. */
  datatype Completion = Completion(pieceIndex: nat, data: seq<Byte>)

  function SeedingInfo(p: TorrentPeer): Tracker.SeedingPeerInfo
  {
    Tracker.SeedingPeerInfo(p.peerId, p.peerIp, p.peerPort)
  }

  function CompletedAnnounce(d: Download): Tracker.AnnounceRequest
  {
    Tracker.AnnounceRequest(Tracker.Completed, d.me.peerId, d.me.peerIp, d.me.peerPort, d.infoHash, 0, 0, 0, None)
  }

  /** The hash gate: the torrent lists a non-empty digest for the piece and
      the reassembled bytes hash to it. */
  predicate Verified(d: Download, hash: Hasher, c: Completion)
  {
    c.pieceIndex < |d.hashes| && d.hashes[c.pieceIndex] != "" && hash(c.data) == d.hashes[c.pieceIndex]
  }

  /** What a verified piece triggers: store it with the own agent, report
      it to the tracker as a REGULAR announce naming the serving peer,
      update both join records, and, when the count reaches the piece
      count, ask the own agent to reassemble and announce COMPLETED. */
  function Accept(d: Download, seeder: TorrentPeer, count: nat, c: Completion): (r: (nat, seq<Effect>))
    ensures r.0 == count + 1
    ensures ToTracker(CompletedAnnounce(d)) in r.1 <==> count + 1 == |d.hashes|
    ensures ToOwnAgent(PeerAgent.PieceUpload(d.me.peerId, d.infoHash, d.fileName, Some(c.pieceIndex), Some(c.data))) in r.1
    ensures ToTracker(Tracker.AnnounceRequest(Tracker.Regular, d.me.peerId, d.me.peerIp, d.me.peerPort, d.infoHash,
                                              0, |c.data|, d.fileSize, Some(SeedingInfo(seeder)))) in r.1
  {
    var count' := count + 1;
    (count', StoreEffects(d, seeder, c) + (if count' == |d.hashes| then FinishEffects(d) else []))
  }

  /** The four messages every accepted piece triggers. */
  function StoreEffects(d: Download, seeder: TorrentPeer, c: Completion): seq<Effect>
  {
    [ToOwnAgent(PeerAgent.PieceUpload(d.me.peerId, d.infoHash, d.fileName, Some(c.pieceIndex), Some(c.data))),
     ToTracker(Tracker.AnnounceRequest(Tracker.Regular, d.me.peerId, d.me.peerIp, d.me.peerPort, d.infoHash,
                                       0, |c.data|, d.fileSize, Some(SeedingInfo(seeder)))),
     ToOwnAgent(PeerAgent.UpdateJoinedTorrents(d.infoHash, 0, |c.data|)),
     ToPeerAgent(seeder, PeerAgent.UpdateJoinedTorrents(d.infoHash, |c.data|, 0))]
  }

  /** The two messages that end a download. */
  function FinishEffects(d: Download): seq<Effect>
  {
    [ToOwnAgent(PeerAgent.CombinePieces(d.me.peerId, d.infoHash, d.fileName)), ToTracker(CompletedAnnounce(d))]
  }

  /** Where each requested piece is fetched from. */
  function SeederOf(asked: seq<(nat, TorrentPeer)>, p: nat): (r: Option<TorrentPeer>)
    ensures r.Some? <==> exists k :: 0 <= k < |asked| && asked[k].0 == p
  {
    if |asked| == 0 then None
    else if asked[0].0 == p then Some(asked[0].1)
    else
      var r := SeederOf(asked[1..], p);
      assert forall k :: 1 <= k < |asked| ==> asked[k] == asked[1..][k - 1];
      assert r.Some? ==> exists k :: 0 <= k < |asked[1..]| && asked[1..][k].0 == p;
      r
  }

  /** The running state of a round: the valid-piece counter, the messages
      sent and the pieces accepted, in arrival order. */
  datatype Progress = Progress(count: nat, effects: seq<Effect>, accepted: seq<nat>)

  /** One completed piece. A piece nobody was asked for has no handler; a
      piece failing the hash gate changes nothing. */
  function OnComplete(d: Download, hash: Hasher, asked: seq<(nat, TorrentPeer)>, pr: Progress, c: Completion): (r: Progress)
    ensures SeederOf(asked, c.pieceIndex).Some? && Verified(d, hash, c) ==>
      && r.count == pr.count + 1
      && r.accepted == pr.accepted + [c.pieceIndex]
      && r.effects == pr.effects + Accept(d, SeederOf(asked, c.pieceIndex).value, pr.count, c).1
    ensures !(SeederOf(asked, c.pieceIndex).Some? && Verified(d, hash, c)) ==> r == pr
  {
    match SeederOf(asked, c.pieceIndex)
    case None => pr
    case Some(seeder) =>
      if !Verified(d, hash, c) then pr
      else
        var (count, effects) := Accept(d, seeder, pr.count, c);
        Progress(count, pr.effects + effects, pr.accepted + [c.pieceIndex])
  }

  /** The completed pieces of a round in arrival order. */
  function OnCompleteAll(d: Download, hash: Hasher, asked: seq<(nat, TorrentPeer)>, start: nat, cs: seq<Completion>): Progress
  {
    if |cs| == 0 then Progress(start, [], [])
    else OnComplete(d, hash, asked, OnCompleteAll(d, hash, asked, start, cs[..|cs| - 1]), cs[|cs| - 1])
  }

  /** The counter starts from the pieces already held and grows by one per
      accepted piece; each accepted piece was asked for and arrived with
      bytes that pass the hash gate. */
  lemma {:induction false} AcceptedAreVerified(d: Download, hash: Hasher, asked: seq<(nat, TorrentPeer)>, start: nat, cs: seq<Completion>)
    ensures var r := OnCompleteAll(d, hash, asked, start, cs);
      && r.count == start + |r.accepted|
      && forall k :: 0 <= k < |r.accepted| ==>
           SeederOf(asked, r.accepted[k]).Some?
           && exists j :: 0 <= j < |cs| && cs[j].pieceIndex == r.accepted[k] && Verified(d, hash, cs[j])
  {
    if |cs| > 0 {
      var init := cs[..|cs| - 1];
      AcceptedAreVerified(d, hash, asked, start, init);
      var prior := OnCompleteAll(d, hash, asked, start, init);
      var r := OnCompleteAll(d, hash, asked, start, cs);
      assert r == OnComplete(d, hash, asked, prior, cs[|cs| - 1]);
      forall k | 0 <= k < |prior.accepted|
        ensures exists j :: 0 <= j < |cs| && cs[j].pieceIndex == prior.accepted[k] && Verified(d, hash, cs[j])
      {
        var j :| 0 <= j < |init| && init[j].pieceIndex == prior.accepted[k] && Verified(d, hash, init[j]);
        assert cs[j] == init[j];
      }
    }
  }

  /** COMPLETED is announced in a round exactly when the counter crosses
      the piece count in it. */
  lemma {:induction false} CompletedWhenCountReached(d: Download, hash: Hasher, asked: seq<(nat, TorrentPeer)>, start: nat, cs: seq<Completion>)
    ensures var r := OnCompleteAll(d, hash, asked, start, cs);
      ToTracker(CompletedAnnounce(d)) in r.effects <==> start < |d.hashes| <= r.count
  {
    AcceptedAreVerified(d, hash, asked, start, cs);
    if |cs| > 0 {
      var init := cs[..|cs| - 1];
      CompletedWhenCountReached(d, hash, asked, start, init);
      AcceptedAreVerified(d, hash, asked, start, init);
      var prior := OnCompleteAll(d, hash, asked, start, init);
      var c := cs[|cs| - 1];
      var r := OnCompleteAll(d, hash, asked, start, cs);
      assert r == OnComplete(d, hash, asked, prior, c);
      if SeederOf(asked, c.pieceIndex).Some? && Verified(d, hash, c) {
        var added := Accept(d, SeederOf(asked, c.pieceIndex).value, prior.count, c).1;
        assert r.effects == prior.effects + added;
        assert ToTracker(CompletedAnnounce(d)) in r.effects <==>
          ToTracker(CompletedAnnounce(d)) in prior.effects || ToTracker(CompletedAnnounce(d)) in added;
      }
    }
  }

  /** When every completed piece was asked for and passes the hash gate,
      all of them are accepted, in arrival order. */
  lemma {:induction false} AllAccepted(d: Download, hash: Hasher, asked: seq<(nat, TorrentPeer)>, start: nat, cs: seq<Completion>)
    requires forall k :: 0 <= k < |cs| ==> SeederOf(asked, cs[k].pieceIndex).Some? && Verified(d, hash, cs[k])
    ensures var r := OnCompleteAll(d, hash, asked, start, cs);
      && |r.accepted| == |cs|
      && forall k :: 0 <= k < |cs| ==> r.accepted[k] == cs[k].pieceIndex
  {
    if |cs| > 0 {
      var init := cs[..|cs| - 1];
      AllAccepted(d, hash, asked, start, init);
      var prior := OnCompleteAll(d, hash, asked, start, init);
      var c := cs[|cs| - 1];
      assert OnCompleteAll(d, hash, asked, start, cs) == OnComplete(d, hash, asked, prior, c);
      assert SeederOf(asked, c.pieceIndex).Some? && Verified(d, hash, c);
    }
  }

  /** `bitfield[p] = true` for each accepted piece, as the own agent does on
      each PIECE_UPLOAD. */
  function MarkAll(bitfield: seq<bool>, accepted: seq<nat>): (r: seq<bool>)
    ensures |bitfield| <= |r|
    ensures (forall k :: 0 <= k < |accepted| ==> accepted[k] < |bitfield|) ==> |r| == |bitfield|
    ensures forall p :: 0 <= p < |bitfield| ==> (r[p] <==> bitfield[p] || p in accepted)
  {
    if |accepted| == 0 then bitfield
    else
      var prior := MarkAll(bitfield, accepted[..|accepted| - 1]);
      assert forall x :: x in accepted <==> x in accepted[..|accepted| - 1] || x == accepted[|accepted| - 1];
      PeerAgent.MarkPiece(prior, accepted[|accepted| - 1])
  }

  /** How a round ends. */
  datatype RoundOutcome =
    | NoPeers     // the tracker listed nobody: the download stops with an error
    | Stalled     // some contacted peer never completed its handshake: the round never starts
    | Ran(requests: seq<nat>, accepted: seq<nat>, bitfield: seq<bool>, count: nat, effects: seq<Effect>,
          settled: bool, retry: bool)

  /** Every contacted peer answered its handshake. */
  predicate AllShook(cands: seq<TorrentPeer>, handshake: TorrentPeer -> Option<seq<bool>>)
  {
    forall i :: 0 <= i < |cands| ==> handshake(cands[i]).Some?
  }

  /** The pieces requested this round, each with the peer asked for it. */
  function Assignments(bitfield: seq<bool>, cands: seq<TorrentPeer>, sources: seq<Option<nat>>): (r: seq<(nat, TorrentPeer)>)
    requires |bitfield| == |sources|
    requires forall p :: 0 <= p < |sources| && sources[p].Some? ==> sources[p].value < |cands|
  {
    var rs := Requests(bitfield, sources);
    seq(|rs|, k requires 0 <= k < |rs| =>
      var p := rs[k];
      RequestsAreWanted(bitfield, sources, 0);
      assert p in rs;
      (p, cands[sources[p].value]))
  }

  /** `order` lists the contacted peers (by list position) in the order
      their handshake answers arrived: a permutation of `0 .. n - 1`. */
  predicate IsArrivalOrder(order: seq<nat>, n: nat)
  {
    && |order| == n
    && (forall i :: 0 <= i < n ==> order[i] < n)
    && (forall i, j :: 0 <= i < j < n ==> order[i] != order[j])
  }

  /** The bitfields the contacted peers answered with, in arrival order:
      slot `i` holds the answer of the peer that answered `i`-th. The
      sockets stay in list order, so slot `i` is later paired with
      contacted peer `i` whoever answered into it. */
  function PeerBitfields(cands: seq<TorrentPeer>, handshake: TorrentPeer -> Option<seq<bool>>, order: seq<nat>): (r: seq<seq<bool>>)
    requires AllShook(cands, handshake) && IsArrivalOrder(order, |cands|)
    ensures |r| == |cands| && forall i :: 0 <= i < |cands| ==> Some(r[i]) == handshake(cands[order[i]])
  {
    seq(|cands|, i requires 0 <= i < |cands| => handshake(cands[order[i]]).value)
  }

  /** One PIECE_DOWNLOAD per requested piece, to the peer chosen for it. */
  function AskEffects(fileName: string, asked: seq<(nat, TorrentPeer)>): (r: seq<Effect>)
    ensures |r| == |asked|
    ensures forall k :: 0 <= k < |asked| ==> r[k] == ToPeerAgent(asked[k].1, PeerAgent.PieceDownload(fileName, Some(asked[k].0)))
  {
    seq(|asked|, k requires 0 <= k < |asked| => ToPeerAgent(asked[k].1, PeerAgent.PieceDownload(fileName, Some(asked[k].0))))
  }

  /** Only a requested piece can be accepted. */
  lemma AskedWereRequested(bitfield: seq<bool>, cands: seq<TorrentPeer>, sources: seq<Option<nat>>, p: nat)
    requires |bitfield| == |sources|
    requires forall q :: 0 <= q < |sources| && sources[q].Some? ==> sources[q].value < |cands|
    requires SeederOf(Assignments(bitfield, cands, sources), p).Some?
    ensures p in Requests(bitfield, sources)
  {
    var asked := Assignments(bitfield, cands, sources);
    var k :| 0 <= k < |asked| && asked[k].0 == p;
    assert Requests(bitfield, sources)[k] == p;
  }

  /** The piece sources of a round: for each piece, the slot of the first
      arrived bitfield that marks it. Slot `i` is served by contacted peer
      `i`'s socket. */
  function RoundSources(d: Download, bitfield: seq<bool>, handshake: TorrentPeer -> Option<seq<bool>>, order: seq<nat>): seq<Option<nat>>
    requires AllShook(Candidates(d.peers, d.me.peerPort), handshake)
    requires IsArrivalOrder(order, |Candidates(d.peers, d.me.peerPort)|)
  {
    SelectSources(|bitfield|, PeerBitfields(Candidates(d.peers, d.me.peerPort), handshake, order))
  }

  /** Socket `i` was asked for some piece this round. */
  predicate Asked(requests: seq<nat>, sources: seq<Option<nat>>, i: nat)
  {
    exists p :: p in requests && p < |sources| && sources[p] == Some(i)
  }

  /** Socket `i` received something: some message (`heard`), or all the
      blocks of a piece asked of it. */
  predicate SocketHeard(heard: set<nat>, requests: seq<nat>, sources: seq<Option<nat>>, cs: seq<Completion>, i: nat)
  {
    i in heard
    || exists k :: 0 <= k < |cs| && cs[k].pieceIndex in requests && cs[k].pieceIndex < |sources| && sources[cs[k].pieceIndex] == Some(i)
  }

  /** Some piece asked of socket `i` was accepted. */
  predicate SocketServed(accepted: seq<nat>, sources: seq<Option<nat>>, i: nat)
  {
    exists k :: 0 <= k < |accepted| && accepted[k] < |sources| && sources[accepted[k]] == Some(i)
  }

  /** Every request of the round has ended. Each request installs its
      handler as the socket's only message handler, so on a socket asked
      for several pieces only the last request keeps one; the earlier
      requests end on their 50 s timers, which nothing cancels. The last
      request's timer is cancelled by the first message on the socket, and
      the request then ends only when some piece on that socket passes the
      hash gate. So the round waits for ever exactly when some asked
      socket received something and none of its pieces was accepted. */
  predicate Settled(requests: seq<nat>, sources: seq<Option<nat>>, accepted: seq<nat>, heard: set<nat>, cs: seq<Completion>)
  {
    forall p :: p in requests && p < |sources| && sources[p].Some? && SocketHeard(heard, requests, sources, cs, sources[p].value) ==>
      SocketServed(accepted, sources, sources[p].value)
  }

  /** One round of `handleFileDownload` from the client's bitfield, the
      handshake answer of each contacted peer (its bitfield, or none), the
      order in which the answers arrived, the sockets (by slot) that
      received some message, and the pieces whose blocks all arrived, in
      arrival order. The round waits for every request to end: when some
      request never ends it is not settled and never retries. */
  function Round(d: Download, hash: Hasher, bitfield: seq<bool>,
                 handshake: TorrentPeer -> Option<seq<bool>>, order: seq<nat>,
                 heard: set<nat>, completions: seq<Completion>): (r: RoundOutcome)
    requires |d.peers| != 0 && AllShook(Candidates(d.peers, d.me.peerPort), handshake) ==>
      IsArrivalOrder(order, |Candidates(d.peers, d.me.peerPort)|)
    ensures r.NoPeers? <==> |d.peers| == 0
    ensures r.Stalled? <==> |d.peers| != 0 && !AllShook(Candidates(d.peers, d.me.peerPort), handshake)
    ensures r.Ran? ==>
      && |r.requests| <= RoundCap
      && (forall p :: p in r.requests ==> p < |bitfield| && !bitfield[p])
      && (forall k :: 0 <= k < |r.accepted| ==> r.accepted[k] in r.requests)
      && (forall k :: 0 <= k < |r.accepted| ==>
            exists j :: 0 <= j < |completions| && completions[j].pieceIndex == r.accepted[k] && Verified(d, hash, completions[j]))
      && |r.bitfield| == |bitfield|
      && (forall p :: 0 <= p < |bitfield| ==> (r.bitfield[p] <==> bitfield[p] || p in r.accepted))
      && r.count == CountTrue(bitfield) + |r.accepted|
      && (ToTracker(CompletedAnnounce(d)) in r.effects <==> CountTrue(bitfield) < |d.hashes| <= r.count)
      && (r.retry <==> r.settled && r.count != |d.hashes|)
    ensures r.Ran? ==> AllShook(Candidates(d.peers, d.me.peerPort), handshake) && IsArrivalOrder(order, |Candidates(d.peers, d.me.peerPort)|)
    ensures r.Ran? ==>
      (r.settled <==> Settled(r.requests, RoundSources(d, bitfield, handshake, order), r.accepted, heard, completions))
  {
    if |d.peers| == 0 then NoPeers
    else
      var cands := Candidates(d.peers, d.me.peerPort);
      if !AllShook(cands, handshake) then Stalled
      else RunRound(d, hash, bitfield, cands, RoundSources(d, bitfield, handshake, order), heard, completions)
  }

  /** The part of a round after every handshake: request the sourced
      lacking pieces, handle the completed ones, and decide. */
  function RunRound(d: Download, hash: Hasher, bitfield: seq<bool>, cands: seq<TorrentPeer>, sources: seq<Option<nat>>,
                    heard: set<nat>, completions: seq<Completion>): (r: RoundOutcome)
    requires |bitfield| == |sources|
    requires forall p :: 0 <= p < |sources| && sources[p].Some? ==> sources[p].value < |cands|
    ensures r.Ran?
    ensures |r.requests| <= RoundCap
    ensures forall p :: p in r.requests ==> p < |bitfield| && !bitfield[p]
    ensures forall k :: 0 <= k < |r.accepted| ==> r.accepted[k] in r.requests
    ensures forall k :: 0 <= k < |r.accepted| ==>
      exists j :: 0 <= j < |completions| && completions[j].pieceIndex == r.accepted[k] && Verified(d, hash, completions[j])
    ensures |r.bitfield| == |bitfield|
    ensures forall p :: 0 <= p < |bitfield| ==> (r.bitfield[p] <==> bitfield[p] || p in r.accepted)
    ensures r.count == CountTrue(bitfield) + |r.accepted|
    ensures ToTracker(CompletedAnnounce(d)) in r.effects <==> CountTrue(bitfield) < |d.hashes| <= r.count
    ensures r.settled <==> Settled(r.requests, sources, r.accepted, heard, completions)
    ensures r.retry <==> r.settled && r.count != |d.hashes|
  {
    var asked := Assignments(bitfield, cands, sources);
    var requests := Requests(bitfield, sources);
    RequestsCapped(bitfield, sources);
    RequestsAreWanted(bitfield, sources, 0);
    var asks := AskEffects(d.fileName, asked);
    var start := CountTrue(bitfield);
    var pr := OnCompleteAll(d, hash, asked, start, completions);
    AcceptedAreVerified(d, hash, asked, start, completions);
    CompletedWhenCountReached(d, hash, asked, start, completions);
    assert ToTracker(CompletedAnnounce(d)) !in asks;
    assert forall k :: 0 <= k < |pr.accepted| ==> pr.accepted[k] in requests by {
      forall k | 0 <= k < |pr.accepted| ensures pr.accepted[k] in requests {
        AskedWereRequested(bitfield, cands, sources, pr.accepted[k]);
      }
    }
    var settled := Settled(requests, sources, pr.accepted, heard, completions);
    Ran(requests, pr.accepted, MarkAll(bitfield, pr.accepted), pr.count, asks + pr.effects,
        settled, settled && pr.count != |d.hashes|)
  }


  /** Held and lacking pieces among the first `p` add up to `p`. */
  lemma {:induction false} HeldPlusMissing(bitfield: seq<bool>, p: nat)
    requires p <= |bitfield|
    ensures CountTrue(bitfield[..p]) + MissingBefore(bitfield, p) == p
  {
    if p > 0 {
      HeldPlusMissing(bitfield, p - 1);
      assert bitfield[..p] == bitfield[..p - 1] + [bitfield[p - 1]];
      CountTrueSnoc(bitfield[..p - 1], bitfield[p - 1]);
    }
  }

  lemma {:induction false} CountTrueSnoc(xs: seq<bool>, x: bool)
    ensures CountTrue(xs + [x]) == CountTrue(xs) + (if x then 1 else 0)
  {
    if |xs| > 0 {
      assert (xs + [x])[1..] == xs[1..] + [x];
      CountTrueSnoc(xs[1..], x);
    }
  }

  /** A lacking piece that some contacted peer holds is asked for, provided
      the whole round lacks at most 120 pieces. */
  lemma CoveredPieceIsAsked(bitfield: seq<bool>, cands: seq<TorrentPeer>, bfs: seq<seq<bool>>, p: nat)
    requires |bfs| == |cands|
    requires p < |bitfield| && !bitfield[p]
    requires MissingBefore(bitfield, |bitfield|) <= RoundCap
    requires exists j :: 0 <= j < |bfs| && Holds(bfs[j], p)
    ensures SeederOf(Assignments(bitfield, cands, SelectSources(|bitfield|, bfs)), p).Some?
  {
    var sources := SelectSources(|bitfield|, bfs);
    MissingGrows(bitfield, p, |bitfield|);
    assert Wanted(bitfield, sources, p);
    RequestsAreWanted(bitfield, sources, 0);
    var requests := Requests(bitfield, sources);
    var k :| 0 <= k < |requests| && requests[k] == p;
    assert Assignments(bitfield, cands, sources)[k].0 == p;
  }

  /** When the contacted peers together hold every lacking piece, at most
      120 pieces are lacking, and each lacking piece arrives once with
      bytes that pass the hash gate, the round completes the file: every
      entry is set, the counter reaches the piece count, COMPLETED is
      announced unless the file was already complete, and no further round
      is run. */
  lemma CoveredRoundCompletes(d: Download, hash: Hasher, bitfield: seq<bool>,
                              handshake: TorrentPeer -> Option<seq<bool>>, order: seq<nat>,
                              heard: set<nat>, cs: seq<Completion>)
    requires |d.peers| > 0
    requires AllShook(Candidates(d.peers, d.me.peerPort), handshake)
    requires IsArrivalOrder(order, |Candidates(d.peers, d.me.peerPort)|)
    requires |bitfield| == |d.hashes|
    requires MissingBefore(bitfield, |bitfield|) <= RoundCap
    requires var bfs := PeerBitfields(Candidates(d.peers, d.me.peerPort), handshake, order);
      forall p :: 0 <= p < |bitfield| && !bitfield[p] ==> exists j :: 0 <= j < |bfs| && Holds(bfs[j], p)
    requires |cs| == MissingBefore(bitfield, |bitfield|)
    requires forall k :: 0 <= k < |cs| ==>
      cs[k].pieceIndex < |bitfield| && !bitfield[cs[k].pieceIndex] && Verified(d, hash, cs[k])
    requires forall p :: 0 <= p < |bitfield| && !bitfield[p] ==> exists k :: 0 <= k < |cs| && cs[k].pieceIndex == p
    ensures var r := Round(d, hash, bitfield, handshake, order, heard, cs);
      && r.Ran?
      && (forall p :: 0 <= p < |bitfield| ==> r.bitfield[p])
      && r.count == |d.hashes|
      && (ToTracker(CompletedAnnounce(d)) in r.effects <==> CountTrue(bitfield) < |d.hashes|)
      && r.settled
      && !r.retry
  {
    var cands := Candidates(d.peers, d.me.peerPort);
    var bfs := PeerBitfields(cands, handshake, order);
    CoveredAreAccepted(d, hash, bitfield, cands, bfs, cs);
    var asked := Assignments(bitfield, cands, SelectSources(|bitfield|, bfs));
    var pr := OnCompleteAll(d, hash, asked, CountTrue(bitfield), cs);
    var r := Round(d, hash, bitfield, handshake, order, heard, cs);
    assert r.accepted == pr.accepted && r.count == pr.count;
    assert forall p :: p in r.requests ==> p in r.accepted;
    EveryRequestAcceptedSettles(r.requests, RoundSources(d, bitfield, handshake, order), r.accepted, heard, cs);
  }

  /** A round in which every requested piece was accepted has settled. */
  lemma EveryRequestAcceptedSettles(requests: seq<nat>, sources: seq<Option<nat>>, accepted: seq<nat>, heard: set<nat>, cs: seq<Completion>)
    requires forall p :: p in requests ==> p in accepted
    ensures Settled(requests, sources, accepted, heard, cs)
  {
    forall p | p in requests && p < |sources| && sources[p].Some? ensures SocketServed(accepted, sources, sources[p].value) {
      var k :| 0 <= k < |accepted| && accepted[k] == p;
    }
  }

  /** A socket that was asked for pieces and received something, but none
      of whose pieces ever arrives with bytes that pass the hash gate (say
      every copy fails it, or the peer answered each request with an
      error), keeps its last request waiting for ever: the round is not
      settled and no further round is started, however few pieces were
      accepted. */
  lemma UnverifiedSocketStalls(d: Download, hash: Hasher, bitfield: seq<bool>,
                               handshake: TorrentPeer -> Option<seq<bool>>, order: seq<nat>,
                               heard: set<nat>, cs: seq<Completion>, i: nat)
    requires |d.peers| != 0 && AllShook(Candidates(d.peers, d.me.peerPort), handshake) ==>
      IsArrivalOrder(order, |Candidates(d.peers, d.me.peerPort)|)
    ensures var r := Round(d, hash, bitfield, handshake, order, heard, cs);
      r.Ran? ==>
        var sources := RoundSources(d, bitfield, handshake, order);
        && Asked(r.requests, sources, i)
        && SocketHeard(heard, r.requests, sources, cs, i)
        && (forall k :: 0 <= k < |cs| && cs[k].pieceIndex < |sources| && sources[cs[k].pieceIndex] == Some(i) ==>
              !Verified(d, hash, cs[k]))
        ==> !r.settled && !r.retry
  {
    var r := Round(d, hash, bitfield, handshake, order, heard, cs);
    if r.Ran? {
      var sources := RoundSources(d, bitfield, handshake, order);
      if forall k :: 0 <= k < |cs| && cs[k].pieceIndex < |sources| && sources[cs[k].pieceIndex] == Some(i) ==> !Verified(d, hash, cs[k]) {
        forall k | 0 <= k < |r.accepted| && r.accepted[k] < |sources| ensures sources[r.accepted[k]] != Some(i) {
          var j :| 0 <= j < |cs| && cs[j].pieceIndex == r.accepted[k] && Verified(d, hash, cs[j]);
        }
        assert !SocketServed(r.accepted, sources, i);
        if Asked(r.requests, sources, i) {
          var p :| p in r.requests && p < |sources| && sources[p] == Some(i);
          assert sources[p].value == i;
        }
      }
    }
  }

  /** A completed piece that was asked for and passes the hash gate is
      accepted, whatever arrives before or after it. */
  lemma {:induction false} VerifiedIsAccepted(d: Download, hash: Hasher, asked: seq<(nat, TorrentPeer)>, start: nat,
                                              cs: seq<Completion>, k: nat)
    requires k < |cs| && SeederOf(asked, cs[k].pieceIndex).Some? && Verified(d, hash, cs[k])
    ensures cs[k].pieceIndex in OnCompleteAll(d, hash, asked, start, cs).accepted
  {
    var init := cs[..|cs| - 1];
    var prior := OnCompleteAll(d, hash, asked, start, init);
    assert OnCompleteAll(d, hash, asked, start, cs) == OnComplete(d, hash, asked, prior, cs[|cs| - 1]);
    if k < |cs| - 1 {
      assert init[k] == cs[k];
      VerifiedIsAccepted(d, hash, asked, start, init, k);
    }
  }

  /** One verified piece ends every request on its socket: when a piece
      asked of socket `i` arrives with bytes that pass the hash gate, the
      socket is served, whatever became of the other pieces asked of it. */
  lemma VerifiedPieceServesSocket(d: Download, hash: Hasher, bitfield: seq<bool>,
                                  handshake: TorrentPeer -> Option<seq<bool>>, order: seq<nat>,
                                  heard: set<nat>, cs: seq<Completion>, k: nat, i: nat)
    requires |d.peers| != 0 && AllShook(Candidates(d.peers, d.me.peerPort), handshake) ==>
      IsArrivalOrder(order, |Candidates(d.peers, d.me.peerPort)|)
    ensures var r := Round(d, hash, bitfield, handshake, order, heard, cs);
      r.Ran? ==>
        var sources := RoundSources(d, bitfield, handshake, order);
        && k < |cs| && cs[k].pieceIndex in r.requests
        && cs[k].pieceIndex < |sources| && sources[cs[k].pieceIndex] == Some(i)
        && Verified(d, hash, cs[k])
        ==> SocketServed(r.accepted, sources, i)
  {
    var r := Round(d, hash, bitfield, handshake, order, heard, cs);
    if r.Ran? {
      var sources := RoundSources(d, bitfield, handshake, order);
      if && k < |cs| && cs[k].pieceIndex in r.requests
         && cs[k].pieceIndex < |sources| && sources[cs[k].pieceIndex] == Some(i)
         && Verified(d, hash, cs[k])
      {
        var cands := Candidates(d.peers, d.me.peerPort);
        var asked := Assignments(bitfield, cands, sources);
        var p := cs[k].pieceIndex;
        assert r.requests == Requests(bitfield, sources);
        var j :| 0 <= j < |r.requests| && r.requests[j] == p;
        assert asked[j].0 == p;
        VerifiedIsAccepted(d, hash, asked, CountTrue(bitfield), cs, k);
        assert r.accepted == OnCompleteAll(d, hash, asked, CountTrue(bitfield), cs).accepted;
        var m :| 0 <= m < |r.accepted| && r.accepted[m] == p;
      }
    }
  }

  /** The partner of `UnverifiedSocketStalls`: when every asked socket that
      received something delivered at least one verified piece, the round
      settles, and it starts another round exactly when the file is still
      short. */
  lemma ServedSocketsSettle(d: Download, hash: Hasher, bitfield: seq<bool>,
                            handshake: TorrentPeer -> Option<seq<bool>>, order: seq<nat>,
                            heard: set<nat>, cs: seq<Completion>)
    requires |d.peers| != 0 && AllShook(Candidates(d.peers, d.me.peerPort), handshake) ==>
      IsArrivalOrder(order, |Candidates(d.peers, d.me.peerPort)|)
    ensures var r := Round(d, hash, bitfield, handshake, order, heard, cs);
      r.Ran? ==>
        var sources := RoundSources(d, bitfield, handshake, order);
        (forall i: nat :: Asked(r.requests, sources, i) && SocketHeard(heard, r.requests, sources, cs, i) ==>
           exists k :: && 0 <= k < |cs| && cs[k].pieceIndex in r.requests
                       && cs[k].pieceIndex < |sources| && sources[cs[k].pieceIndex] == Some(i)
                       && Verified(d, hash, cs[k]))
        ==> r.settled && (r.retry <==> r.count != |d.hashes|)
  {
    var r := Round(d, hash, bitfield, handshake, order, heard, cs);
    if r.Ran? {
      var sources := RoundSources(d, bitfield, handshake, order);
      if forall i: nat :: Asked(r.requests, sources, i) && SocketHeard(heard, r.requests, sources, cs, i) ==>
           exists k :: && 0 <= k < |cs| && cs[k].pieceIndex in r.requests
                       && cs[k].pieceIndex < |sources| && sources[cs[k].pieceIndex] == Some(i)
                       && Verified(d, hash, cs[k])
      {
        forall i: nat | Asked(r.requests, sources, i) && SocketHeard(heard, r.requests, sources, cs, i)
          ensures SocketServed(r.accepted, sources, i)
        {
          var k :| && 0 <= k < |cs| && cs[k].pieceIndex in r.requests
                   && cs[k].pieceIndex < |sources| && sources[cs[k].pieceIndex] == Some(i)
                   && Verified(d, hash, cs[k]);
          VerifiedPieceServesSocket(d, hash, bitfield, handshake, order, heard, cs, k, i);
        }
        ServedIsSettled(r.requests, sources, r.accepted, heard, cs);
      }
    }
  }
  /** `Settled` asks, per socket, that one that was asked and received
      something was served. */
  lemma ServedIsSettled(requests: seq<nat>, sources: seq<Option<nat>>, accepted: seq<nat>, heard: set<nat>, cs: seq<Completion>)
    requires forall i: nat :: Asked(requests, sources, i) && SocketHeard(heard, requests, sources, cs, i) ==> SocketServed(accepted, sources, i)
    ensures Settled(requests, sources, accepted, heard, cs)
  {
    forall p | p in requests && p < |sources| && sources[p].Some? && SocketHeard(heard, requests, sources, cs, sources[p].value)
      ensures SocketServed(accepted, sources, sources[p].value)
    {
      assert Asked(requests, sources, sources[p].value);
    }
  }


  /** The accepting half of `CoveredRoundCompletes`: every lacking piece is
      accepted and the counter reaches the bitfield's length. */
  lemma CoveredAreAccepted(d: Download, hash: Hasher, bitfield: seq<bool>, cands: seq<TorrentPeer>,
                           bfs: seq<seq<bool>>, cs: seq<Completion>)
    requires |bfs| == |cands|
    requires MissingBefore(bitfield, |bitfield|) <= RoundCap
    requires forall p :: 0 <= p < |bitfield| && !bitfield[p] ==> exists j :: 0 <= j < |bfs| && Holds(bfs[j], p)
    requires |cs| == MissingBefore(bitfield, |bitfield|)
    requires forall k :: 0 <= k < |cs| ==>
      cs[k].pieceIndex < |bitfield| && !bitfield[cs[k].pieceIndex] && Verified(d, hash, cs[k])
    requires forall p :: 0 <= p < |bitfield| && !bitfield[p] ==> exists k :: 0 <= k < |cs| && cs[k].pieceIndex == p
    ensures var asked := Assignments(bitfield, cands, SelectSources(|bitfield|, bfs));
      var pr := OnCompleteAll(d, hash, asked, CountTrue(bitfield), cs);
      && pr.count == |bitfield|
      && forall p :: 0 <= p < |bitfield| && !bitfield[p] ==> p in pr.accepted
  {
    var asked := Assignments(bitfield, cands, SelectSources(|bitfield|, bfs));
    forall k | 0 <= k < |cs| ensures SeederOf(asked, cs[k].pieceIndex).Some? && Verified(d, hash, cs[k]) {
      CoveredPieceIsAsked(bitfield, cands, bfs, cs[k].pieceIndex);
    }
    var start := CountTrue(bitfield);
    AllAccepted(d, hash, asked, start, cs);
    AcceptedAreVerified(d, hash, asked, start, cs);
    var pr := OnCompleteAll(d, hash, asked, start, cs);
    HeldPlusMissing(bitfield, |bitfield|);
    assert bitfield[..|bitfield|] == bitfield;
    forall p | 0 <= p < |bitfield| && !bitfield[p] ensures p in pr.accepted {
      var k :| 0 <= k < |cs| && cs[k].pieceIndex == p;
      assert pr.accepted[k] == p;
    }
  }

  // ---------------------------------------------------------------------
  // The client's own agent follows the round

  /** The messages a round sends to the client's own agent, in order. */
  function OwnMessages(effects: seq<Effect>): seq<PeerAgent.Message>
  {
    if |effects| == 0 then []
    else (if effects[0].ToOwnAgent? then [effects[0].msg] else []) + OwnMessages(effects[1..])
  }

  lemma {:induction false} OwnMessagesAppend(xs: seq<Effect>, ys: seq<Effect>)
    ensures OwnMessages(xs + ys) == OwnMessages(xs) + OwnMessages(ys)
  {
    if |xs| == 0 {
      assert xs + ys == ys;
    } else {
      var h := if xs[0].ToOwnAgent? then [xs[0].msg] else [];
      assert (xs + ys)[0] == xs[0];
      assert (xs + ys)[1..] == xs[1..] + ys;
      assert OwnMessages(xs + ys) == h + OwnMessages(xs[1..] + ys);
      OwnMessagesAppend(xs[1..], ys);
      assert OwnMessages(xs) == h + OwnMessages(xs[1..]);
      assert h + (OwnMessages(xs[1..]) + OwnMessages(ys)) == (h + OwnMessages(xs[1..])) + OwnMessages(ys);
    }
  }

  /** What an accepted piece asks of the own agent: store the piece, add its
      length to the downloaded total and, on the last piece, reassemble. */
  lemma AcceptOwnMessages(d: Download, seeder: TorrentPeer, count: nat, c: Completion)
    ensures OwnMessages(Accept(d, seeder, count, c).1) ==
      [PeerAgent.PieceUpload(d.me.peerId, d.infoHash, d.fileName, Some(c.pieceIndex), Some(c.data)),
       PeerAgent.UpdateJoinedTorrents(d.infoHash, 0, |c.data|)]
      + (if count + 1 == |d.hashes| then [PeerAgent.CombinePieces(d.me.peerId, d.infoHash, d.fileName)] else [])
  {
    OwnStored(d, seeder, c);
    OwnFinish(d);
    if count + 1 == |d.hashes| {
      OwnMessagesAppend(StoreEffects(d, seeder, c), FinishEffects(d));
    } else {
      assert StoreEffects(d, seeder, c) + [] == StoreEffects(d, seeder, c);
    }
  }

  lemma OwnStored(d: Download, seeder: TorrentPeer, c: Completion)
    ensures OwnMessages(StoreEffects(d, seeder, c)) ==
      [PeerAgent.PieceUpload(d.me.peerId, d.infoHash, d.fileName, Some(c.pieceIndex), Some(c.data)),
       PeerAgent.UpdateJoinedTorrents(d.infoHash, 0, |c.data|)]
  {
    var e := StoreEffects(d, seeder, c);
    assert e == [e[0]] + ([e[1]] + ([e[2]] + [e[3]]));
    OwnMessagesAppend([e[0]], [e[1]] + ([e[2]] + [e[3]]));
    OwnMessagesAppend([e[1]], [e[2]] + [e[3]]);
    OwnMessagesAppend([e[2]], [e[3]]);
  }

  lemma OwnFinish(d: Download)
    ensures OwnMessages(FinishEffects(d)) == [PeerAgent.CombinePieces(d.me.peerId, d.infoHash, d.fileName)]
  {
    var e := FinishEffects(d);
    assert e == [e[0]] + [e[1]];
    OwnMessagesAppend([e[0]], [e[1]]);
  }

  /** The own agent knows the client and holds a record for the torrent. */
  predicate Tracks(a: PeerAgent.Agent, d: Download)
  {
    PeerAgent.HasClientId(a) && d.infoHash in a.joined
  }

  /** Storing an accepted piece marks it in the own agent's record,
      whether or not the write to disk succeeds. */
  lemma AgentMarksPiece(a: PeerAgent.Agent, d: Download, c: Completion, io: PeerAgent.Io)
    requires Tracks(a, d) && d.me.peerId != "" && d.infoHash != "" && d.fileName != ""
    ensures var b := PeerAgent.Handle(a, PeerAgent.PieceUpload(d.me.peerId, d.infoHash, d.fileName, Some(c.pieceIndex), Some(c.data)), io).agent;
      Tracks(b, d) && b.client == a.client
      && b.joined[d.infoHash].bitfield == PeerAgent.MarkPiece(a.joined[d.infoHash].bitfield, c.pieceIndex)
  {
  }

  /** Updating the totals leaves the record's bitfield alone. */
  lemma AgentUpdateKeepsBitfield(a: PeerAgent.Agent, d: Download, amount: int, io: PeerAgent.Io)
    requires Tracks(a, d)
    ensures var b := PeerAgent.Handle(a, PeerAgent.UpdateJoinedTorrents(d.infoHash, 0, amount), io).agent;
      Tracks(b, d) && b.client == a.client && b.joined[d.infoHash].bitfield == a.joined[d.infoHash].bitfield
  {
  }

  /** Reassembling leaves the join records alone. */
  lemma AgentCombineKeepsBitfield(a: PeerAgent.Agent, d: Download, io: PeerAgent.Io)
    requires Tracks(a, d)
    ensures var b := PeerAgent.Handle(a, PeerAgent.CombinePieces(d.me.peerId, d.infoHash, d.fileName), io).agent;
      Tracks(b, d) && b.client == a.client && b.joined == a.joined
  {
  }

  /** The own agent, handling the messages for one accepted piece, marks
      that piece and nothing else. */
  lemma {:induction false} AgentFollowsAccept(a: PeerAgent.Agent, d: Download, seeder: TorrentPeer, count: nat, c: Completion, io: PeerAgent.Io)
    requires Tracks(a, d) && d.me.peerId != "" && d.infoHash != "" && d.fileName != ""
    ensures var b := HandleAll(a, OwnMessages(Accept(d, seeder, count, c).1), io);
      Tracks(b, d) && b.client == a.client
      && b.joined[d.infoHash].bitfield == PeerAgent.MarkPiece(a.joined[d.infoHash].bitfield, c.pieceIndex)
  {
    AcceptOwnMessages(d, seeder, count, c);
    var m0 := PeerAgent.PieceUpload(d.me.peerId, d.infoHash, d.fileName, Some(c.pieceIndex), Some(c.data));
    var m1 := PeerAgent.UpdateJoinedTorrents(d.infoHash, 0, |c.data|);
    var tail: seq<PeerAgent.Message> :=
      if count + 1 == |d.hashes| then [PeerAgent.CombinePieces(d.me.peerId, d.infoHash, d.fileName)] else [];
    assert OwnMessages(Accept(d, seeder, count, c).1) == [m0] + ([m1] + tail);
    HandleAllCons(a, m0, [m1] + tail, io);
    var a1 := PeerAgent.Handle(a, m0, io).agent;
    AgentMarksPiece(a, d, c, io);
    HandleAllCons(a1, m1, tail, io);
    var a2 := PeerAgent.Handle(a1, m1, io).agent;
    AgentUpdateKeepsBitfield(a1, d, |c.data|, io);
    if count + 1 == |d.hashes| {
      var m2 := PeerAgent.CombinePieces(d.me.peerId, d.infoHash, d.fileName);
      HandleAllCons(a2, m2, [], io);
      AgentCombineKeepsBitfield(a2, d, io);
      assert HandleAll(PeerAgent.Handle(a2, m2, io).agent, [], io) == PeerAgent.Handle(a2, m2, io).agent;
    } else {
      assert HandleAll(a2, tail, io) == a2;
    }
  }

  /** The client's bitfield after a round is the record its own agent keeps
      once it has handled the round's messages to it: the client and the
      agent agree on which pieces are held. */
  lemma {:induction false} AgentFollowsRound(a: PeerAgent.Agent, d: Download, hash: Hasher, asked: seq<(nat, TorrentPeer)>,
                                             start: nat, cs: seq<Completion>, io: PeerAgent.Io)
    requires Tracks(a, d) && d.me.peerId != "" && d.infoHash != "" && d.fileName != ""
    ensures var pr := OnCompleteAll(d, hash, asked, start, cs);
      var b := HandleAll(a, OwnMessages(pr.effects), io);
      Tracks(b, d) && b.client == a.client
      && b.joined[d.infoHash].bitfield == MarkAll(a.joined[d.infoHash].bitfield, pr.accepted)
  {
    if |cs| == 0 {
      assert HandleAll(a, [], io) == a;
    } else {
      var init := cs[..|cs| - 1];
      var c := cs[|cs| - 1];
      AgentFollowsRound(a, d, hash, asked, start, init, io);
      var prior := OnCompleteAll(d, hash, asked, start, init);
      var mid := HandleAll(a, OwnMessages(prior.effects), io);
      var pr := OnCompleteAll(d, hash, asked, start, cs);
      assert pr == OnComplete(d, hash, asked, prior, c);
      if SeederOf(asked, c.pieceIndex).Some? && Verified(d, hash, c) {
        var seeder := SeederOf(asked, c.pieceIndex).value;
        var added := Accept(d, seeder, prior.count, c).1;
        OwnMessagesAppend(prior.effects, added);
        HandleAllAppend(a, OwnMessages(prior.effects), OwnMessages(added), io);
        AgentFollowsAccept(mid, d, seeder, prior.count, c, io);
        assert pr.accepted[..|pr.accepted| - 1] == prior.accepted;
      }
    }
  }

  // ---------------------------------------------------------------------
  // Which peer is asked

  /** The peer asked for a piece is the contacted peer in the slot whose
      answer (the answer that arrived in that position) first marks the
      piece; that slot's answer may be another peer's. */
  lemma AskedPeerIsSlotPeer(bitfield: seq<bool>, cands: seq<TorrentPeer>, handshake: TorrentPeer -> Option<seq<bool>>,
                            order: seq<nat>, k: nat)
    requires AllShook(cands, handshake) && IsArrivalOrder(order, |cands|)
    requires k < |Assignments(bitfield, cands, SelectSources(|bitfield|, PeerBitfields(cands, handshake, order)))|
    ensures var asked := Assignments(bitfield, cands, SelectSources(|bitfield|, PeerBitfields(cands, handshake, order)));
      exists i :: 0 <= i < |cands| && asked[k].1 == cands[i] && Holds(handshake(cands[order[i]]).value, asked[k].0)
  {
    var sources := SelectSources(|bitfield|, PeerBitfields(cands, handshake, order));
    var asked := Assignments(bitfield, cands, sources);
    RequestsAreWanted(bitfield, sources, 0);
    var p := Requests(bitfield, sources)[k];
    assert p in Requests(bitfield, sources);
    var i := sources[p].value;
    assert asked[k] == (p, cands[i]);
  }

  /** When the answers arrive in list order, every peer asked for a piece
      holds it. */
  lemma InOrderAnswersAskHolders(bitfield: seq<bool>, cands: seq<TorrentPeer>, handshake: TorrentPeer -> Option<seq<bool>>,
                                 order: seq<nat>, k: nat)
    requires AllShook(cands, handshake) && order == seq(|cands|, i => i)
    requires k < |Assignments(bitfield, cands, SelectSources(|bitfield|, PeerBitfields(cands, handshake, order)))|
    ensures IsArrivalOrder(order, |cands|)
    ensures var asked := Assignments(bitfield, cands, SelectSources(|bitfield|, PeerBitfields(cands, handshake, order)));
      handshake(asked[k].1).Some? && Holds(handshake(asked[k].1).value, asked[k].0)
  {
    AskedPeerIsSlotPeer(bitfield, cands, handshake, order, k);
  }

  // ---------------------------------------------------------------------
  // A worked example: two seeders, each holding half of a four-piece file

  const SeederA := TorrentPeer("A", "10.0.0.2", 8001, true, false, 0, 0)
  const SeederB := TorrentPeer("B", "10.0.0.3", 8002, true, false, 0, 0)
  const Halves := Download(Identity("C", "10.0.0.4", 8003), "movie", "movie", 4, ["h", "h", "h", "h"], [SeederA, SeederB])

  /** A holds pieces 0 and 1, B holds pieces 2 and 3. */
  function HalvesHandshake(p: TorrentPeer): Option<seq<bool>>
  {
    if p.peerId == "A" then Some([true, true, false, false])
    else if p.peerId == "B" then Some([false, false, true, true])
    else None
  }

  /** Both seeders are contacted. When A answers first, A is the source
      of pieces 0 and 1 and B of pieces 2 and 3. */
  lemma HalvesSources()
    ensures Candidates(Halves.peers, Halves.me.peerPort) == [SeederA, SeederB]
    ensures AllShook([SeederA, SeederB], HalvesHandshake)
    ensures IsArrivalOrder([0, 1], 2)
    ensures PeerBitfields([SeederA, SeederB], HalvesHandshake, [0, 1]) == [[true, true, false, false], [false, false, true, true]]
    ensures SelectSources(4, [[true, true, false, false], [false, false, true, true]]) == [Some(0), Some(0), Some(1), Some(1)]
  {
    var bfs := [[true, true, false, false], [false, false, true, true]];
    var sources := SelectSources(4, bfs);
    assert sources[0] == FirstHolder(bfs, 0, 0) == Some(0);
    assert sources[1] == FirstHolder(bfs, 1, 0) == Some(0);
    assert sources[2] == FirstHolder(bfs, 2, 0) == Some(1);
    assert sources[3] == FirstHolder(bfs, 3, 0) == Some(1);
  }

  /** When B answers first, B's bitfield lands in slot 0, which is paired
      with A's socket: piece 0 is asked of B, which does not hold it, and
      piece 2 of A, which does not hold it either. */
  lemma HalvesSwapped()
    ensures IsArrivalOrder([1, 0], 2)
    ensures PeerBitfields([SeederA, SeederB], HalvesHandshake, [1, 0]) == [[false, false, true, true], [true, true, false, false]]
    ensures var asked := Assignments([false, false, false, false], [SeederA, SeederB],
                                     SelectSources(4, [[false, false, true, true], [true, true, false, false]]));
      && |asked| == 4
      && asked[0] == (0, SeederB) && !Holds(HalvesHandshake(SeederB).value, 0)
      && asked[2] == (2, SeederA) && !Holds(HalvesHandshake(SeederA).value, 2)
  {
    var bitfield := [false, false, false, false];
    var bfs := [[false, false, true, true], [true, true, false, false]];
    var sources := SelectSources(4, bfs);
    assert sources[0] == FirstHolder(bfs, 0, 0) == Some(1);
    assert sources[1] == FirstHolder(bfs, 1, 0) == Some(1);
    assert sources[2] == FirstHolder(bfs, 2, 0) == Some(0);
    assert sources[3] == FirstHolder(bfs, 3, 0) == Some(0);
    assert sources == [Some(1), Some(1), Some(0), Some(0)];
    assert MissingBefore(bitfield, 3) == 3;
    assert RequestsFrom(bitfield, sources, 4) == [];
    assert RequestsFrom(bitfield, sources, 3) == [3];
    assert RequestsFrom(bitfield, sources, 2) == [2, 3];
    assert RequestsFrom(bitfield, sources, 1) == [1, 2, 3];
    assert Requests(bitfield, sources) == [0, 1, 2, 3];
  }

  // ---------------------------------------------------------------------
  // A worked example: one seeder, one bad copy

  /** A two-piece file whose only other peer is A. */
  const Solo := Download(Identity("C", "10.0.0.4", 8003), "clip", "clip", 1048576, ["h0", "h1"], [SeederA])

  /** A holds both pieces. */
  function HoldsBoth(p: TorrentPeer): Option<seq<bool>>
  {
    Some([true, true])
  }

  /** Both pieces are asked of A's socket. Piece 0 arrives with bytes that
      fail the hash gate and piece 1 with bytes that pass it: the one
      verified piece ends both requests, so the round settles with one
      piece accepted and starts another round. */
  lemma OneBadCopyRetries(hash: Hasher, bad: seq<Byte>, good: seq<Byte>)
    requires hash(bad) != "h0" && hash(good) == "h1"
    ensures var r := Round(Solo, hash, [false, false], HoldsBoth, [0], {0}, [Completion(0, bad), Completion(1, good)]);
      && r.Ran?
      && r.requests == [0, 1]
      && r.accepted == [1]
      && r.count == 1
      && r.settled
      && r.retry
  {
    var bitfield := [false, false];
    var cs := [Completion(0, bad), Completion(1, good)];
    var sources := [Some(0), Some(0)];
    SoloAsks();
    SoloProgress(hash, bad, good);
    SoloSettled(cs);
    assert CountTrue(bitfield) == 0;
    var r := Round(Solo, hash, bitfield, HoldsBoth, [0], {0}, cs);
    assert r == RunRound(Solo, hash, bitfield, [SeederA], sources, {0}, cs);
    assert r.requests == [0, 1];
    assert r.accepted == OnCompleteAll(Solo, hash, [(0, SeederA), (1, SeederA)], 0, cs).accepted;
  }

  /** A's socket is served by piece 1, which ends both requests. */
  lemma SoloSettled(cs: seq<Completion>)
    ensures Settled([0, 1], [Some(0), Some(0)], [1], {0}, cs)
  {
    var sources := [Some(0), Some(0)];
    assert [1][0] == 1 && sources[1] == Some(0);
    assert SocketServed([1], sources, 0);
  }

  /** Both of Solo's pieces are sourced from A's slot and asked of A. */
  lemma SoloAsks()
    ensures Candidates(Solo.peers, Solo.me.peerPort) == [SeederA]
    ensures AllShook([SeederA], HoldsBoth) && IsArrivalOrder([0], 1)
    ensures RoundSources(Solo, [false, false], HoldsBoth, [0]) == [Some(0), Some(0)]
    ensures Requests([false, false], [Some(0), Some(0)]) == [0, 1]
    ensures Assignments([false, false], [SeederA], [Some(0), Some(0)]) == [(0, SeederA), (1, SeederA)]
  {
    var bitfield := [false, false];
    assert Candidates(Solo.peers, Solo.me.peerPort) == [SeederA];
    var bfs := [[true, true]];
    assert PeerBitfields([SeederA], HoldsBoth, [0]) == bfs;
    var sources := SelectSources(2, bfs);
    assert sources[0] == FirstHolder(bfs, 0, 0) == Some(0);
    assert sources[1] == FirstHolder(bfs, 1, 0) == Some(0);
    assert sources == [Some(0), Some(0)];
    assert MissingBefore(bitfield, 1) == 1;
    assert RequestsFrom(bitfield, sources, 2) == [];
    assert RequestsFrom(bitfield, sources, 1) == [1];
  }

  /** Of the two completions only the second passes the hash gate. */
  lemma SoloProgress(hash: Hasher, bad: seq<Byte>, good: seq<Byte>)
    requires hash(bad) != "h0" && hash(good) == "h1"
    ensures var pr := OnCompleteAll(Solo, hash, [(0, SeederA), (1, SeederA)], 0, [Completion(0, bad), Completion(1, good)]);
      pr.accepted == [1] && pr.count == 1
  {
    var asked := [(0, SeederA), (1, SeederA)];
    var cs := [Completion(0, bad), Completion(1, good)];
    assert cs[..1] == [Completion(0, bad)];
    assert OnCompleteAll(Solo, hash, asked, 0, cs[..1]) == Progress(0, [], []);
    var pr := OnCompleteAll(Solo, hash, asked, 0, cs);
    assert pr == OnComplete(Solo, hash, asked, Progress(0, [], []), cs[1]);
    assert asked[1].0 == 1 && Verified(Solo, hash, cs[1]);
  }


}

=== FILE: peer_agent.dfy ===
/** The peer agent: the per-peer server that keeps the join records, stores
    accepted pieces and their blocks, serves pieces block by block and
    reassembles stored blocks. The file system is an abstract store; every
    handler is a pure transition returning the new agent and the messages it
    sends. */
module PeerAgent {
  import opened Common
  import opened Chunking

  // ---------------------------------------------------------------------
  // State

  /** Local join record of one torrent: totals and the piece bitfield. */
  datatype JoinRecord = JoinRecord(uploaded: int, downloaded: int, bitfield: seq<bool>)

  /** A piece of a file in a peer's storage area. */
  datatype PieceKey = PieceKey(peerId: string, fileName: string, pieceIndex: int)

  /** The storage tree of the agent:
      - `fileDirs`: the `chunks/<fileName>` directories, per peer id;
      - `pieces`: the `chunk_<i>.bin` files;
      - `blockDirs`: the `chunk_<i>/` directories and the `block_<k>.bin`
        files in them, keyed by the block index their names carry;
      - `combined`: the `combined_files/<fileName>/piece_<i>.bin` files. */
  datatype Store = Store(
    fileDirs: set<(string, string)>,
    pieces: map<PieceKey, seq<Byte>>,
    blockDirs: map<PieceKey, map<nat, seq<Byte>>>,
    combined: map<(string, int), seq<Byte>>)

  /** The identity of the client this agent belongs to (`clientPeerInfo`). */
  datatype ClientPeer = ClientPeer(peerId: string, peerIp: string, peerPort: int)

  datatype Agent = Agent(
    serverPort: int,
    client: Option<ClientPeer>,
    joined: map<string, JoinRecord>,
    store: Store)

  /** The client id is set and truthy. */
  predicate HasClientId(a: Agent)
  {
    a.client.Some? && a.client.value.peerId != ""
  }

  // ---------------------------------------------------------------------
  // Messages

  /** Inbound messages, with the fields the handlers read. A missing string
      is "", a missing number is 0; `pieceIndex` and `pieceData` are the
      fields whose mere presence is checked. */
  datatype Message =
    | FileUpload(peerId: string, fileName: string, clientPort: int, hasPieceHashes: bool)
    | PeerConnect(clientPeerInfo: Option<ClientPeer>)
    | AddNewJoinedTorrents(infoHash: string, bitfieldLength: int, isSeeder: bool)
    | UpdateJoinedTorrents(infoHash: string, uploaded: int, downloaded: int)
    | PieceDownload(fileName: string, pieceIndex: Option<int>)
    | PieceUpload(peerId: string, infoHash: string, fileName: string, pieceIndex: Option<int>, pieceData: Option<seq<Byte>>)
    | Handshake(peerId: string, infoHash: string)
    | CombinePieces(peerId: string, infoHash: string, fileName: string)
    | Unhandled

  datatype Reply =
    | UploadFail
    | FileChunked(fileName: string, chunkSize: nat)
    | FileUploadSuccess(fileName: string, pieceSize: nat)
    | PieceUploadSuccess(fileName: string, size: nat, blockSize: nat)
    | PeerConnectSuccess
    | AddNewJoinedTorrentsSuccess(joined: map<string, JoinRecord>)
    | UpdateJoinedTorrentsSuccess(joined: map<string, JoinRecord>)
    | ErrorReply
    | PieceInfo(pieceSize: nat, pieceIndex: int, seedingPeer: ClientPeer)
    | BlockData(blockIndex: nat, blockData: seq<Byte>, pieceIndex: int)
    | HandshakeSuccess(bitfield: seq<bool>)
    | HandshakeFail
    | CombineFail
    | CombineBlocksSuccess(pieceIndex: int, pieceData: seq<Byte>)

  /** Where a reply goes: back on the requesting connection, to the stored
      client connection, or to every connected client. */
  datatype Dest = Sender | ClientConnection | AllClients

  datatype Sent = Sent(to: Dest, reply: Reply)

  datatype Step = Step(agent: Agent, sent: seq<Sent>)

  // ---------------------------------------------------------------------
  // FILE_UPLOAD and PEER_CONNECT

  /** FILE_UPLOAD: accepted only from the client whose port is the agent's
      own port minus 2000; nothing is stored. */
  function OnFileUpload(a: Agent, fileName: string, clientPort: int): (s: Step)
    ensures s.agent == a
    ensures clientPort != a.serverPort - AgentPortOffset <==> s.sent == [Sent(Sender, UploadFail)]
    ensures clientPort == a.serverPort - AgentPortOffset ==>
      s.sent == [Sent(AllClients, FileChunked(fileName, PieceSize)), Sent(Sender, FileUploadSuccess(fileName, PieceSize))]
  {
    if clientPort != a.serverPort - AgentPortOffset then
      Step(a, [Sent(Sender, UploadFail)])
    else
      Step(a, [Sent(AllClients, FileChunked(fileName, PieceSize)), Sent(Sender, FileUploadSuccess(fileName, PieceSize))])
  }

  /** PEER_CONNECT: remember who this agent's client is. */
  function OnPeerConnect(a: Agent, info: ClientPeer): (s: Step)
    ensures s.agent.client == Some(info) && HasClientId(s.agent) == (info.peerId != "")
    ensures s.agent.joined == a.joined && s.agent.store == a.store && s.agent.serverPort == a.serverPort
    ensures s.sent == [Sent(Sender, PeerConnectSuccess)]
  {
    Step(a.(client := Some(info)), [Sent(Sender, PeerConnectSuccess)])
  }

  // ---------------------------------------------------------------------
  // Join records

  /** ADD_NEW_JOINED_TORRENTS: a fresh record, all-true for a seeder and
      all-false otherwise, with zero totals; it replaces any earlier record
      for the same torrent. */
  function OnAddNewJoined(a: Agent, infoHash: string, bitfieldLength: int, isSeeder: bool): (s: Step)
    ensures s.agent.joined.Keys == a.joined.Keys + {infoHash}
    ensures forall h :: h in a.joined && h != infoHash ==> s.agent.joined[h] == a.joined[h]
    ensures var r := s.agent.joined[infoHash];
      && r.uploaded == 0 && r.downloaded == 0
      && |r.bitfield| == (if bitfieldLength < 0 then 0 else bitfieldLength)
      && forall i :: 0 <= i < |r.bitfield| ==> r.bitfield[i] == isSeeder
    ensures s.agent.store == a.store && s.agent.client == a.client && s.agent.serverPort == a.serverPort
    ensures s.sent == [Sent(Sender, AddNewJoinedTorrentsSuccess(s.agent.joined))]
  {
    var n: nat := if bitfieldLength < 0 then 0 else bitfieldLength;
    var joined := a.joined[infoHash := JoinRecord(0, 0, Repeat(isSeeder, n))];
    Step(a.(joined := joined), [Sent(Sender, AddNewJoinedTorrentsSuccess(joined))])
  }

  /** UPDATE_JOINED_TORRENTS: add the reported amounts (absent counts as
      zero) and keep the bitfield. An unknown torrent raises inside the
      handler, which the catch swallows: no change and no reply. */
  function OnUpdateJoined(a: Agent, infoHash: string, uploaded: int, downloaded: int): (s: Step)
    ensures infoHash !in a.joined ==> s == Step(a, [])
    ensures infoHash in a.joined ==>
      && s.agent.joined.Keys == a.joined.Keys
      && (forall h :: h in a.joined && h != infoHash ==> s.agent.joined[h] == a.joined[h])
      && s.agent.joined[infoHash].uploaded == a.joined[infoHash].uploaded + uploaded
      && s.agent.joined[infoHash].downloaded == a.joined[infoHash].downloaded + downloaded
      && s.agent.joined[infoHash].bitfield == a.joined[infoHash].bitfield
      && s.agent.store == a.store && s.agent.client == a.client && s.agent.serverPort == a.serverPort
    ensures infoHash in a.joined && downloaded != 0 ==>
      s.sent == [Sent(Sender, UpdateJoinedTorrentsSuccess(s.agent.joined))]
    ensures infoHash in a.joined && downloaded == 0 && uploaded != 0 && a.client.Some? ==>
      s.sent == [Sent(ClientConnection, UpdateJoinedTorrentsSuccess(s.agent.joined))]
    ensures downloaded == 0 && (uploaded == 0 || a.client.None?) ==> s.sent == []
  {
    if infoHash !in a.joined then Step(a, [])
    else
      var r := a.joined[infoHash];
      var joined := a.joined[infoHash := r.(uploaded := r.uploaded + uploaded, downloaded := r.downloaded + downloaded)];
      var sent :=
        if downloaded != 0 then [Sent(Sender, UpdateJoinedTorrentsSuccess(joined))]
        else if uploaded != 0 && a.client.Some? then [Sent(ClientConnection, UpdateJoinedTorrentsSuccess(joined))]
        else [];
      Step(a.(joined := joined), sent)
  }

  /** HANDSHAKE: the stored bitfield of the torrent, or a failure when this
      agent has no record of it. */
  function OnHandshake(a: Agent, infoHash: string): (s: Step)
    ensures s.agent == a
    ensures |s.sent| == 1 && s.sent[0].to == Sender
    ensures s.sent[0].reply.HandshakeSuccess? <==> infoHash in a.joined
    ensures infoHash in a.joined ==> s.sent[0].reply.bitfield == a.joined[infoHash].bitfield
    ensures infoHash !in a.joined ==> s.sent[0].reply == HandshakeFail
  {
    if infoHash in a.joined then Step(a, [Sent(Sender, HandshakeSuccess(a.joined[infoHash].bitfield))])
    else Step(a, [Sent(Sender, HandshakeFail)])
  }

  // ---------------------------------------------------------------------
  // Serving a piece (PIECE_DOWNLOAD)

  /** `block_data` messages for the given blocks, numbered from `first`. */
  function BlockMessages(blocks: seq<seq<Byte>>, pieceIndex: int, first: nat): (r: seq<Reply>)
    ensures |r| == |blocks|
    ensures forall k :: 0 <= k < |blocks| ==> r[k] == BlockData(first + k, blocks[k], pieceIndex)
    decreases |blocks|
  {
    if |blocks| == 0 then []
    else [BlockData(first, blocks[0], pieceIndex)] + BlockMessages(blocks[1..], pieceIndex, first + 1)
  }

  /** The stream a served piece produces: one `piece_info` with the piece
      length, then the piece's 16 KiB blocks in ascending order. */
  function ServeReplies(data: seq<Byte>, pieceIndex: int, seeding: ClientPeer): (r: seq<Reply>)
    ensures |r| == 1 + CeilDiv(|data|, BlockSize)
    ensures r[0] == PieceInfo(|data|, pieceIndex, seeding)
    ensures forall k :: 1 <= k < |r| ==> r[k].BlockData? && r[k].blockIndex == k - 1 && r[k].pieceIndex == pieceIndex
    ensures forall k :: 1 <= k < |r| ==> r[k].blockData == Split(data, BlockSize)[k - 1]
    ensures forall k :: 1 <= k < |r| - 1 ==> |r[k].blockData| == BlockSize
    ensures Concat(seq(|r| - 1, k requires 0 <= k < |r| - 1 => r[k + 1].blockData)) == data
  {
    var msgs := BlockMessages(Split(data, BlockSize), pieceIndex, 0);
    ServeStream(data, pieceIndex, seeding, msgs);
    [PieceInfo(|data|, pieceIndex, seeding)] + msgs
  }

  lemma ServeStream(data: seq<Byte>, pieceIndex: int, seeding: ClientPeer, msgs: seq<Reply>)
    requires msgs == BlockMessages(Split(data, BlockSize), pieceIndex, 0)
    ensures var r := [PieceInfo(|data|, pieceIndex, seeding)] + msgs;
      && |r| == 1 + CeilDiv(|data|, BlockSize)
      && (forall k :: 1 <= k < |r| ==> r[k].BlockData? && r[k].blockIndex == k - 1 && r[k].pieceIndex == pieceIndex)
      && (forall k :: 1 <= k < |r| ==> r[k].blockData == Split(data, BlockSize)[k - 1])
      && (forall k :: 1 <= k < |r| - 1 ==> |r[k].blockData| == BlockSize)
      && Concat(seq(|r| - 1, k requires 0 <= k < |r| - 1 => r[k + 1].blockData)) == data
  {
    var r := [PieceInfo(|data|, pieceIndex, seeding)] + msgs;
    assert forall k :: 1 <= k < |r| ==> r[k] == msgs[k - 1];
    BlocksConcat(data, r);
  }

  lemma BlocksConcat(data: seq<Byte>, r: seq<Reply>)
    requires |r| == 1 + CeilDiv(|data|, BlockSize)
    requires forall k :: 1 <= k < |r| ==> r[k].BlockData? && r[k].blockData == Split(data, BlockSize)[k - 1]
    ensures Concat(seq(|r| - 1, k requires 0 <= k < |r| - 1 => r[k + 1].blockData)) == data
  {
    var blocks := Split(data, BlockSize);
    var parts := seq(|r| - 1, k requires 0 <= k < |r| - 1 => r[k + 1].blockData);
    assert forall k :: 0 <= k < |parts| ==> parts[k] == blocks[k];
    assert parts == blocks;
  }

  /** Block `k` of a served piece holds bytes `[16384 k, min(16384 (k + 1), len))`. */
  lemma ServedBlockContents(data: seq<Byte>, pieceIndex: int, seeding: ClientPeer, k: nat)
    requires k < CeilDiv(|data|, BlockSize)
    ensures BlockSize * k < |data|
    ensures ServeReplies(data, pieceIndex, seeding)[k + 1].blockData ==
      data[BlockSize * k .. Min(BlockSize * (k + 1), |data|)]
  {
    PartIsSlice(data, BlockSize, k);
  }

  /** PIECE_DOWNLOAD: serve a stored piece of this agent's own client. With
      no client id the agent answers with an error. Otherwise the handler
      first lists the file's chunk directory and reads every chunk in it
      synchronously: a missing directory or a failing read throws, and
      nothing is sent. It then reads the requested piece's file again: a
      missing piece or a failing read answers with an error, and a stored
      piece is streamed. */
  function OnPieceDownload(a: Agent, fileName: string, pieceIndex: int, io: Io): (s: Step)
    ensures s.agent == a
    ensures !HasClientId(a) ==> s.sent == [Sent(Sender, ErrorReply)]
    ensures HasClientId(a) && (a.client.value.peerId, fileName) !in a.store.fileDirs ==> s.sent == []
    ensures HasClientId(a) && ScanFails(a.store, a.client.value.peerId, fileName, io) ==> s.sent == []
    ensures HasClientId(a) && (a.client.value.peerId, fileName) in a.store.fileDirs
              && !ScanFails(a.store, a.client.value.peerId, fileName, io) ==>
      var key := PieceKey(a.client.value.peerId, fileName, pieceIndex);
      && (key !in a.store.pieces || pieceIndex in io.serveReadFails ==> s.sent == [Sent(Sender, ErrorReply)])
      && (key in a.store.pieces && pieceIndex !in io.serveReadFails ==>
            && |s.sent| == 1 + CeilDiv(|a.store.pieces[key]|, BlockSize)
            && forall k :: 0 <= k < |s.sent| ==>
                 s.sent[k] == Sent(Sender, ServeReplies(a.store.pieces[key], pieceIndex, a.client.value)[k]))
  {
    if !HasClientId(a) then Step(a, [Sent(Sender, ErrorReply)])
    else
      var me := a.client.value;
      if (me.peerId, fileName) !in a.store.fileDirs then Step(a, [])
      else if ScanFails(a.store, me.peerId, fileName, io) then Step(a, [])
      else
        var key := PieceKey(me.peerId, fileName, pieceIndex);
        if key !in a.store.pieces || pieceIndex in io.serveReadFails then Step(a, [Sent(Sender, ErrorReply)])
        else
          var replies := ServeReplies(a.store.pieces[key], pieceIndex, me);
          Step(a, seq(|replies|, k requires 0 <= k < |replies| => Sent(Sender, replies[k])))
  }

  /** The synchronous pass over a file's chunk directory throws: some
      stored piece of the file cannot be read. */
  predicate ScanFails(store: Store, peerId: string, fileName: string, io: Io)
  {
    exists j :: j in io.scanReadFails && PieceKey(peerId, fileName, j) in store.pieces
  }

  // ---------------------------------------------------------------------
  // File-system outcomes

  /** The call of a piece's reassembly that fails: listing its block
      directory, writing the combined piece, or reading it back to send. */
  datatype CombineFault = ListingFails | WriteFails | ReadBackFails

  /** The outcomes of the asynchronous file-system calls the handlers
      start, keyed by the piece index (and block index) they concern; a
      call not listed succeeds:
      - `pieceWriteFails`: pieces whose `chunk_<i>.bin` write fails;
      - `blockWriteFails`: blocks whose `block_<k>.bin` write fails;
      - `unreadableBlocks`: blocks whose read during reassembly fails;
      - `combineFaults`: pieces whose reassembly fails, and at which call;
      - `scanReadFails`: pieces whose `chunk_<i>.bin` read fails during a
        download's pass over the file's chunk directory;
      - `serveReadFails`: pieces whose `chunk_<i>.bin` read fails when a
        download reads the requested piece to send it. */
  datatype Io = Io(
    pieceWriteFails: set<int>,
    blockWriteFails: set<(int, nat)>,
    unreadableBlocks: set<(int, nat)>,
    combineFaults: map<int, CombineFault>,
    scanReadFails: set<int>,
    serveReadFails: set<int>)

  /** Every file-system call succeeds. */
  const NoFaults: Io := Io({}, {}, {}, map[], {}, {})

  // ---------------------------------------------------------------------
  // Accepting a piece (PIECE_UPLOAD)

  /** The block directory after writing `blocks` as `block_0.bin`, ...,
      where the writes of the blocks in `failed` fail: a written block
      overwrites the file of the same name, every other file stays. */
  function WriteBlocks(dir: map<nat, seq<Byte>>, blocks: seq<seq<Byte>>, failed: set<nat>): (r: map<nat, seq<Byte>>)
    ensures forall k: nat :: k in r <==> k in dir || (k < |blocks| && k !in failed)
    ensures forall k :: 0 <= k < |blocks| && k !in failed ==> r[k] == blocks[k]
    ensures forall k :: k in dir && (k >= |blocks| || k in failed) ==> r[k] == dir[k]
  {
    dir + map k | 0 <= k < |blocks| && k !in failed :: blocks[k]
  }

  function BlockDirOrEmpty(store: Store, key: PieceKey): map<nat, seq<Byte>>
  {
    if key in store.blockDirs then store.blockDirs[key] else map[]
  }

  /** The blocks of piece `i` below `n` whose write fails. */
  function FailedBlocks(io: Io, i: int, n: nat): set<nat>
  {
    set k: nat | k < n && (i, k) in io.blockWriteFails
  }

  /** The store after accepting a piece. The directories are created
      synchronously. When the piece write succeeds, the piece file is
      written, the block directory is created with the first block (so an
      empty piece leaves none) and each block is written unless its own
      write fails. */
  function StorePiece(store: Store, key: PieceKey, data: seq<Byte>, io: Io): (r: Store)
    ensures (key.peerId, key.fileName) in r.fileDirs
    ensures r.fileDirs == store.fileDirs + {(key.peerId, key.fileName)}
    ensures r.combined == store.combined
    ensures key.pieceIndex in io.pieceWriteFails ==> r.pieces == store.pieces && r.blockDirs == store.blockDirs
    ensures key.pieceIndex !in io.pieceWriteFails ==> r.pieces == store.pieces[key := data]
    ensures key.pieceIndex !in io.pieceWriteFails && |data| > 0 ==>
      && r.blockDirs.Keys == store.blockDirs.Keys + {key}
      && r.blockDirs[key] == WriteBlocks(BlockDirOrEmpty(store, key), Split(data, BlockSize),
                                         FailedBlocks(io, key.pieceIndex, CeilDiv(|data|, BlockSize)))
    ensures forall other :: other in store.blockDirs && other != key ==>
      other in r.blockDirs && r.blockDirs[other] == store.blockDirs[other]
    ensures |data| == 0 ==> r.blockDirs == store.blockDirs
  {
    var dirs := store.fileDirs + {(key.peerId, key.fileName)};
    if key.pieceIndex in io.pieceWriteFails then store.(fileDirs := dirs)
    else
      var blocks := Split(data, BlockSize);
      var blockDirs :=
        if |blocks| == 0 then store.blockDirs
        else store.blockDirs[key := WriteBlocks(BlockDirOrEmpty(store, key), blocks, FailedBlocks(io, key.pieceIndex, |blocks|))];
      store.(fileDirs := dirs, pieces := store.pieces[key := data], blockDirs := blockDirs)
  }

  /** `bitfield[pieceIndex] = true` on a JavaScript array: a negative index
      leaves the array's elements alone, an index past the end grows it. */
  function MarkPiece(bitfield: seq<bool>, pieceIndex: int): (r: seq<bool>)
    ensures 0 <= pieceIndex < |bitfield| ==> r == bitfield[pieceIndex := true]
    ensures pieceIndex < 0 ==> r == bitfield
    ensures pieceIndex >= 0 ==> pieceIndex < |r| && r[pieceIndex]
    ensures forall j :: 0 <= j < |bitfield| && j != pieceIndex ==> r[j] == bitfield[j]
    ensures forall j :: |bitfield| <= j < |r| && j != pieceIndex ==> !r[j]
  {
    if pieceIndex < 0 then bitfield else StoreAt(bitfield, pieceIndex, true, false)
  }

  /** The UPLOAD_FAILs an upload of piece `i` sends once its writes
      finish: one when the piece write fails, otherwise one per failed
      block write. */
  function LateFailures(io: Io, i: int, data: seq<Byte>): (r: seq<Sent>)
    ensures forall m :: m in r ==> m == Sent(Sender, UploadFail)
    ensures |r| == if i in io.pieceWriteFails then 1 else |FailedBlocks(io, i, CeilDiv(|data|, BlockSize))|
  {
    if i in io.pieceWriteFails then [Sent(Sender, UploadFail)]
    else Repeat(Sent(Sender, UploadFail), |FailedBlocks(io, i, CeilDiv(|data|, BlockSize))|)
  }

  /** PIECE_UPLOAD, as written: the piece is stored under the client's own
      id; the digest computed on it is discarded; the bitfield entry is set
      and success is replied at once, before the outcome of the writes is
      known, so a failed write still marks the piece and is reported by
      later UPLOAD_FAILs. A torrent without a join record raises when the
      entry is set: the writes still happen but only their failures are
      replied. */
  function OnPieceUpload(a: Agent, infoHash: string, fileName: string, pieceIndex: int,
                         data: seq<Byte>, io: Io): (s: Step)
    ensures !HasClientId(a) ==> s == Step(a, [Sent(Sender, UploadFail)])
    ensures s.agent.client == a.client && s.agent.serverPort == a.serverPort
    ensures HasClientId(a) ==>
      && s.agent.store == StorePiece(a.store, PieceKey(a.client.value.peerId, fileName, pieceIndex), data, io)
      && s.agent.joined.Keys == a.joined.Keys
      && (forall h :: h in a.joined && h != infoHash ==> s.agent.joined[h] == a.joined[h])
    ensures HasClientId(a) && infoHash in a.joined ==>
      && s.agent.joined[infoHash] == a.joined[infoHash].(bitfield := MarkPiece(a.joined[infoHash].bitfield, pieceIndex))
      && s.sent == [Sent(Sender, PieceUploadSuccess(fileName, |data|, BlockSize))] + LateFailures(io, pieceIndex, data)
    ensures HasClientId(a) && infoHash !in a.joined ==> s.sent == LateFailures(io, pieceIndex, data)
  {
    if !HasClientId(a) then Step(a, [Sent(Sender, UploadFail)])
    else
      var key := PieceKey(a.client.value.peerId, fileName, pieceIndex);
      var store := StorePiece(a.store, key, data, io);
      var late := LateFailures(io, pieceIndex, data);
      if infoHash !in a.joined then Step(a.(store := store), late)
      else
        var r := a.joined[infoHash];
        var joined := a.joined[infoHash := r.(bitfield := MarkPiece(r.bitfield, pieceIndex))];
        Step(a.(store := store, joined := joined), [Sent(Sender, PieceUploadSuccess(fileName, |data|, BlockSize))] + late)
  }

  /** An upload by the client reports a failure iff one of the writes it
      starts fails: the piece write, or the write of one of its blocks. */
  lemma UploadFailIffWriteFails(a: Agent, infoHash: string, fileName: string, pieceIndex: int, data: seq<Byte>, io: Io)
    requires HasClientId(a)
    ensures Sent(Sender, UploadFail) in OnPieceUpload(a, infoHash, fileName, pieceIndex, data, io).sent <==>
      pieceIndex in io.pieceWriteFails
      || exists k: nat :: k < CeilDiv(|data|, BlockSize) && (pieceIndex, k) in io.blockWriteFails
  {
    var s := OnPieceUpload(a, infoHash, fileName, pieceIndex, data, io);
    var late := LateFailures(io, pieceIndex, data);
    assert s.sent == late || s.sent == [Sent(Sender, PieceUploadSuccess(fileName, |data|, BlockSize))] + late;
    LateFailuresIff(io, pieceIndex, data);
  }

  /** The late failures name a failing write iff there is one. */
  lemma LateFailuresIff(io: Io, pieceIndex: int, data: seq<Byte>)
    ensures Sent(Sender, UploadFail) in LateFailures(io, pieceIndex, data) <==>
      pieceIndex in io.pieceWriteFails
      || exists k: nat :: k < CeilDiv(|data|, BlockSize) && (pieceIndex, k) in io.blockWriteFails
  {
    var late := LateFailures(io, pieceIndex, data);
    var failed := FailedBlocks(io, pieceIndex, CeilDiv(|data|, BlockSize));
    if pieceIndex !in io.pieceWriteFails {
      if exists k: nat :: k < CeilDiv(|data|, BlockSize) && (pieceIndex, k) in io.blockWriteFails {
        var k: nat :| k < CeilDiv(|data|, BlockSize) && (pieceIndex, k) in io.blockWriteFails;
        assert k in failed;
        assert late[0] in late;
      } else {
        assert failed == {};
      }
    } else {
      assert late[0] in late;
    }
  }

  /** The accept step never looks at the piece's content: two uploads of
      different data to the same place mark the bitfield identically. */
  lemma UploadIgnoresContent(a: Agent, infoHash: string, fileName: string, pieceIndex: int,
                             d1: seq<Byte>, d2: seq<Byte>, io: Io)
    ensures OnPieceUpload(a, infoHash, fileName, pieceIndex, d1, io).agent.joined ==
            OnPieceUpload(a, infoHash, fileName, pieceIndex, d2, io).agent.joined
  {
  }

  // ---------------------------------------------------------------------
  // Reassembly (COMBINE_PIECES)

  /** Least element of a non-empty set of block indices. */
  function MinIndex(s: set<nat>): (m: nat)
    requires s != {}
    ensures m in s && forall x :: x in s ==> m <= x
  {
    MinExists(s);
    var m :| m in s && forall x :: x in s ==> m <= x; m
  }

  lemma MinExists(s: set<nat>)
    requires s != {}
    ensures exists m :: m in s && forall x :: x in s ==> m <= x
  {
    var m := LeastElement(s);
  }

  lemma {:induction false} LeastElement(s: set<nat>) returns (m: nat)
    requires s != {}
    ensures m in s && forall x :: x in s ==> m <= x
    decreases |s|
  {
    var y :| y in s;
    if s == {y} {
      m := y;
    } else {
      var rest := s - {y};
      var least := LeastElement(rest);
      m := if y < least then y else least;
      forall x | x in s ensures m <= x {
        if x != y { assert x in rest; }
      }
    }
  }

  /** The block indices present, in ascending numeric order: the listing
      sorted by the number parsed out of each `block_<k>.bin` name. */
  function SortedIndices(s: set<nat>): (r: seq<nat>)
    ensures |r| == |s|
    ensures forall x :: x in s <==> x in r
    ensures forall i, j :: 0 <= i < j < |r| ==> r[i] < r[j]
    decreases |s|
  {
    if s == {} then []
    else
      var m := MinIndex(s);
      var rest := SortedIndices(s - {m});
      SortedCons(s, m, rest);
      [m] + rest
  }

  /** The least index followed by the others in ascending order is the
      whole set in ascending order. */
  lemma SortedCons(s: set<nat>, m: nat, rest: seq<nat>)
    requires m in s && forall x :: x in s ==> m <= x
    requires |rest| == |s - {m}|
    requires forall x :: x in s - {m} <==> x in rest
    requires forall i, j :: 0 <= i < j < |rest| ==> rest[i] < rest[j]
    ensures |[m] + rest| == |s|
    ensures forall x :: x in s <==> x in [m] + rest
    ensures forall i, j :: 0 <= i < j < |[m] + rest| ==> ([m] + rest)[i] < ([m] + rest)[j]
  {
    var r := [m] + rest;
    assert forall x :: x in s <==> x == m || x in s - {m};
    assert forall x :: x in rest ==> m < x;
    assert forall x :: x in r <==> x == m || x in rest;
    assert forall i :: 1 <= i < |r| ==> r[i] == rest[i - 1];
    forall i, j | 0 <= i < j < |r| ensures r[i] < r[j] {
      if i > 0 {
        assert r[i] == rest[i - 1] && r[j] == rest[j - 1];
      } else {
        assert rest[j - 1] in rest;
      }
    }
  }

  /** The indices `0 .. n - 1`. */
  function IndexSet(n: nat): (s: set<nat>)
    ensures forall k: nat :: k in s <==> k < n
    ensures |s| == n
  {
    if n == 0 then {} else
      var s := IndexSet(n - 1);
      assert n - 1 !in s;
      s + {n - 1}
  }

  /** The indices `0 .. n - 1` sort to themselves. */
  lemma SortedIndicesOfRange(n: nat)
    ensures |SortedIndices(IndexSet(n))| == n
    ensures forall i :: 0 <= i < n ==> SortedIndices(IndexSet(n))[i] == i
  {
    var r := SortedIndices(IndexSet(n));
    forall a | 0 <= a < |r| ensures r[a] < n {
      assert r[a] in r;
    }
    AscendingBelowIsRange(r, n);
  }

  /** A strictly ascending sequence of `n` naturals below `n` is `0 .. n - 1`. */
  lemma AscendingBelowIsRange(r: seq<nat>, n: nat)
    requires |r| == n
    requires forall a, b :: 0 <= a < b < |r| ==> r[a] < r[b]
    requires forall a :: 0 <= a < |r| ==> r[a] < n
    ensures forall i :: 0 <= i < n ==> r[i] == i
  {
    forall i | 0 <= i < n ensures r[i] == i {
      AscendingFrom(r, i);
      AscendingTo(r, i, n);
    }
  }

  lemma {:induction false} AscendingFrom(r: seq<nat>, i: nat)
    requires i < |r|
    requires forall a, b :: 0 <= a < b < |r| ==> r[a] < r[b]
    ensures r[i] >= i
  {
    if i > 0 { AscendingFrom(r, i - 1); }
  }

  lemma {:induction false} AscendingTo(r: seq<nat>, i: nat, n: nat)
    requires i < |r| == n
    requires forall a, b :: 0 <= a < b < |r| ==> r[a] < r[b]
    requires forall a :: 0 <= a < |r| ==> r[a] < n
    ensures r[i] <= i
    decreases n - i
  {
    if i < n - 1 { AscendingTo(r, i + 1, n); }
  }

  /** The blocks of `dir` at the indices `order`, in that order. */
  function Ordered(dir: map<nat, seq<Byte>>, order: seq<nat>): (r: seq<seq<Byte>>)
    requires forall i :: 0 <= i < |order| ==> order[i] in dir
    ensures |r| == |order| && forall i :: 0 <= i < |order| ==> r[i] == dir[order[i]]
  {
    seq(|order|, i requires 0 <= i < |order| => dir[order[i]])
  }

  /** A block directory's blocks concatenated in ascending index order. */
  function Reassemble(dir: map<nat, seq<Byte>>): seq<Byte>
  {
    var order := SortedIndices(dir.Keys);
    assert forall i :: 0 <= i < |order| ==> order[i] in order;
    Concat(Ordered(dir, order))
  }

  /** Reassembling the blocks the upload wrote gives back the uploaded
      piece, provided every block write succeeded and the directory held
      no higher-numbered leftovers. */
  lemma UploadThenReassemble(dir: map<nat, seq<Byte>>, data: seq<Byte>)
    requires forall k :: k in dir ==> k < CeilDiv(|data|, BlockSize)
    ensures Reassemble(WriteBlocks(dir, Split(data, BlockSize), {})) == data
  {
    var blocks := Split(data, BlockSize);
    var written := WriteBlocks(dir, blocks, {});
    WrittenKeys(dir, blocks);
    ReassembleRange(written, blocks);
  }

  lemma WrittenKeys(dir: map<nat, seq<Byte>>, blocks: seq<seq<Byte>>)
    requires forall k :: k in dir ==> k < |blocks|
    ensures WriteBlocks(dir, blocks, {}).Keys == IndexSet(|blocks|)
  {
    var w := WriteBlocks(dir, blocks, {});
    forall k: nat ensures k in w.Keys <==> k in IndexSet(|blocks|) {
    }
  }

  /** A directory holding exactly blocks `0 .. n - 1` reassembles to their
      concatenation. */
  lemma ReassembleRange(dir: map<nat, seq<Byte>>, blocks: seq<seq<Byte>>)
    requires dir.Keys == IndexSet(|blocks|)
    requires forall k :: 0 <= k < |blocks| ==> dir[k] == blocks[k]
    ensures Reassemble(dir) == Concat(blocks)
  {
    ReassembleUnfolds(dir);
    OrderedRange(dir, blocks);
  }

  lemma ReassembleUnfolds(dir: map<nat, seq<Byte>>)
    ensures forall i :: 0 <= i < |SortedIndices(dir.Keys)| ==> SortedIndices(dir.Keys)[i] in dir
    ensures Reassemble(dir) == Concat(Ordered(dir, SortedIndices(dir.Keys)))
  {
    var order := SortedIndices(dir.Keys);
    assert forall i :: 0 <= i < |order| ==> order[i] in order;
  }

  lemma OrderedRange(dir: map<nat, seq<Byte>>, blocks: seq<seq<Byte>>)
    requires dir.Keys == IndexSet(|blocks|)
    requires forall k :: 0 <= k < |blocks| ==> dir[k] == blocks[k]
    ensures forall i :: 0 <= i < |SortedIndices(dir.Keys)| ==> SortedIndices(dir.Keys)[i] in dir
    ensures Ordered(dir, SortedIndices(dir.Keys)) == blocks
  {
    var order := SortedIndices(dir.Keys);
    RangeSortsToItself(dir.Keys, |blocks|);
    KeysOfRange(dir, |blocks|);
    OrderedIsBlocks(dir, order, blocks);
  }

  lemma KeysOfRange(dir: map<nat, seq<Byte>>, n: nat)
    requires dir.Keys == IndexSet(n)
    ensures forall i :: 0 <= i < n ==> i in dir
  {
    forall i | 0 <= i < n ensures i in dir {
      assert i in IndexSet(n);
    }
  }

  lemma RangeSortsToItself(s: set<nat>, n: nat)
    requires s == IndexSet(n)
    ensures |SortedIndices(s)| == n
    ensures forall i :: 0 <= i < n ==> SortedIndices(s)[i] == i
  {
    SortedIndicesOfRange(n);
  }

  lemma OrderedIsBlocks(dir: map<nat, seq<Byte>>, order: seq<nat>, blocks: seq<seq<Byte>>)
    requires |order| == |blocks|
    requires forall i :: 0 <= i < |order| ==> order[i] == i && i in dir && dir[i] == blocks[i]
    ensures forall i :: 0 <= i < |order| ==> order[i] in dir
    ensures Ordered(dir, order) == blocks
  {
    var parts := Ordered(dir, order);
    assert forall i :: 0 <= i < |blocks| ==> parts[i] == blocks[i];
  }

  /** Total length of the blocks of `dir` at the indices `order`. */
  function LenSum(dir: map<nat, seq<Byte>>, order: seq<nat>): nat
    requires forall i :: 0 <= i < |order| ==> order[i] in dir
  {
    if |order| == 0 then 0 else |dir[order[0]]| + LenSum(dir, order[1..])
  }

  lemma {:induction false} OrderedLength(dir: map<nat, seq<Byte>>, order: seq<nat>)
    requires forall i :: 0 <= i < |order| ==> order[i] in dir
    ensures |Concat(Ordered(dir, order))| == LenSum(dir, order)
    decreases |order|
  {
    if |order| > 0 {
      assert Ordered(dir, order)[1..] == Ordered(dir, order[1..]);
      OrderedLength(dir, order[1..]);
    }
  }

  /** `order` lists, strictly ascending, indices of `blocks` from `from`
      on, and `dir` holds a block as long as `blocks`' at each of them. */
  predicate AscendingIn(dir: map<nat, seq<Byte>>, blocks: seq<seq<Byte>>, order: seq<nat>, from: nat)
  {
    && (forall i :: 0 <= i < |order| ==> order[i] in dir && from <= order[i] < |blocks| && |dir[order[i]]| == |blocks[order[i]]|)
    && (forall a, b :: 0 <= a < b < |order| ==> order[a] < order[b])
  }

  /** Blocks at some of the indices from `from` on add up to no more than
      all the blocks from `from` on. */
  lemma {:induction false} SubsetLength(dir: map<nat, seq<Byte>>, blocks: seq<seq<Byte>>, order: seq<nat>, from: nat)
    requires from <= |blocks| && AscendingIn(dir, blocks, order, from)
    ensures LenSum(dir, order) <= |Concat(blocks[from..])|
    decreases |blocks| - from
  {
    if from == |blocks| {
      assert |order| == 0;
    } else {
      assert blocks[from..][1..] == blocks[from + 1..];
      if |order| > 0 && order[0] == from {
        SubsetLength(dir, blocks, order[1..], from + 1);
      } else {
        assert forall i :: 0 <= i < |order| ==> order[0] <= order[i];
        SubsetLength(dir, blocks, order, from + 1);
      }
    }
  }

  /** As `SubsetLength`, where block `k` is not among them: its length is
      missing from the sum. */
  lemma {:induction false} MissingBlockLength(dir: map<nat, seq<Byte>>, blocks: seq<seq<Byte>>, order: seq<nat>, from: nat, k: nat)
    requires from <= k < |blocks| && AscendingIn(dir, blocks, order, from)
    requires forall i :: 0 <= i < |order| ==> order[i] != k
    ensures LenSum(dir, order) + |blocks[k]| <= |Concat(blocks[from..])|
    decreases |blocks| - from
  {
    assert blocks[from..][1..] == blocks[from + 1..];
    if |order| > 0 && order[0] == from {
      MissingBlockLength(dir, blocks, order[1..], from + 1, k);
    } else {
      assert forall i :: 0 <= i < |order| ==> order[0] <= order[i];
      if k == from {
        SubsetLength(dir, blocks, order, from + 1);
      } else {
        MissingBlockLength(dir, blocks, order, from + 1, k);
      }
    }
  }

  /** A piece whose own write succeeds but one of whose block writes fails
      is stored whole and counted as held, while its fresh block directory
      lacks that block: reassembling it yields fewer bytes than were
      uploaded. */
  lemma BlockFailureShortensPiece(store: Store, key: PieceKey, data: seq<Byte>, io: Io, k: nat)
    requires key.pieceIndex !in io.pieceWriteFails && key !in store.blockDirs
    requires k < CeilDiv(|data|, BlockSize) && (key.pieceIndex, k) in io.blockWriteFails
    ensures var r := StorePiece(store, key, data, io);
      && key in r.pieces && r.pieces[key] == data
      && key in r.blockDirs && k !in r.blockDirs[key]
      && |Reassemble(r.blockDirs[key])| < |data|
  {
    var r := StorePiece(store, key, data, io);
    var blocks := Split(data, BlockSize);
    var dir := r.blockDirs[key];
    assert k in FailedBlocks(io, key.pieceIndex, CeilDiv(|data|, BlockSize));
    var order := SortedIndices(dir.Keys);
    forall i | 0 <= i < |order|
      ensures order[i] in dir && order[i] < |blocks| && |dir[order[i]]| == |blocks[order[i]]| && order[i] != k
    {
      assert order[i] in order;
    }
    MissingBlockLength(dir, blocks, order, 0, k);
    OrderedLength(dir, order);
    assert blocks[0..] == blocks;
  }

  /** The blocks of piece `i` that reassembly can read. */
  function Readable(dir: map<nat, seq<Byte>>, io: Io, i: int): map<nat, seq<Byte>>
  {
    map k | k in dir && (i, k) !in io.unreadableBlocks :: dir[k]
  }

  /** The blocks of piece `i` whose read fails. */
  function Unreadable(dir: map<nat, seq<Byte>>, io: Io, i: int): set<nat>
  {
    set k | k in dir && (i, k) in io.unreadableBlocks
  }

  /** Reassembling piece `i` from its block directory: the bytes written
      to `piece_<i>.bin`, none when the listing or the write fails, and
      the replies: a failure for each unreadable block, whose bytes are
      left out, then the piece as read back, or a failure. */
  function CombineOne(dir: map<nat, seq<Byte>>, io: Io, i: int): (r: (Option<seq<Byte>>, seq<Sent>))
    ensures r.0.None? <==> i in io.combineFaults && io.combineFaults[i] != ReadBackFails
    ensures r.0.Some? ==> r.0.value == Reassemble(Readable(dir, io, i))
    ensures forall m :: m in r.1 ==>
      m == Sent(Sender, CombineFail) || m == Sent(Sender, CombineBlocksSuccess(i, Reassemble(Readable(dir, io, i))))
    ensures Sent(Sender, CombineBlocksSuccess(i, Reassemble(Readable(dir, io, i)))) in r.1 <==> i !in io.combineFaults
    ensures Sent(Sender, CombineFail) in r.1 <==> i in io.combineFaults || Unreadable(dir, io, i) != {}
    ensures |r.1| > 0 && forall j :: 0 <= j < |r.1| - 1 ==> r.1[j] == Sent(Sender, CombineFail)
  {
    var fail := Sent(Sender, CombineFail);
    var data := Reassemble(Readable(dir, io, i));
    var readFails := Repeat(fail, |Unreadable(dir, io, i)|);
    assert Unreadable(dir, io, i) != {} ==> readFails[0] in readFails;
    if i !in io.combineFaults then (Some(data), readFails + [Sent(Sender, CombineBlocksSuccess(i, data))])
    else
      match io.combineFaults[i]
      case ListingFails => (None, [fail])
      case WriteFails => (None, readFails + [fail])
      case ReadBackFails => (Some(data), readFails + [fail])
  }

  /** Piece `i` of a reassembly has a block directory. */
  predicate HasBlocks(store: Store, peerId: string, fileName: string, i: int)
  {
    PieceKey(peerId, fileName, i) in store.blockDirs
  }

  /** The readable blocks of piece `i`, reassembled. */
  function ReadableReassembly(store: Store, io: Io, peerId: string, fileName: string, i: int): seq<Byte>
    requires HasBlocks(store, peerId, fileName, i)
  {
    Reassemble(Readable(store.blockDirs[PieceKey(peerId, fileName, i)], io, i))
  }

  /** Reassembling piece `i` writes its combined file: it has a block
      directory and neither its listing nor its write fails. */
  predicate CombineWrites(store: Store, io: Io, peerId: string, fileName: string, i: int)
  {
    HasBlocks(store, peerId, fileName, i) && (i !in io.combineFaults || io.combineFaults[i] == ReadBackFails)
  }

  /** Reassembling piece `i` reports a failure: it has a block directory
      and one of its calls fails or one of its blocks cannot be read. */
  predicate CombineFaulty(store: Store, io: Io, peerId: string, fileName: string, i: int)
  {
    HasBlocks(store, peerId, fileName, i)
    && (i in io.combineFaults || Unreadable(store.blockDirs[PieceKey(peerId, fileName, i)], io, i) != {})
  }

  /** `m` is the success reply for one of the pieces `from .. n - 1` that
      has a block directory and no failing call, carrying its readable
      blocks reassembled. */
  predicate CombinedFrom(store: Store, io: Io, peerId: string, fileName: string, from: int, n: int, m: Sent)
  {
    && m.to == Sender
    && m.reply.CombineBlocksSuccess?
    && from <= m.reply.pieceIndex < n
    && HasBlocks(store, peerId, fileName, m.reply.pieceIndex)
    && m.reply.pieceIndex !in io.combineFaults
    && m.reply.pieceData == ReadableReassembly(store, io, peerId, fileName, m.reply.pieceIndex)
  }

  /** The `piece_<i>.bin` files COMBINE_PIECES writes for pieces `0 .. n - 1`:
      one per piece whose block directory exists and whose listing and
      write succeed, holding its readable blocks reassembled; a piece
      without a block directory is skipped silently. */
  function CombinedOutput(store: Store, io: Io, peerId: string, fileName: string, n: nat): (out: map<(string, int), seq<Byte>>)
    ensures forall c :: c in out ==> c.0 == fileName && 0 <= c.1 < n && CombineWrites(store, io, peerId, fileName, c.1)
    ensures forall i :: 0 <= i < n && CombineWrites(store, io, peerId, fileName, i) ==>
      (fileName, i) in out && out[(fileName, i)] == ReadableReassembly(store, io, peerId, fileName, i)
  {
    map i | 0 <= i < n && CombineWrites(store, io, peerId, fileName, i)
      :: (fileName, i) := ReadableReassembly(store, io, peerId, fileName, i)
  }

  /** The replies about piece `i`: none without a block directory. */
  function PieceReplies(store: Store, io: Io, peerId: string, fileName: string, i: int): seq<Sent>
  {
    var key := PieceKey(peerId, fileName, i);
    if key in store.blockDirs then CombineOne(store.blockDirs[key], io, i).1 else []
  }

  /** What the replies about one piece `i < n` can be. */
  lemma PieceRepliesShape(store: Store, io: Io, peerId: string, fileName: string, i: int, n: int)
    requires i < n
    ensures forall m :: m in PieceReplies(store, io, peerId, fileName, i) ==>
      m == Sent(Sender, CombineFail) || CombinedFrom(store, io, peerId, fileName, i, n, m)
    ensures HasBlocks(store, peerId, fileName, i) && i !in io.combineFaults ==>
      Sent(Sender, CombineBlocksSuccess(i, ReadableReassembly(store, io, peerId, fileName, i))) in PieceReplies(store, io, peerId, fileName, i)
    ensures Sent(Sender, CombineFail) in PieceReplies(store, io, peerId, fileName, i) <==> CombineFaulty(store, io, peerId, fileName, i)
  {
  }

  /** The replies for pieces `from .. n - 1`, taken piece by piece in
      index order: the success replies are the reassembled pieces without
      a failing call, and a failure is sent iff some piece has a failing
      call or an unreadable block. */
  function CombineReplies(store: Store, io: Io, peerId: string, fileName: string, from: nat, n: nat): (r: seq<Sent>)
    requires from <= n
    ensures forall m :: m in r ==> m == Sent(Sender, CombineFail) || CombinedFrom(store, io, peerId, fileName, from, n, m)
    ensures forall i :: from <= i < n && HasBlocks(store, peerId, fileName, i) && i !in io.combineFaults ==>
      Sent(Sender, CombineBlocksSuccess(i, ReadableReassembly(store, io, peerId, fileName, i))) in r
    ensures Sent(Sender, CombineFail) in r <==> exists i :: from <= i < n && CombineFaulty(store, io, peerId, fileName, i)
    decreases n - from
  {
    if from == n then []
    else
      var one := PieceReplies(store, io, peerId, fileName, from);
      var rest := CombineReplies(store, io, peerId, fileName, from + 1, n);
      PieceRepliesShape(store, io, peerId, fileName, from, n);
      assert (exists i :: from <= i < n && CombineFaulty(store, io, peerId, fileName, i)) <==>
        CombineFaulty(store, io, peerId, fileName, from) || exists i :: from + 1 <= i < n && CombineFaulty(store, io, peerId, fileName, i);
      one + rest
  }

  /** The success replies in `r` come in strictly ascending piece order. */
  predicate SuccessesAscending(r: seq<Sent>)
  {
    forall a, b :: 0 <= a < b < |r| && r[a].reply.CombineBlocksSuccess? && r[b].reply.CombineBlocksSuccess? ==>
      r[a].reply.pieceIndex < r[b].reply.pieceIndex
  }

  /** Replies for one piece `i` (only the last can be a success, and it
      is about `i`) followed by replies whose successes are ascending and
      about later pieces keep the successes ascending. */
  lemma AscendingAfterOne(one: seq<Sent>, rest: seq<Sent>, i: int)
    requires forall a :: 0 <= a < |one| - 1 ==> !one[a].reply.CombineBlocksSuccess?
    requires forall m :: m in one && m.reply.CombineBlocksSuccess? ==> m.reply.pieceIndex == i
    requires forall m :: m in rest && m.reply.CombineBlocksSuccess? ==> m.reply.pieceIndex > i
    requires SuccessesAscending(rest)
    ensures SuccessesAscending(one + rest)
  {
    var r := one + rest;
    forall a, b | 0 <= a < b < |r| && r[a].reply.CombineBlocksSuccess? && r[b].reply.CombineBlocksSuccess?
      ensures r[a].reply.pieceIndex < r[b].reply.pieceIndex
    {
      if a >= |one| {
        assert r[a] == rest[a - |one|] && r[b] == rest[b - |one|];
      } else {
        assert r[a] == one[a] && one[a] in one;
        assert r[b] == rest[b - |one|] && rest[b - |one|] in rest;
      }
    }
  }

  /** In the model's reply order, the success replies of a reassembly
      come in strictly ascending piece order. */
  lemma {:induction false} CombineRepliesInIndexOrder(store: Store, io: Io, peerId: string, fileName: string, from: nat, n: nat)
    requires from <= n
    ensures SuccessesAscending(CombineReplies(store, io, peerId, fileName, from, n))
    decreases n - from
  {
    if from < n {
      var one := PieceReplies(store, io, peerId, fileName, from);
      var rest := CombineReplies(store, io, peerId, fileName, from + 1, n);
      CombineRepliesInIndexOrder(store, io, peerId, fileName, from + 1, n);
      assert forall m :: m in rest && m.reply.CombineBlocksSuccess? ==> m.reply.pieceIndex > from;
      AscendingAfterOne(one, rest, from);
    }
  }

  /** COMBINE_PIECES: fails when the file's chunk directory is missing;
      otherwise visits the indices of the record's bitfield (none when the
      torrent is unknown) and reassembles each piece that has a block
      directory, writing the combined piece and sending it back, or
      reporting each failing call. The peer id comes from the message. */
  function OnCombinePieces(a: Agent, peerId: string, infoHash: string, fileName: string, io: Io): (s: Step)
    ensures (peerId, fileName) !in a.store.fileDirs ==> s == Step(a, [Sent(Sender, CombineFail)])
    ensures s.agent.joined == a.joined && s.agent.client == a.client && s.agent.serverPort == a.serverPort
    ensures s.agent.store.fileDirs == a.store.fileDirs && s.agent.store.pieces == a.store.pieces
    ensures s.agent.store.blockDirs == a.store.blockDirs
    ensures (peerId, fileName) in a.store.fileDirs ==>
      var n := if infoHash in a.joined then |a.joined[infoHash].bitfield| else 0;
      && (forall i :: 0 <= i < n && HasBlocks(a.store, peerId, fileName, i) && i !in io.combineFaults ==>
            Sent(Sender, CombineBlocksSuccess(i, ReadableReassembly(a.store, io, peerId, fileName, i))) in s.sent)
      && (forall i :: 0 <= i < n && CombineWrites(a.store, io, peerId, fileName, i) ==>
            (fileName, i) in s.agent.store.combined
            && s.agent.store.combined[(fileName, i)] == ReadableReassembly(a.store, io, peerId, fileName, i))
      && (forall m :: m in s.sent ==> m == Sent(Sender, CombineFail) || CombinedFrom(a.store, io, peerId, fileName, 0, n, m))
      && (Sent(Sender, CombineFail) in s.sent <==> exists i :: 0 <= i < n && CombineFaulty(a.store, io, peerId, fileName, i))
      && (forall c :: c in s.agent.store.combined ==>
            c in a.store.combined || (c.0 == fileName && 0 <= c.1 < n && CombineWrites(a.store, io, peerId, fileName, c.1)))
      && (forall c :: c in a.store.combined && !(c.0 == fileName && 0 <= c.1 < n && CombineWrites(a.store, io, peerId, fileName, c.1)) ==>
            c in s.agent.store.combined && s.agent.store.combined[c] == a.store.combined[c])
  {
    if (peerId, fileName) !in a.store.fileDirs then Step(a, [Sent(Sender, CombineFail)])
    else
      var n := if infoHash in a.joined then |a.joined[infoHash].bitfield| else 0;
      var out := CombinedOutput(a.store, io, peerId, fileName, n);
      Step(a.(store := a.store.(combined := a.store.combined + out)), CombineReplies(a.store, io, peerId, fileName, 0, n))
  }

  // ---------------------------------------------------------------------
  // Dispatch

  /** The message carries every field its branch tests (with JavaScript
      truthiness: "" and 0 fail, and so does an absent field). */
  predicate WellFormed(m: Message)
  {
    match m
    case FileUpload(peerId, fileName, clientPort, hasPieceHashes) =>
      peerId != "" && fileName != "" && clientPort != 0 && hasPieceHashes
    case PeerConnect(info) => info.Some?
    case AddNewJoinedTorrents(_, _, _) => true
    case UpdateJoinedTorrents(_, _, _) => true
    case PieceDownload(fileName, pieceIndex) => fileName != "" && pieceIndex.Some?
    case PieceUpload(peerId, infoHash, fileName, pieceIndex, pieceData) =>
      peerId != "" && fileName != "" && infoHash != "" && pieceIndex.Some? && pieceData.Some?
    case Handshake(peerId, infoHash) => peerId != "" && infoHash != ""
    case CombinePieces(peerId, infoHash, fileName) => peerId != "" && infoHash != "" && fileName != ""
    case Unhandled => false
  }

  /** One inbound message. A message lacking a field its branch tests falls
      through every branch and is ignored; every other message goes to its
      handler. `io` gives the outcomes of the file-system calls the
      handler starts. */
  function Handle(a: Agent, m: Message, io: Io): (s: Step)
    ensures s.agent.serverPort == a.serverPort
    ensures !WellFormed(m) ==> s == Step(a, [])
    ensures m.FileUpload? && WellFormed(m) ==> s == OnFileUpload(a, m.fileName, m.clientPort)
    ensures m.PeerConnect? && WellFormed(m) ==> s == OnPeerConnect(a, m.clientPeerInfo.value)
    ensures m.AddNewJoinedTorrents? ==> s == OnAddNewJoined(a, m.infoHash, m.bitfieldLength, m.isSeeder)
    ensures m.UpdateJoinedTorrents? ==> s == OnUpdateJoined(a, m.infoHash, m.uploaded, m.downloaded)
    ensures m.PieceDownload? && WellFormed(m) ==> s == OnPieceDownload(a, m.fileName, m.pieceIndex.value, io)
    ensures m.PieceUpload? && WellFormed(m) ==>
      s == OnPieceUpload(a, m.infoHash, m.fileName, m.pieceIndex.value, m.pieceData.value, io)
    ensures m.Handshake? && WellFormed(m) ==> s == OnHandshake(a, m.infoHash)
    ensures m.CombinePieces? && WellFormed(m) ==> s == OnCombinePieces(a, m.peerId, m.infoHash, m.fileName, io)
  {
    if !WellFormed(m) then Step(a, [])
    else
      match m
      case FileUpload(_, fileName, clientPort, _) => OnFileUpload(a, fileName, clientPort)
      case PeerConnect(info) => OnPeerConnect(a, info.value)
      case AddNewJoinedTorrents(infoHash, len, isSeeder) => OnAddNewJoined(a, infoHash, len, isSeeder)
      case UpdateJoinedTorrents(infoHash, up, down) => OnUpdateJoined(a, infoHash, up, down)
      case PieceDownload(fileName, pieceIndex) => OnPieceDownload(a, fileName, pieceIndex.value, io)
      case PieceUpload(_, infoHash, fileName, pieceIndex, pieceData) =>
        OnPieceUpload(a, infoHash, fileName, pieceIndex.value, pieceData.value, io)
      case Handshake(_, infoHash) => OnHandshake(a, infoHash)
      case CombinePieces(peerId, infoHash, fileName) => OnCombinePieces(a, peerId, infoHash, fileName, io)
  }

  /** The outcomes of the write and reassembly calls. */
  predicate SameWrites(io1: Io, io2: Io)
  {
    && io1.pieceWriteFails == io2.pieceWriteFails && io1.blockWriteFails == io2.blockWriteFails
    && io1.unreadableBlocks == io2.unreadableBlocks && io1.combineFaults == io2.combineFaults
  }

  /** The outcomes of a download's reads. */
  predicate SameReads(io1: Io, io2: Io)
  {
    io1.scanReadFails == io2.scanReadFails && io1.serveReadFails == io2.serveReadFails
  }

  /** Each handler sees only the file-system outcomes of the calls it
      makes: PIECE_UPLOAD and COMBINE_PIECES only those of writes and
      reassembly, PIECE_DOWNLOAD only those of its reads, and every other
      message none; and downloads, handshakes and FILE_UPLOAD never change
      the agent. */
  lemma HandlersSeeOwnIo(a: Agent, m: Message, io1: Io, io2: Io)
    ensures !m.PieceUpload? && !m.CombinePieces? && !m.PieceDownload? ==> Handle(a, m, io1) == Handle(a, m, io2)
    ensures m.PieceDownload? && SameReads(io1, io2) ==> Handle(a, m, io1) == Handle(a, m, io2)
    ensures (m.PieceUpload? || m.CombinePieces?) && SameWrites(io1, io2) ==> Handle(a, m, io1) == Handle(a, m, io2)
    ensures m.Handshake? || m.PieceDownload? || m.FileUpload? || m.Unhandled? ==> Handle(a, m, io1).agent == a
  {
    if m.PieceUpload? && WellFormed(m) && SameWrites(io1, io2) {
      UploadSeesWrites(a, m.infoHash, m.fileName, m.pieceIndex.value, m.pieceData.value, io1, io2);
    } else if m.CombinePieces? && WellFormed(m) && SameWrites(io1, io2) {
      CombineSeesWrites(a, m.peerId, m.infoHash, m.fileName, io1, io2);
    }
  }

  /** PIECE_UPLOAD sees only the outcomes of writes. */
  lemma UploadSeesWrites(a: Agent, infoHash: string, fileName: string, pieceIndex: int, data: seq<Byte>, io1: Io, io2: Io)
    requires SameWrites(io1, io2)
    ensures OnPieceUpload(a, infoHash, fileName, pieceIndex, data, io1) == OnPieceUpload(a, infoHash, fileName, pieceIndex, data, io2)
  {
  }

  /** COMBINE_PIECES sees only the outcomes of its listing, reads and write. */
  lemma CombineSeesWrites(a: Agent, peerId: string, infoHash: string, fileName: string, io1: Io, io2: Io)
    requires SameWrites(io1, io2)
    ensures OnCombinePieces(a, peerId, infoHash, fileName, io1) == OnCombinePieces(a, peerId, infoHash, fileName, io2)
  {
    if (peerId, fileName) in a.store.fileDirs {
      var n := if infoHash in a.joined then |a.joined[infoHash].bitfield| else 0;
      CombineRepliesSeeWrites(a.store, io1, io2, peerId, fileName, 0, n);
      forall i | 0 <= i < n && HasBlocks(a.store, peerId, fileName, i)
        ensures ReadableReassembly(a.store, io1, peerId, fileName, i) == ReadableReassembly(a.store, io2, peerId, fileName, i)
      {
        ReadableSeesWrites(a.store.blockDirs[PieceKey(peerId, fileName, i)], io1, io2, i);
      }
      assert CombinedOutput(a.store, io1, peerId, fileName, n) == CombinedOutput(a.store, io2, peerId, fileName, n);
    }
  }

  /** Which blocks of a piece reassembly can read depends on no download read. */
  lemma ReadableSeesWrites(dir: map<nat, seq<Byte>>, io1: Io, io2: Io, i: int)
    requires SameWrites(io1, io2)
    ensures Readable(dir, io1, i) == Readable(dir, io2, i)
    ensures Unreadable(dir, io1, i) == Unreadable(dir, io2, i)
  {
  }

  /** The replies of a reassembly see only the outcomes of its own calls. */
  lemma {:induction false} CombineRepliesSeeWrites(store: Store, io1: Io, io2: Io, peerId: string, fileName: string, from: nat, n: nat)
    requires SameWrites(io1, io2) && from <= n
    ensures CombineReplies(store, io1, peerId, fileName, from, n) == CombineReplies(store, io2, peerId, fileName, from, n)
    decreases n - from
  {
    if from < n {
      var key := PieceKey(peerId, fileName, from);
      if key in store.blockDirs {
        ReadableSeesWrites(store.blockDirs[key], io1, io2, from);
      }
      CombineRepliesSeeWrites(store, io1, io2, peerId, fileName, from + 1, n);
    }
  }

  // ---------------------------------------------------------------------
  // Round trips

  /** The client's upload of piece `i` stores it and every one of its
      blocks. */
  predicate UploadWritesSucceed(io: Io, i: int, data: seq<Byte>)
  {
    i !in io.pieceWriteFails && FailedBlocks(io, i, CeilDiv(|data|, BlockSize)) == {}
  }

  /** Reassembling piece `i` hits no failing call and no unreadable block. */
  predicate CombineSucceeds(io: Io, i: int)
  {
    i !in io.combineFaults && forall b :: b in io.unreadableBlocks ==> b.0 != i
  }

  /** Accept then reassemble: after the client's agent accepts a non-empty
      piece with every write succeeding, into a block directory that held
      no leftovers beyond the piece's own blocks, a COMBINE_PIECES whose
      calls succeed for it sends that very piece back. */
  lemma AcceptThenCombine(a: Agent, infoHash: string, fileName: string, pieceIndex: nat, data: seq<Byte>, up: Io, cb: Io)
    requires HasClientId(a) && infoHash in a.joined
    requires pieceIndex < |a.joined[infoHash].bitfield|
    requires |data| > 0
    requires var key := PieceKey(a.client.value.peerId, fileName, pieceIndex);
      forall k :: k in BlockDirOrEmpty(a.store, key) ==> k < CeilDiv(|data|, BlockSize)
    requires UploadWritesSucceed(up, pieceIndex, data) && CombineSucceeds(cb, pieceIndex)
    ensures var accepted := OnPieceUpload(a, infoHash, fileName, pieceIndex, data, up).agent;
      Sent(Sender, CombineBlocksSuccess(pieceIndex, data)) in
        OnCombinePieces(accepted, a.client.value.peerId, infoHash, fileName, cb).sent
  {
    var me := a.client.value.peerId;
    var key := PieceKey(me, fileName, pieceIndex);
    var accepted := OnPieceUpload(a, infoHash, fileName, pieceIndex, data, up).agent;
    AcceptStoresBlocks(a, infoHash, fileName, pieceIndex, data, up);
    UploadThenReassemble(BlockDirOrEmpty(a.store, key), data);
    CombineSendsReassembly(accepted, me, infoHash, fileName, pieceIndex, cb);
  }

  /** The client's agent accepting a piece whose writes all succeed: the
      file's directory exists, the piece's block directory holds its blocks
      over what was there, and the record's bitfield keeps its length. */
  lemma AcceptStoresBlocks(a: Agent, infoHash: string, fileName: string, pieceIndex: nat, data: seq<Byte>, up: Io)
    requires HasClientId(a) && infoHash in a.joined
    requires pieceIndex < |a.joined[infoHash].bitfield|
    requires |data| > 0
    requires UploadWritesSucceed(up, pieceIndex, data)
    ensures var b := OnPieceUpload(a, infoHash, fileName, pieceIndex, data, up).agent;
      var key := PieceKey(a.client.value.peerId, fileName, pieceIndex);
      && (a.client.value.peerId, fileName) in b.store.fileDirs
      && key in b.store.blockDirs
      && b.store.blockDirs[key] == WriteBlocks(BlockDirOrEmpty(a.store, key), Split(data, BlockSize), {})
      && infoHash in b.joined && |b.joined[infoHash].bitfield| == |a.joined[infoHash].bitfield|
  {
  }

  /** A COMBINE_PIECES whose calls succeed for piece `i`, below the
      record's bitfield length and with a block directory, sends back the
      directory's blocks reassembled. */
  lemma CombineSendsReassembly(b: Agent, peerId: string, infoHash: string, fileName: string, i: nat, cb: Io)
    requires (peerId, fileName) in b.store.fileDirs && infoHash in b.joined
    requires i < |b.joined[infoHash].bitfield|
    requires HasBlocks(b.store, peerId, fileName, i) && CombineSucceeds(cb, i)
    ensures Sent(Sender, CombineBlocksSuccess(i, Reassemble(b.store.blockDirs[PieceKey(peerId, fileName, i)]))) in
      OnCombinePieces(b, peerId, infoHash, fileName, cb).sent
  {
    var dir := b.store.blockDirs[PieceKey(peerId, fileName, i)];
    assert Readable(dir, cb, i) == dir;
  }

  /** Accept then serve: once the client's agent accepts a piece whose
      write succeeds, a PIECE_DOWNLOAD for it whose reads succeed streams
      exactly that piece, whatever became of its block writes; a failing
      read of any stored piece of the file sends nothing, and a failing
      read of this piece alone answers with an error. */
  lemma AcceptThenServe(a: Agent, infoHash: string, fileName: string, pieceIndex: int, data: seq<Byte>, io: Io, rd: Io)
    requires HasClientId(a) && pieceIndex !in io.pieceWriteFails
    ensures var accepted := OnPieceUpload(a, infoHash, fileName, pieceIndex, data, io).agent;
      var served := OnPieceDownload(accepted, fileName, pieceIndex, rd).sent;
      var me := a.client.value.peerId;
      && (ScanFails(accepted.store, me, fileName, rd) ==> served == [])
      && (!ScanFails(accepted.store, me, fileName, rd) && pieceIndex in rd.serveReadFails ==>
            served == [Sent(Sender, ErrorReply)])
      && (!ScanFails(accepted.store, me, fileName, rd) && pieceIndex !in rd.serveReadFails ==>
            && |served| == 1 + CeilDiv(|data|, BlockSize)
            && forall k :: 0 <= k < |served| ==> served[k] == Sent(Sender, ServeReplies(data, pieceIndex, a.client.value)[k]))
  {
  }
}

=== FILE: tracker.dfy ===
/** The tracker's swarm registry: the publish handler and the four announce
    events, each a pure transition from the registry and a request to the
    new registry, the reply and whether the full registry is broadcast. */
module Tracker {
  import opened Common
  import opened Content

  /** `torrentMap`: content identifier to torrent. */
  type Registry = map<string, Torrent>

  /** Every peer of every torrent has exactly one role flag set. */
  ghost predicate RolesConsistent(reg: Registry)
  {
    forall h, i :: h in reg && 0 <= i < |reg[h].torrentPeers| ==> RoleConsistent(reg[h].torrentPeers[i])
  }

  // ---------------------------------------------------------------------
  // Publish

  /** The `pieceHashes` field of a publish body: missing, a JSON value that
      is not an array (truthy or falsy), or an array of hashes. */
  datatype HashesField = Missing | NotArray(truthy: bool) | HashArray(hashes: seq<string>)

  /** A publish body. A missing string field is modelled as "" and a missing
      number as 0: both are falsy, which is all the handler checks. */
  datatype PublishRequest = PublishRequest(
    peerId: string,
    peerIp: string,
    peerPort: int,
    fileName: string,
    fileSize: int,
    pieceHashes: HashesField,
    infoHash: string)

  datatype PublishError = MissingField | InvalidFormat | Conflict

  datatype PublishReply =
    | PublishSuccess(fileName: string, fileSize: int, pieceHashes: seq<string>)
    | PublishFail(error: PublishError)

  datatype PublishOutcome = PublishOutcome(registry: Registry, reply: PublishReply, broadcast: bool)

  /** All seven fields are truthy. An array is truthy even when empty. */
  predicate HasAllFields(req: PublishRequest)
  {
    && req.peerId != ""
    && req.peerIp != ""
    && req.peerPort != 0
    && req.fileName != ""
    && req.fileSize != 0
    && (req.pieceHashes.HashArray? || (req.pieceHashes.NotArray? && req.pieceHashes.truthy))
    && req.infoHash != ""
  }

  /** `POST /publish`: validate, then register a torrent whose only peer is
      the publisher, as a seeder with nothing uploaded yet. */
  function Publish(reg: Registry, req: PublishRequest): (o: PublishOutcome)
    ensures o.reply.PublishFail? <==>
      !HasAllFields(req) || !req.pieceHashes.HashArray? || req.infoHash in reg
    ensures !HasAllFields(req) ==> o.reply == PublishFail(MissingField)
    ensures HasAllFields(req) && !req.pieceHashes.HashArray? ==> o.reply == PublishFail(InvalidFormat)
    ensures HasAllFields(req) && req.pieceHashes.HashArray? && req.infoHash in reg ==>
      o.reply == PublishFail(Conflict)
    ensures o.reply.PublishFail? ==> o.registry == reg && !o.broadcast
    ensures o.reply.PublishSuccess? ==>
      && o.broadcast
      && o.registry.Keys == reg.Keys + {req.infoHash}
      && (forall h :: h in reg ==> o.registry[h] == reg[h])
      && o.reply == PublishSuccess(req.fileName, req.fileSize, req.pieceHashes.hashes)
    ensures o.reply.PublishSuccess? ==>
      var t := o.registry[req.infoHash];
      && GetInfoHash(t) == req.infoHash
      && |t.torrentPeers| == 1
      && SamePeer(t.torrentPeers[0], req.peerId, req.peerIp, req.peerPort)
      && t.torrentPeers[0].isSeeder && !t.torrentPeers[0].isLeeching
      && t.torrentPeers[0].uploaded == 0 && t.torrentPeers[0].downloaded == 0
      && |GetFiles(t)| == 1
      && GetFiles(t)[0].fileName == req.fileName
      && GetFiles(t)[0].fileSize == req.fileSize
      && GetFiles(t)[0].pieces == DerivePieces(req.fileSize, req.pieceHashes.hashes)
  {
    if !HasAllFields(req) then
      PublishOutcome(reg, PublishFail(MissingField), false)
    else if !req.pieceHashes.HashArray? then
      PublishOutcome(reg, PublishFail(InvalidFormat), false)
    else if req.infoHash in reg then
      PublishOutcome(reg, PublishFail(Conflict), false)
    else
      var hashes := req.pieceHashes.hashes;
      var publisher := NewPeer(req.peerId, req.peerIp, req.peerPort, 0, true);
      var torrent := NewTorrent(req.infoHash, [FileSpec(req.fileName, req.fileSize, Some(hashes))], [publisher]);
      PublishOutcome(reg[req.infoHash := torrent], PublishSuccess(req.fileName, req.fileSize, hashes), true)
  }

  /** Publishing the same content identifier a second time is a conflict
      and leaves the registry as the first publish left it. */
  lemma SecondPublishConflicts(reg: Registry, first: PublishRequest, second: PublishRequest)
    requires Publish(reg, first).reply.PublishSuccess?
    requires HasAllFields(second) && second.pieceHashes.HashArray?
    requires second.infoHash == first.infoHash
    ensures Publish(Publish(reg, first).registry, second).reply == PublishFail(Conflict)
    ensures Publish(Publish(reg, first).registry, second).registry == Publish(reg, first).registry
  {
  }

  // ---------------------------------------------------------------------
  // Announce

  /** The `event` field: absent or empty, one of the four known events, or
      any other value. */
  datatype Event = NoEvent | Started | Regular | Completed | Stopped | Unrecognised

  datatype SeedingPeerInfo = SeedingPeerInfo(seedingPeerId: string, seedingPeerIp: string, seedingPeerPort: int)

  datatype AnnounceRequest = AnnounceRequest(
    event: Event,
    peerId: string,
    peerIp: string,
    peerPort: int,
    infoHash: string,
    uploaded: int,
    downloaded: int,
    fileSize: int,
    seedingPeerInfo: Option<SeedingPeerInfo>)

  datatype AnnounceReply =
    | AnnounceFail
    | StartedSuccess(torrent: Torrent, infoHash: string)
    | StartedFail
    | CompletedSuccess
    | CompletedFail
    | RegularSuccess
    | RegularFail
    | StoppedSuccess
    | StoppedFail

  datatype AnnounceOutcome = AnnounceOutcome(registry: Registry, reply: AnnounceReply, broadcast: bool)

  /** Index of the first peer with the given id, address and port at or
      after `from`. */
  function FindPeer(peers: seq<TorrentPeer>, peerId: string, peerIp: string, peerPort: int,
                    from: nat := 0): (r: Option<nat>)
    requires from <= |peers|
    ensures r.Some? ==> from <= r.value < |peers| && SamePeer(peers[r.value], peerId, peerIp, peerPort)
    ensures r.Some? ==> forall j :: from <= j < r.value ==> !SamePeer(peers[j], peerId, peerIp, peerPort)
    ensures r.None? ==> forall j :: from <= j < |peers| ==> !SamePeer(peers[j], peerId, peerIp, peerPort)
    decreases |peers| - from
  {
    if from == |peers| then None
    else if SamePeer(peers[from], peerId, peerIp, peerPort) then Some(from)
    else FindPeer(peers, peerId, peerIp, peerPort, from + 1)
  }

  /** Two peer lists that agree on every peer's id, address and port have
      the same first match. */
  lemma {:induction false} FindPeerIgnoresCounters(a: seq<TorrentPeer>, b: seq<TorrentPeer>,
                                                    peerId: string, peerIp: string, peerPort: int, from: nat)
    requires |a| == |b| && from <= |a|
    requires forall k :: 0 <= k < |a| ==>
      a[k].peerId == b[k].peerId && a[k].peerIp == b[k].peerIp && a[k].peerPort == b[k].peerPort
    ensures FindPeer(a, peerId, peerIp, peerPort, from) == FindPeer(b, peerId, peerIp, peerPort, from)
    decreases |a| - from
  {
    if from < |a| {
      FindPeerIgnoresCounters(a, b, peerId, peerIp, peerPort, from + 1);
    }
  }

  predicate HasPeerId(peers: seq<TorrentPeer>, peerId: string)
  {
    exists i :: 0 <= i < |peers| && peers[i].peerId == peerId
  }

  /** STARTED: join the swarm as a leecher unless a peer with this id is
      already a member; reply with the (possibly grown) torrent. */
  function AnnounceStarted(reg: Registry, req: AnnounceRequest): (o: AnnounceOutcome)
    ensures req.infoHash !in reg ==> o == AnnounceOutcome(reg, StartedFail, false)
    ensures req.infoHash in reg ==>
      && o.registry.Keys == reg.Keys
      && o.reply == StartedSuccess(o.registry[req.infoHash], req.infoHash)
      && (forall h :: h in reg && h != req.infoHash ==> o.registry[h] == reg[h])
    ensures req.infoHash in reg && HasPeerId(reg[req.infoHash].torrentPeers, req.peerId) ==>
      o.registry == reg && !o.broadcast
    ensures req.infoHash in reg && !HasPeerId(reg[req.infoHash].torrentPeers, req.peerId) ==>
      var before, after := reg[req.infoHash], o.registry[req.infoHash];
      && o.broadcast
      && after.infoHash == before.infoHash && after.files == before.files
      && |after.torrentPeers| == |before.torrentPeers| + 1
      && after.torrentPeers[..|before.torrentPeers|] == before.torrentPeers
      && var p := after.torrentPeers[|before.torrentPeers|];
         SamePeer(p, req.peerId, req.peerIp, req.peerPort)
         && !p.isSeeder && p.isLeeching && p.uploaded == req.uploaded && p.downloaded == 0
  {
    if req.infoHash !in reg then
      AnnounceOutcome(reg, StartedFail, false)
    else
      var torrent := reg[req.infoHash];
      if HasPeerId(torrent.torrentPeers, req.peerId) then
        AnnounceOutcome(reg, StartedSuccess(torrent, req.infoHash), false)
      else
        var grown := AddPeer(torrent, NewPeer(req.peerId, req.peerIp, req.peerPort, req.uploaded, false));
        AnnounceOutcome(reg[req.infoHash := grown], StartedSuccess(grown, req.infoHash), true)
  }

  /** A second STARTED by the same peer adds nobody and still succeeds. */
  lemma StartedTwiceAddsOnce(reg: Registry, req: AnnounceRequest)
    requires req.infoHash in reg
    ensures var once := AnnounceStarted(reg, req).registry;
      && AnnounceStarted(once, req).reply.StartedSuccess?
      && AnnounceStarted(once, req).registry == once
      && |once[req.infoHash].torrentPeers| == |AnnounceStarted(once, req).registry[req.infoHash].torrentPeers|
  {
    var once := AnnounceStarted(reg, req).registry;
    if !HasPeerId(reg[req.infoHash].torrentPeers, req.peerId) {
      var n := |reg[req.infoHash].torrentPeers|;
      assert once[req.infoHash].torrentPeers[n].peerId == req.peerId;
    }
  }

  /** The first member with the given id, address and port becomes a seeder. */
  function PromoteFirst(t: Torrent, peerId: string, peerIp: string, peerPort: int): Torrent
  {
    match FindPeer(t.torrentPeers, peerId, peerIp, peerPort)
    case None => t
    case Some(i) => t.(torrentPeers := t.torrentPeers[i := Promote(t.torrentPeers[i])])
  }

  /** Some torrent of the registry has a member with this id, address and port. */
  predicate KnownAnywhere(reg: Registry, peerId: string, peerIp: string, peerPort: int)
  {
    exists h, i :: h in reg && 0 <= i < |reg[h].torrentPeers| && SamePeer(reg[h].torrentPeers[i], peerId, peerIp, peerPort)
  }

  /** COMPLETED: in every torrent, the first member matching the requester
      becomes a seeder (the loop's `break` leaves only the inner loop). The
      reply fails, with nothing changed, iff no torrent has such a member. */
  function AnnounceCompleted(reg: Registry, req: AnnounceRequest): (o: AnnounceOutcome)
    ensures o.reply == CompletedFail <==> !KnownAnywhere(reg, req.peerId, req.peerIp, req.peerPort)
    ensures o.reply == CompletedSuccess || o.reply == CompletedFail
    ensures o.broadcast <==> o.reply == CompletedSuccess
    ensures o.reply == CompletedFail ==> o.registry == reg
    ensures o.registry.Keys == reg.Keys
    ensures forall h :: h in reg ==>
      var before, after := reg[h].torrentPeers, o.registry[h].torrentPeers;
      && o.registry[h].infoHash == reg[h].infoHash && o.registry[h].files == reg[h].files
      && |after| == |before|
      && forall k :: 0 <= k < |before| ==>
           if FindPeer(before, req.peerId, req.peerIp, req.peerPort) == Some(k)
           then after[k].isSeeder && !after[k].isLeeching && after[k] == Promote(before[k])
           else after[k] == before[k]
  {
    var promoted := map h | h in reg :: PromoteFirst(reg[h], req.peerId, req.peerIp, req.peerPort);
    if KnownAnywhere(reg, req.peerId, req.peerIp, req.peerPort) then
      AnnounceOutcome(promoted, CompletedSuccess, true)
    else
      assert promoted == reg;
      AnnounceOutcome(reg, CompletedFail, false)
  }

  /** The serving peer's credit: the first member matching the seeding peer
      info has `uploaded` increased by `amount`. */
  function CreditUploaded(peers: seq<TorrentPeer>, info: SeedingPeerInfo, amount: int): (r: seq<TorrentPeer>)
    ensures |r| == |peers|
    ensures var seeder := FindPeer(peers, info.seedingPeerId, info.seedingPeerIp, info.seedingPeerPort);
      forall k :: 0 <= k < |peers| ==>
        r[k] == peers[k].(uploaded := peers[k].uploaded + CreditFor(seeder, k, amount))
  {
    match FindPeer(peers, info.seedingPeerId, info.seedingPeerIp, info.seedingPeerPort)
    case None => peers
    case Some(j) => peers[j := peers[j].(uploaded := peers[j].uploaded + amount)]
  }

  /** The requester's credit: the first member matching the requester has
      `downloaded` increased by `amount`, and becomes a seeder when the new
      total equals the file size. The flag says whether it was found. */
  function CreditDownloaded(peers: seq<TorrentPeer>, peerId: string, peerIp: string, peerPort: int,
                            amount: int, fileSize: int): (r: (seq<TorrentPeer>, bool))
    ensures var requester := FindPeer(peers, peerId, peerIp, peerPort);
      && r.1 == requester.Some?
      && |r.0| == |peers|
      && forall k :: 0 <= k < |peers| ==>
           && r.0[k].peerId == peers[k].peerId
           && r.0[k].peerIp == peers[k].peerIp
           && r.0[k].peerPort == peers[k].peerPort
           && r.0[k].uploaded == peers[k].uploaded
           && r.0[k].downloaded == peers[k].downloaded + CreditFor(requester, k, amount)
           && (if requester == Some(k) && peers[k].downloaded + amount == fileSize
               then r.0[k].isSeeder && !r.0[k].isLeeching
               else r.0[k].isSeeder == peers[k].isSeeder && r.0[k].isLeeching == peers[k].isLeeching)
  {
    match FindPeer(peers, peerId, peerIp, peerPort)
    case None => (peers, false)
    case Some(i) =>
      var credited := peers[i].(downloaded := peers[i].downloaded + amount);
      (peers[i := if credited.downloaded == fileSize then Promote(credited) else credited], true)
  }

  /** Amount added to member `k`'s counter when `k` is the matched member. */
  function CreditFor(matched: Option<nat>, k: nat, amount: int): int
  {
    if matched == Some(k) then amount else 0
  }

  /** REGULAR (progress report). The serving peer is credited first, then the
      requester; a requester that is not a member makes the reply fail, but
      the serving peer's credit is not rolled back. The source dereferences
      the torrent and the seeding peer info unguarded, so both are required. */
  function AnnounceRegular(reg: Registry, req: AnnounceRequest): (o: AnnounceOutcome)
    requires req.infoHash in reg && req.seedingPeerInfo.Some?
    ensures o.registry.Keys == reg.Keys
    ensures forall h :: h in reg && h != req.infoHash ==> o.registry[h] == reg[h]
    ensures o.registry[req.infoHash].infoHash == reg[req.infoHash].infoHash
    ensures o.registry[req.infoHash].files == reg[req.infoHash].files
    ensures var before := reg[req.infoHash].torrentPeers;
      o.reply == (if FindPeer(before, req.peerId, req.peerIp, req.peerPort).Some? then RegularSuccess else RegularFail)
    ensures o.broadcast <==> o.reply == RegularSuccess
    ensures
      var before, after := reg[req.infoHash].torrentPeers, o.registry[req.infoHash].torrentPeers;
      var info := req.seedingPeerInfo.value;
      var seeder := FindPeer(before, info.seedingPeerId, info.seedingPeerIp, info.seedingPeerPort);
      var requester := FindPeer(before, req.peerId, req.peerIp, req.peerPort);
      && |after| == |before|
      && forall k :: 0 <= k < |before| ==>
           && after[k].peerId == before[k].peerId
           && after[k].peerIp == before[k].peerIp
           && after[k].peerPort == before[k].peerPort
           && after[k].uploaded == before[k].uploaded + CreditFor(seeder, k, req.downloaded)
           && after[k].downloaded == before[k].downloaded + CreditFor(requester, k, req.downloaded)
           && (if requester == Some(k) && before[k].downloaded + req.downloaded == req.fileSize
               then after[k].isSeeder && !after[k].isLeeching
               else after[k].isSeeder == before[k].isSeeder && after[k].isLeeching == before[k].isLeeching)
  {
    var torrent := reg[req.infoHash];
    var info := req.seedingPeerInfo.value;
    var before := torrent.torrentPeers;
    var paid := CreditUploaded(before, info, req.downloaded);
    FindPeerIgnoresCounters(before, paid, req.peerId, req.peerIp, req.peerPort, 0);
    var (after, found) := CreditDownloaded(paid, req.peerId, req.peerIp, req.peerPort, req.downloaded, req.fileSize);
    var reg' := reg[req.infoHash := torrent.(torrentPeers := after)];
    AnnounceOutcome(reg', if found then RegularSuccess else RegularFail, found)
  }

  /** STOPPED: the named torrent loses every member with the requester's id
      (succeeding even when there was none); other torrents are untouched. */
  function AnnounceStopped(reg: Registry, req: AnnounceRequest): (o: AnnounceOutcome)
    ensures req.infoHash !in reg ==> o == AnnounceOutcome(reg, StoppedFail, false)
    ensures req.infoHash in reg ==>
      && o.reply == StoppedSuccess && o.broadcast
      && o.registry.Keys == reg.Keys
      && (forall h :: h in reg && h != req.infoHash ==> o.registry[h] == reg[h])
      && o.registry[req.infoHash].infoHash == reg[req.infoHash].infoHash
      && o.registry[req.infoHash].files == reg[req.infoHash].files
      && (forall p :: p in o.registry[req.infoHash].torrentPeers <==>
            p in reg[req.infoHash].torrentPeers && GetPeerId(p) != req.peerId)
      && !HasPeerId(o.registry[req.infoHash].torrentPeers, req.peerId)
  {
    if req.infoHash in reg then
      AnnounceOutcome(reg[req.infoHash := RemovePeer(reg[req.infoHash], req.peerId)], StoppedSuccess, true)
    else
      AnnounceOutcome(reg, StoppedFail, false)
  }

  /** The announce dispatcher: a missing event or an unknown one fails and
      changes nothing; the four known events go to their handlers. */
  function Announce(reg: Registry, req: AnnounceRequest): (o: AnnounceOutcome)
    requires req.event == Regular ==> req.infoHash in reg && req.seedingPeerInfo.Some?
    ensures (req.event == NoEvent || req.event == Unrecognised) ==> o == AnnounceOutcome(reg, AnnounceFail, false)
    ensures o.registry.Keys == reg.Keys
    ensures o.reply == AnnounceFail <==> req.event == NoEvent || req.event == Unrecognised
    ensures !o.broadcast ==> o.registry == reg || req.event == Regular
  {
    match req.event
    case NoEvent => AnnounceOutcome(reg, AnnounceFail, false)
    case Started => AnnounceStarted(reg, req)
    case Completed => AnnounceCompleted(reg, req)
    case Regular => AnnounceRegular(reg, req)
    case Stopped => AnnounceStopped(reg, req)
    case Unrecognised => AnnounceOutcome(reg, AnnounceFail, false)
  }

  // ---------------------------------------------------------------------
  // Invariants over whole histories

  /** Every transition of the tracker keeps the two role flags of every
      member in agreement. */
  lemma PublishKeepsRoles(reg: Registry, req: PublishRequest)
    requires RolesConsistent(reg)
    ensures RolesConsistent(Publish(reg, req).registry)
  {
  }

  lemma AnnounceKeepsRoles(reg: Registry, req: AnnounceRequest)
    requires req.event == Regular ==> req.infoHash in reg && req.seedingPeerInfo.Some?
    requires RolesConsistent(reg)
    ensures RolesConsistent(Announce(reg, req).registry)
  {
    var o := Announce(reg, req);
    forall h, i | h in o.registry && 0 <= i < |o.registry[h].torrentPeers|
      ensures RoleConsistent(o.registry[h].torrentPeers[i])
    {
      assert h in reg;
      if req.event == Stopped && h == req.infoHash {
        assert o.registry[h].torrentPeers[i] in reg[h].torrentPeers;
      } else if req.event == Started && h == req.infoHash && i == |reg[h].torrentPeers| {
      } else {
        assert i < |reg[h].torrentPeers|;
      }
    }
  }

  /** A REGULAR request for the given requester, torrent and serving peer. */
  function RegularRequest(infoHash: string, peerId: string, peerIp: string, peerPort: int,
                          fileSize: int, info: SeedingPeerInfo, amount: int): AnnounceRequest
  {
    AnnounceRequest(Regular, peerId, peerIp, peerPort, infoHash, 0, amount, fileSize, Some(info))
  }

  function Sum(xs: seq<int>): int
  {
    if |xs| == 0 then 0 else Sum(xs[..|xs| - 1]) + xs[|xs| - 1]
  }

  /** The registry after a series of REGULAR reports of the given amounts. */
  function ReportAll(reg: Registry, infoHash: string, peerId: string, peerIp: string, peerPort: int,
                     fileSize: int, info: SeedingPeerInfo, amounts: seq<int>): (r: Registry)
    requires infoHash in reg
    ensures r.Keys == reg.Keys
    ensures |r[infoHash].torrentPeers| == |reg[infoHash].torrentPeers|
    decreases |amounts|
  {
    if |amounts| == 0 then reg
    else
      var prior := ReportAll(reg, infoHash, peerId, peerIp, peerPort, fileSize, info, amounts[..|amounts| - 1]);
      AnnounceRegular(prior, RegularRequest(infoHash, peerId, peerIp, peerPort, fileSize, info, amounts[|amounts| - 1])).registry
  }

  /** Some prefix of the reports brings the running total to the file size. */
  predicate ReachesSize(start: int, amounts: seq<int>, fileSize: int)
  {
    exists k :: 1 <= k <= |amounts| && start + Sum(amounts[..k]) == fileSize
  }

  /** One REGULAR report by the member at index `i`, seen from that member. */
  lemma RegularStep(reg: Registry, req: AnnounceRequest, i: nat)
    requires req.event == Regular && req.infoHash in reg && req.seedingPeerInfo.Some?
    requires FindPeer(reg[req.infoHash].torrentPeers, req.peerId, req.peerIp, req.peerPort) == Some(i)
    ensures var before, after := reg[req.infoHash].torrentPeers, AnnounceRegular(reg, req).registry[req.infoHash].torrentPeers;
      && FindPeer(after, req.peerId, req.peerIp, req.peerPort) == Some(i)
      && after[i].downloaded == before[i].downloaded + req.downloaded
      && after[i].isSeeder == (before[i].isSeeder || before[i].downloaded + req.downloaded == req.fileSize)
  {
    var before, after := reg[req.infoHash].torrentPeers, AnnounceRegular(reg, req).registry[req.infoHash].torrentPeers;
    FindPeerIgnoresCounters(before, after, req.peerId, req.peerIp, req.peerPort, 0);
  }

  lemma ReachesSizeSnoc(start: int, init: seq<int>, x: int, fileSize: int)
    ensures ReachesSize(start, init + [x], fileSize) <==>
      ReachesSize(start, init, fileSize) || start + Sum(init) + x == fileSize
  {
    var all := init + [x];
    assert all[..|all|] == all;
    assert all[..|all| - 1] == init;
    if ReachesSize(start, all, fileSize) {
      ReachesSizeSnocDown(start, init, x, fileSize);
    }
    if ReachesSize(start, init, fileSize) {
      ReachesSizeSnocUp(start, init, x, fileSize);
    }
  }

  lemma ReachesSizeSnocDown(start: int, init: seq<int>, x: int, fileSize: int)
    requires ReachesSize(start, init + [x], fileSize)
    requires (init + [x])[..|init| + 1] == init + [x]
    ensures ReachesSize(start, init, fileSize) || start + Sum(init) + x == fileSize
  {
    var all := init + [x];
    var k :| 1 <= k <= |all| && start + Sum(all[..k]) == fileSize;
    if k <= |init| {
      assert all[..k] == init[..k];
    } else {
      assert all[..k][..|init|] == init;
    }
  }

  lemma ReachesSizeSnocUp(start: int, init: seq<int>, x: int, fileSize: int)
    requires ReachesSize(start, init, fileSize)
    ensures ReachesSize(start, init + [x], fileSize)
  {
    var all := init + [x];
    var k :| 1 <= k <= |init| && start + Sum(init[..k]) == fileSize;
    assert init[..k] == all[..k];
  }

  lemma LastSplit(xs: seq<int>)
    requires |xs| > 0
    ensures xs == xs[..|xs| - 1] + [xs[|xs| - 1]]
    ensures Sum(xs) == Sum(xs[..|xs| - 1]) + xs[|xs| - 1]
  {
  }

  /** Progress is cumulative: after any series of REGULAR reports by a member,
      its `downloaded` is its starting value plus the sum of the reported
      amounts, and it is a seeder iff it was one already or some report
      brought the running total exactly to the file size. */
  lemma {:induction false} ProgressIsCumulative(reg: Registry, infoHash: string, peerId: string, peerIp: string,
                                                peerPort: int, fileSize: int, info: SeedingPeerInfo,
                                                amounts: seq<int>, i: nat)
    requires infoHash in reg
    requires FindPeer(reg[infoHash].torrentPeers, peerId, peerIp, peerPort) == Some(i)
    ensures var after := ReportAll(reg, infoHash, peerId, peerIp, peerPort, fileSize, info, amounts);
      && FindPeer(after[infoHash].torrentPeers, peerId, peerIp, peerPort) == Some(i)
      && after[infoHash].torrentPeers[i].downloaded == reg[infoHash].torrentPeers[i].downloaded + Sum(amounts)
      && after[infoHash].torrentPeers[i].isSeeder ==
           (reg[infoHash].torrentPeers[i].isSeeder
            || ReachesSize(reg[infoHash].torrentPeers[i].downloaded, amounts, fileSize))
    decreases |amounts|
  {
    var start := reg[infoHash].torrentPeers[i];
    if |amounts| == 0 {
      assert !ReachesSize(start.downloaded, amounts, fileSize);
    } else {
      var n := |amounts|;
      var init, last := amounts[..n - 1], amounts[n - 1];
      ProgressIsCumulative(reg, infoHash, peerId, peerIp, peerPort, fileSize, info, init, i);
      var prior := ReportAll(reg, infoHash, peerId, peerIp, peerPort, fileSize, info, init);
      var req := RegularRequest(infoHash, peerId, peerIp, peerPort, fileSize, info, last);
      assert ReportAll(reg, infoHash, peerId, peerIp, peerPort, fileSize, info, amounts)
          == AnnounceRegular(prior, req).registry;
      RegularStep(prior, req, i);
      LastSplit(amounts);
      ReachesSizeSnoc(start.downloaded, init, last, fileSize);
    }
  }
}
